=== FILE: README.md ===
# Job-queue archival, warehouse schema rules and regulation-worker destinations in Dafny

This project models three pieces of a customer-data pipeline server and proves properties of those models.

1. **Job-queue archival** (`jobsdb/backup.go`). A background loop looks for the oldest dataset of a job queue that has been renamed with the `pre_drop_` prefix. It compacts the dataset's job-status table to the two newest statuses per job. It then exports the tables page by page into gzipped JSON-lines dumps, either the jobs and status tables or only the failed and aborted jobs, and uploads the dumps. Finally it drops the dataset. Each step is recorded in an operations journal.
   - Modules: `JobsDb`, `BackupConfig`, `StatusCompaction`, `BackupQueries`, `TableDump`, `ArtifactNames`, `DataSetRanges`, `BackupPipeline`, `BackupLoop`, and `Decimal` for integer text.
2. **Warehouse schema evolution** (`warehouse/schema_test.go`). The implementation file is not part of this model. Its behaviour is reconstructed from the tables of this test file, which pin down:
   - which value is written when a column's type changes (`HandleSchemaChange`);
   - the per-table schema diff;
   - the merging of upload and warehouse schemas;
   - the stale-schema check;
   - the folding of staging-file schemas;
   - Snowflake's upper-case naming;
   - the helper tables' fixed schemas.

   The models are total: they give a result for every input, and every test row is proved about them. Inputs that no test row covers take the behaviour the model chooses (see "## Left out").
   - Modules: `SchemaChange`, `Schemas`, `SchemaDiff`, `SchemaMerge`, `SchemaNaming`.
3. **Regulation-worker destinations** (`regulation-worker/internal/destination/destination.go`). This covers the workspace the worker serves, the details of one destination, and the result rule of the retried configuration fetch.
   - Module: `Destination`.

Everything is modelled as pure functions over immutable values:
- Database tables are sequences of rows. The jobs and status tables are in the order their export queries sort them, and the failed-only export sorts its join itself by custom value, job id and execution time.
- The environment (SQL errors, temp-directory and file errors, upload failures) is a set of faults that the run consults. The dataset lookup has its own set of faults.
- The loop is an emitted trace of journal, backup and drop events.
- Go's map iteration order, where it matters, is an explicit parameter.

Facts about the source that the model follows where they differ from a first reading:
- The dataset is dropped even when its backup failed (`jobsdb/backup.go:69-83`).
- The removal of a dump file is deferred only after `createTableDump` has returned without error (`jobsdb/backup.go:171`, `231`, `286`). A dump whose page query, row scan, write or close fails leaves its partial file in the temporary directory, and so does a dump that never ends (`BackupPipeline.QueryFaultOnSecondPageLeavesDump`). The start-up sweep removes such files (`BackupPipeline.LeftDumpsAreSwept`).
- The failed-only export counts the failed and aborted statuses without joining them to their jobs (`jobsdb/backup.go:134`). Its page query does join them (`jobsdb/backup.go:402-406`). A failed status whose job row is missing therefore makes the dump loop wait forever for a row that never comes (`BackupPipeline.FailedOnlyExportHangsOnOrphanStatus`).
- A batch size of zero makes every page empty, and the dump loop never ends (`BackupPipeline.ZeroBatchSizeHangs`).
- `removeTableJSONDumps` is modelled as the name filter its glob applies. The glob's `*` does not cross a `/`.
- `preDropTablePrefix`, `Failed.State` and `Aborted.State` are defined in `jobsdb/jobsdb.go`, which is not part of this model. The model uses their values `pre_drop_`, `failed` and `aborted`.

## Model

| member | source | states |
|---|---|---|
| BackupConfig.IsBackupEnabled | jobsdb/backup.go:29-31 | Backup is enabled exactly when the process-wide flag, the instance flag and a non-empty `JOBS_BACKUP_BUCKET` all hold. |
| BackupConfig.UploadPathPrefixes | jobsdb/backup.go:577-583 | The upload folders are the path prefix, when it is non-empty, followed by `INSTANCE_ID`. `INSTANCE_ID` defaults to "1". The list has one element exactly when the prefix is empty, and two otherwise. |
| BackupConfig.UploadPathPrefixesInjective | jobsdb/backup.go:577-583 | The folder segment list determines the path prefix and the instance id, so instances with different `INSTANCE_ID`s never get the same list of folder segments. |
| BackupConfig.UploadFolderInjective | jobsdb/backup.go:577-586 | When neither the path prefix nor `INSTANCE_ID` contains '/', the segments joined by '/' determine both, so instances with different `INSTANCE_ID`s never upload to the same folder. |
| StatusCompaction.CleanStatusTable | jobsdb/backup.go:108-128 | A status row survives compaction exactly when its rank within its job, newest first, is 1 or 2, that is, when at most one status of the same job has a larger id. |
| StatusCompaction.CleanIsPerJob | jobsdb/backup.go:116-125 | Compaction partitions by job: compacting the table and then taking one job's rows equals compacting that job's rows alone. |
| StatusCompaction.CleanKeepsTwoPerJob | jobsdb/backup.go:116-125 | With distinct ids, each job keeps min(2, its number of statuses) rows. |
| StatusCompaction.CleanKeepsNewest | jobsdb/backup.go:116-125 | Every deleted status of a job has a smaller id than every kept status of the same job. |
| StatusCompaction.CleanIdempotent | jobsdb/backup.go:108-128 | Compacting a compacted table changes nothing. |
| StatusCompaction.CleanKeepsSomeRow | jobsdb/backup.go:108-128 | A non-empty status table stays non-empty. |
| BackupQueries.Page | jobsdb/backup.go:407-414 | A page is the slice of `limit` rows starting at `offset`, or fewer at the end of the table. |
| BackupQueries.SizeWindowIsPrefix | jobsdb/backup.go:364-379 | The payload-size window keeps a prefix of the page. It always keeps the first row of a non-empty page, and keeps further rows only while the running size stays within the budget. |
| BackupQueries.WindowFromIsSlice | jobsdb/backup.go:417-418 | From row i on, the window is a contiguous slice that ends where the running size first exceeds the budget. |
| BackupQueries.FailedMatches | jobsdb/backup.go:402-406 | Every row pairs a failed or aborted status with the job of the same id, and there are at most as many rows as statuses. |
| BackupQueries.CountFailedOrAborted | jobsdb/backup.go:133-139 | The count is at most the number of statuses, and it is zero exactly when no status is failed or aborted. |
| BackupQueries.TextLeqTotal | jobsdb/backup.go:407-410 | Text order is total: of two texts, one sorts no later than the other. |
| BackupQueries.TextLeqTransitive | jobsdb/backup.go:407-410 | Text order is transitive. |
| BackupQueries.RowLeqTotal | jobsdb/backup.go:407-410 | The order by custom value, then job id, then execution time is total. |
| BackupQueries.RowLeqTransitive | jobsdb/backup.go:407-410 | The order by custom value, then job id, then execution time is transitive. |
| BackupQueries.InsertRowSorted | jobsdb/backup.go:407-410 | Inserting a row into a sorted join keeps it sorted. |
| BackupQueries.SortRows | jobsdb/backup.go:407-410 | Sorting gives a permutation of the rows in which every row sorts no later than every row after it. |
| BackupQueries.FailedJoin | jobsdb/backup.go:402-410 | The join is a permutation of the matched pairs, sorted by custom value, then job id, then execution time. |
| BackupQueries.FailedMatchesCount | jobsdb/backup.go:133-139 | When every failed or aborted status has its job, the matched pairs are exactly as many as the count query reports. |
| BackupQueries.FailedJoinMatchesCount | jobsdb/backup.go:133-139 | When every failed or aborted status has its job, the join has exactly as many rows as the count query reports. |
| BackupQueries.FailedMatchesShortOnOrphan | jobsdb/backup.go:133-139 | A failed status without its job leaves fewer matched pairs than the count. |
| BackupQueries.FailedMatchesAtMostCount | jobsdb/backup.go:133-139 | There are never more matched pairs than the count reports. |
| BackupQueries.FailedJoinShortOnOrphan | jobsdb/backup.go:133-139 | A failed status without its job makes the join strictly shorter than the count. |
| BackupQueries.FailedOnlyBatch | jobsdb/backup.go:333-422 | The failed-only page has at most `rowsBatchSize` rows and is the size window of the join's page at the offset. The window holds at least one row of a non-empty page, stays within `maxTotalPayloadSize` when it holds two or more rows, and stops short of the page only where the next row would exceed that budget. |
| BackupQueries.JobsBatch | jobsdb/backup.go:424-478 | The jobs page has at most `rowsBatchSize` rows and is the size window of the jobs page at the offset. The window holds at least one row of a non-empty page, stays within `maxTotalPayloadSize` when it holds two or more rows, and stops short of the page only where the next row would exceed that budget. |
| BackupQueries.StatusBatch | jobsdb/backup.go:480-511 | The status page is the slice of the status table at the offset, with min(batch size, rows left) rows. It is non-empty whenever rows remain and the batch size is positive. |
| TableDump.DumpFrom | jobsdb/backup.go:526-558 | However it ends, the dump's lines extend what was already written, and the offset is the number of lines. A finished dump has at least `totalCount` lines. A failed dump stops at the offset whose query failed. A dump stuck on an empty page before `totalCount` is reported as spinning at that offset. |
| TableDump.CreateTableDump | jobsdb/backup.go:513-565 | The same, from an empty file. The dump fails with nothing written exactly when the first query fails. |
| TableDump.DumpWritesWholeTable | jobsdb/backup.go:513-565 | When the query serves a table page by page and the count equals its size, the dump is exactly that table. |
| TableDump.DumpSpinsWhenCountExceedsRows | jobsdb/backup.go:551-558 | A count above the number of rows the query can return leaves the loop spinning at the table's end, with the whole table written. |
| TableDump.JobsQueryServes | jobsdb/backup.go:424-478 | With a positive batch size, the jobs query pages through the whole jobs table. |
| TableDump.StatusQueryServes | jobsdb/backup.go:480-511 | With a positive batch size, the status query pages through the whole status table. |
| TableDump.FailedOnlyQueryServes | jobsdb/backup.go:333-422 | With a positive batch size, the failed-only query pages through the whole sorted join. |
| ArtifactNames.TrimPrefix | jobsdb/backup.go:159 | `strings.TrimPrefix`: the prefix is dropped exactly when the string starts with it, and nothing else changes. |
| ArtifactNames.FailedOnlyDumpPath | jobsdb/backup.go:153-161 | The failed-only dump lies in the dump directory and ends with `_aborted.gz`. |
| ArtifactNames.JobsDumpPath | jobsdb/backup.go:206-221 | The jobs dump lies in the dump directory and ends with `.gz`. |
| ArtifactNames.StatusDumpPath | jobsdb/backup.go:267-275 | The status dump lies in the dump directory and ends with `.gz`. |
| ArtifactNames.DumpPathsDistinct | jobsdb/backup.go:153-161 | The jobs, status and failed-only dumps of one renamed dataset never share a path. |
| ArtifactNames.JobsDumpPathRoundTrip | jobsdb/backup.go:213-220 | The min and max job id and the start and end time can be read back from the jobs dump's file name. |
| ArtifactNames.LeftoverDumps | jobsdb/backup.go:309-319 | Only files matching `<dir><queue>_job*` are removed, in listing order. |
| ArtifactNames.LeftoverDumpsComplete | jobsdb/backup.go:313-318 | Every listed file that matches the glob is removed. |
| ArtifactNames.LeftoverDumpsCoverDataSet | jobsdb/backup.go:309-319 | All three dumps a renamed dataset of the queue can leave behind match the glob and are removed. |
| DataSetRanges.DnumList | jobsdb/backup.go:626-633 | Every index listed comes from a table named `pre_drop_<queue>_jobs_<index>`. |
| DataSetRanges.DnumListComplete | jobsdb/backup.go:627-632 | Every table with that prefix contributes its index. |
| DataSetRanges.DnumListEmpty | jobsdb/backup.go:634-636 | The index list is empty exactly when no table has the prefix. |
| DataSetRanges.StatusTableNotListed | jobsdb/backup.go:625-628 | A renamed status table never passes for a jobs table. |
| DataSetRanges.EarliestIsMinimal | jobsdb/backup.go:639-644 | Under a strict total order, the chosen index precedes every other one. |
| DataSetRanges.NanosToMillis | jobsdb/backup.go:662-663 | Nanoseconds are divided by 10^6, truncating toward zero for either sign. |
| DataSetRanges.GetBackupDSRange | jobsdb/backup.go:618-666 | The result is the zero range exactly when the table listing succeeds and no renamed jobs table exists. It is a panic exactly when the table listing fails, or when a renamed table exists and a bounds query fails or the creation-time bounds are NULL. Otherwise it is a renamed dataset whose jobs table is in the catalog. |
| DataSetRanges.FoundRangeDescribesOldestDataSet | jobsdb/backup.go:639-665 | The range found is the oldest dataset. Its ids are the table's bounds, with NULL read as 0. Its times are the bounds in milliseconds, start before end. |
| BackupPipeline.RunExport | jobsdb/backup.go:130-181 | An export:<br>- stops at a count error;<br>- does nothing on a zero count;<br>- touches no file when the name or the file cannot be made;<br>- hangs exactly when the dump spins;<br>- leaves the partial file, unremoved, when its dump fails, spins or cannot be closed;<br>- otherwise writes, uploads and then removes its dump.<br>A failed upload still removes the dump. |
| BackupPipeline.FailedOnlyBackup | jobsdb/backup.go:130-181 | Every action is on the `_aborted.gz` path and every dump holds joined rows. No failed or aborted status means nothing is done. Errors and hangs name this export. |
| BackupPipeline.BackupJobsTable | jobsdb/backup.go:183-242 | Every action is on the jobs dump path and every dump holds jobs. An empty jobs table means nothing is done. Errors and hangs name this export. |
| BackupPipeline.BackupStatusTable | jobsdb/backup.go:244-297 | Every action is on the status dump path and every dump holds statuses. An empty status table means nothing is done. Errors and hangs name this export. |
| BackupPipeline.CompleteBackup | jobsdb/backup.go:299-307 | The status export runs only when the jobs export completed, and then the run is the jobs export's actions followed by the status export's. |
| BackupPipeline.BackupDS | jobsdb/backup.go:88-106 | A compaction error ends the run before any export. Otherwise the run is the compaction followed by the failed-only export or the complete backup, each reading the compacted status table. Only a failed-only run dumps joined rows. |
| BackupPipeline.ExportWholeTable | jobsdb/backup.go:513-565 | Without faults, an export of a served table writes, uploads and removes exactly that table's dump. |
| BackupPipeline.JobsExportDumpsAllJobs | jobsdb/backup.go:183-242 | Without faults, the jobs export archives the whole jobs table at the jobs dump path. |
| BackupPipeline.StatusExportDumpsAllStatuses | jobsdb/backup.go:244-297 | Without faults, the status export archives the whole status table at the status dump path. |
| BackupPipeline.FailedOnlyExportDumpsJoin | jobsdb/backup.go:130-181 | When every failed status has its job, the failed-only export archives the whole join at the `_aborted.gz` path. |
| BackupPipeline.QueryFaultOnSecondPageLeavesDump | jobsdb/backup.go:167-171 | A query failing on the second page fails the export with a dump error and leaves the first page's rows in a file that is never removed. |
| BackupPipeline.FailedOnlyExportHangsOnOrphanStatus | jobsdb/backup.go:133-167 | A failed status without its job hangs the failed-only export, with the whole join written to a file left behind. |
| BackupPipeline.ZeroBatchSizeHangs | jobsdb/backup.go:227 | A zero batch size hangs the export of a non-empty jobs table, leaving an empty dump file. |
| BackupPipeline.ExportRunShape | jobsdb/backup.go:167-177 | In every export, an upload directly follows its dump and a closed dump is removed last. The dump file is left on disk exactly when it was created and not closed, and then the export hangs or fails with a dump error. |
| BackupPipeline.BackupDSCleansUp | jobsdb/backup.go:88-106 | Whatever the faults, every upload of a backup directly follows its dump and every closed dump is removed. At most one of the dataset's dumps is left, and only when the run hangs or fails on a dump. |
| BackupPipeline.LeftDumpsAreSwept | jobsdb/backup.go:309-319 | Every dump a backup leaves behind is removed by the next start-up sweep of the queue. |
| BackupPipeline.CompleteBackupArchivesBothTables | jobsdb/backup.go:88-106 | Without faults, a complete backup is exactly:<br>- compaction;<br>- the jobs dump written, uploaded and removed;<br>- the compacted status table written, uploaded and removed. |
| BackupPipeline.FailedOnlyBackupArchivesJoin | jobsdb/backup.go:88-106 | Without faults, a failed-only backup is exactly the compaction and then the sorted join of the compacted statuses written, uploaded and removed. |
| BackupPipeline.CompactionKeepsJobsJoined | jobsdb/backup.go:108-128 | Compaction keeps every failed status joined to its job. |
| BackupLoop.DropTables | jobsdb/backup.go:82 | Dropping removes exactly the dataset's two tables from the catalog. |
| BackupLoop.BackupThenDrop | jobsdb/backup.go:63-83 | The loop halts exactly when the backup hangs, and then only the backup's entry is open. Otherwise there are six events, the journal is balanced, the dataset is dropped, and its tables leave the catalog. |
| BackupLoop.Step | jobsdb/backup.go:37-84 | One loop pass:<br>- cancellation stops it;<br>- a disabled tick only waits and keeps the multiplier;<br>- the multiplier becomes 1 or 6;<br>- the journal is balanced unless a backup hangs;<br>- only catalog tables are backed up;<br>- a drop removes the dataset from the catalog. |
| BackupLoop.RunLoop | jobsdb/backup.go:42-84 | Over any sequence of ticks the journal is balanced, or only the hung backup's entry is open. |
| BackupLoop.OpenEntriesAppend | jobsdb/backup.go:68-83 | The open journal entries after two traces are those of the second started from the first's. |
| BackupLoop.DropsAfterFailedBackup | jobsdb/backup.go:69-83 | A failed backup is still followed by the drop, and the tables leave the catalog. |
| BackupLoop.NoBackupTwice | jobsdb/backup.go:82-83 | A dropped dataset is not backed up by the next tick unless its jobs table reappears. |
| BackupLoop.SleepMultiplierRule | jobsdb/backup.go:53-61 | No dataset sets the multiplier to 6. A dataset backed up sets it to 1. An aborted lookup crashes the loop. |
| BackupLoop.FoundDataSetTickEvents | jobsdb/backup.go:49-83 | A tick that finds a dataset whose backup returns, however it ends, emits exactly: the wait, backup start, backup, backup done, drop start, drop and drop done. The next wait is one period and the dataset's tables leave the catalog. |
| BackupLoop.HungBackupTickEvents | jobsdb/backup.go:63-68 | A tick whose backup hangs emits exactly the wait, the backup start and the backup, and halts with that entry open and the catalog unchanged. |
| BackupLoop.NoDataSetTickEvents | jobsdb/backup.go:53-61 | An enabled tick whose lookup aborts emits the wait and the crash. One that finds no dataset emits only the wait. |
| Decimal.IntToStringRoundTrip | jobsdb/backup.go:213-220 | Decimal integer text parses back to the integer. |
| Decimal.IntToStringInjective | jobsdb/backup.go:213-220 | Distinct integers have distinct decimal text. |
| SchemaChange.HandleSchemaChange | warehouse/schema_test.go:14-271 | A value and no error, or an error and no value. NotSupported exactly outside string/json columns and the int-float pair. Incompatible exactly when a numeric cross-conversion gets a value of the wrong kind. |
| SchemaChange.UnsupportedConversions | warehouse/schema_test.go:115-177 | Nothing converts from a `boolean` or `datetime` column, and nothing but the other numeric type converts from an `int` or `float` column. |
| SchemaChange.NumericCrossConversion | warehouse/schema_test.go:24-37 | int from float needs a float value and truncates it. float from int needs an int value. Any other value is Incompatible. |
| SchemaChange.StringColumnTakesText | warehouse/schema_test.go:38-72 | A `string` column takes every value as its text without error, so string values pass through unchanged. |
| SchemaChange.JsonColumnEncodes | warehouse/schema_test.go:73-114 | A `json` column never fails:<br>- numbers and booleans become bare text;<br>- arrays pass through;<br>- other values become quoted text. |
| SchemaChange.HandleSchemaChangeConversionRows | warehouse/schema_test.go:23-72 | The test rows that convert into numeric and `string` columns hold. |
| SchemaChange.HandleSchemaChangeJsonRows | warehouse/schema_test.go:73-114 | The test rows for `json` columns with number, boolean or array values hold. |
| SchemaChange.HandleSchemaChangeQuotedDateRow | warehouse/schema_test.go:94-100 | The test row quoting a `datetime` text for a `json` column holds. |
| SchemaChange.HandleSchemaChangeQuotedStringRow | warehouse/schema_test.go:101-107 | The test row quoting a `string` text for a `json` column holds. |
| SchemaChange.HandleSchemaChangeErrorRows | warehouse/schema_test.go:115-254 | All the failing test rows hold, with the right error. |
| SchemaDiff.GetTableSchemaDiff | warehouse/schema_test.go:273-355 | The table is to be created exactly when it is only in the upload. A diff exists exactly when the table is created or its updated schema differs from the current one. |
| SchemaDiff.ExistingTableDiff | warehouse/schema_test.go:296-354 | For an existing table:<br>- new columns are exactly the upload's columns the warehouse lacks, with the upload's type;<br>- the columns altered to text are exactly the shared ones with warehouse `string` and upload `text`;<br>- every other column keeps its type. |
| SchemaDiff.DiffIsIdempotent | warehouse/schema_test.go:273-355 | Diffing the upload again, against a warehouse that holds the updated schema, finds no change. |
| SchemaDiff.MergeUploadAndLocalSchemas | warehouse/schema_test.go:357-415 | The result has exactly the upload's tables. Each table has the union of columns, with the warehouse's type where both have one. |
| SchemaDiff.MergedSchemaCoversUpload | warehouse/schema_test.go:357-415 | Merging again changes nothing, and the merged schema needs no new table or column for the upload. |
| SchemaDiff.HasSchemaChanged | warehouse/schema_test.go:417-490 | Deep mode reports a change exactly when the schemas differ. Skip mode reports one exactly when a local table or column is missing from the warehouse or typed differently. |
| SchemaDiff.SkippedCheckIsWeaker | warehouse/schema_test.go:417-490 | Skip mode reports a change only when deep mode does. It ignores extra warehouse tables, which deep mode reports. |
| SchemaDiff.TableSchemaDiffRows | warehouse/schema_test.go:277-313 | The diff test rows without changes to an existing table hold. |
| SchemaDiff.TableSchemaDiffAddRow | warehouse/schema_test.go:314-335 | The diff test row where the upload adds a column to an existing table holds. |
| SchemaDiff.TableSchemaDiffTextRow | warehouse/schema_test.go:336-355 | The diff test row where the upload widens a `string` column to `text` holds. |
| SchemaDiff.MergeUploadAndLocalRows | warehouse/schema_test.go:357-382 | The merge-upload test rows with empty schemas or a shared column hold: the warehouse's type wins. |
| SchemaDiff.MergeUploadAndLocalNewColumnsRow | warehouse/schema_test.go:383-399 | The merge-upload test row where the upload brings new columns holds: they join the warehouse's columns. |
| SchemaDiff.MergeUploadAndLocalTextRow | warehouse/schema_test.go:400-415 | The merge-upload test row where the warehouse has `text` for an uploaded `string` column holds: `text` stays. |
| SchemaDiff.HasSchemaChangedRows | warehouse/schema_test.go:417-490 | The stale-schema test rows hold, in both modes. |
| SchemaMerge.MergeSchema | warehouse/schema_test.go:575-648 | The merged schema has the tables of the merged schema and of every staging schema, and no other table. |
| SchemaMerge.MergeTable | warehouse/schema_test.go:575-648 | Merging a table keeps the union of columns. A column the warehouse lacks keeps its merged type, or else takes the incoming one. |
| SchemaMerge.FirstTypeWins | warehouse/schema_test.go:631-647 | A column the warehouse lacks ends with the type it was first given: the merged one, else the first incoming one. So a merged `text` beats an incoming `string`. |
| SchemaMerge.WarehouseTypeWins | warehouse/schema_test.go:607-630 | A column the warehouse has ends with the warehouse's type, or `text` widening `string`, once any schema mentions it. |
| SchemaMerge.MergeOneIdempotent | warehouse/schema_test.go:575-648 | Folding the same staging schema in again leaves the merged schema unchanged. |
| SchemaMerge.MergeSchemaRows | warehouse/schema_test.go:578-590 | The merge-schema test rows with nothing or one table coming into empty schemas hold. |
| SchemaMerge.MergeSchemaTwoTablesRow | warehouse/schema_test.go:591-606 | The merge-schema test row bringing `users` and `identifies` into empty schemas holds. |
| SchemaMerge.MergeSchemaWarehouseRow | warehouse/schema_test.go:607-630 | The merge-schema test row with the tables already in the warehouse holds. |
| SchemaMerge.MergeSchemaTextRow | warehouse/schema_test.go:631-647 | The merge-schema test row where `text` is already merged holds. |
| SchemaMerge.TextMergedBeforeString | warehouse/schema_test.go:631-647 | For any table and column names: a column merged as `text` stays `text` when a staging file calls it `string`, and a second new column is taken with its incoming type. |
| SchemaNaming.SafeName | warehouse/schema_test.go:492-502 | Safe names keep their length. Names are unchanged outside Snowflake. On Snowflake every character is upper-cased, so none is a lower-case letter. |
| SchemaNaming.SafeNameIdempotent | warehouse/schema_test.go:492-502 | A safe name is already safe. |
| SchemaNaming.SafeNameRows | warehouse/schema_test.go:500-501 | The safe-name test rows hold. |
| SchemaNaming.MergeRulesSchema | warehouse/schema_test.go:504-524 | Every merge-rules column is a `string` column under a safe name. |
| SchemaNaming.IdentitiesMappingsSchema | warehouse/schema_test.go:526-546 | Every identity-mappings column is a `string` under a safe name, except `updated_at`, which is a `datetime`. |
| SchemaNaming.DiscardsSchema | warehouse/schema_test.go:548-573 | The discards columns have safe names and string or datetime types. BigQuery has `loaded_at`. |
| SchemaNaming.LoadedAtOnlyOnBigQuery | warehouse/schema_test.go:556-572 | `loaded_at` is a discards column exactly on BigQuery. |
| SchemaNaming.MergeRulesSchemaUpperCased | warehouse/schema_test.go:512-523 | The Snowflake merge-rules schema is the BigQuery one with upper-cased keys. |
| SchemaNaming.IdentitiesMappingsSchemaUpperCased | warehouse/schema_test.go:534-545 | The Snowflake identity-mappings schema is the BigQuery one with upper-cased keys. |
| SchemaNaming.DiscardsSchemaUpperCased | warehouse/schema_test.go:556-572 | The Snowflake discards schema is the BigQuery one, minus `loaded_at`, with upper-cased keys. |
| SchemaNaming.MergeRulesSchemaBigQueryRow | warehouse/schema_test.go:512-517 | The BigQuery merge-rules test row holds. |
| SchemaNaming.MergeRulesSchemaSnowflakeRow | warehouse/schema_test.go:518-523 | The Snowflake merge-rules test row holds. |
| SchemaNaming.IdentitiesMappingsSchemaBigQueryRow | warehouse/schema_test.go:534-539 | The BigQuery identity-mappings test row holds. |
| SchemaNaming.IdentitiesMappingsSchemaSnowflakeRow | warehouse/schema_test.go:540-545 | The Snowflake identity-mappings test row holds. |
| SchemaNaming.DiscardsSchemaBigQueryRow | warehouse/schema_test.go:556-564 | The BigQuery discards test row holds. |
| SchemaNaming.DiscardsSchemaSnowflakeRow | warehouse/schema_test.go:565-572 | The Snowflake discards test row holds. |
| Destination.FetchConfig | regulation-worker/internal/destination/destination.go:84-98 | A fetch error is reported exactly when the retry failed and the backoff says Stop, and then with an empty configuration. A failure without Stop yields the last fetched configuration and no error. A success yields its configuration. |
| Destination.GetWorkspaceId | regulation-worker/internal/destination/destination.go:27-43 | A fetch error is returned with the empty id. A single-workspace configuration yields its workspace. Otherwise the result is the empty id and "workspaceId not found in config". |
| Destination.WorkspaceIdIsTheOnlyWorkspace | regulation-worker/internal/destination/destination.go:34-39 | The id returned is the configuration's only workspace. |
| Destination.CancelledFetchReportsNotFound | regulation-worker/internal/destination/destination.go:41-42 | A fetch that failed without Stop and left nothing behind is reported as workspace-not-found, not as the fetch error. |
| Destination.FindInWorkspaces | regulation-worker/internal/destination/destination.go:55-70 | The search finds a destination with the id in some source of some workspace. It finds none exactly when no visited workspace has one. |
| Destination.GetDestDetails | regulation-worker/internal/destination/destination.go:48-72 | A fetch error is returned with empty details. A found destination gives its id, its config, and its definition's name and config. An unknown id gives empty details and InvalidDestination. A successful fetch gives no error other than InvalidDestination. |
| Destination.InvalidIffAbsent | regulation-worker/internal/destination/destination.go:55-71 | When all workspaces are visited, the destination is invalid exactly when no workspace has a destination with the id, and comes back without an error exactly when some workspace has one. |
| Destination.DetailsIndependentOfOrder | regulation-worker/internal/destination/destination.go:55-67 | When every destination carrying the id is the same, the details do not depend on the map's iteration order. |

## Left out

- SQL text and its execution, gzip writing, temp-directory creation, `os.Remove` and the file-manager upload are not modelled. Query results are row sequences, and each I/O step of an export consults a set of faults instead of the world. The dump files on disk are the effect of the write, abandon and remove actions.
- A row scan or write that fails partway through a page is modelled as a fault of that page's query. The abandoned file then holds the rows of the earlier pages, not the rows of the failing page written before the error.
- Stats, timers and logging calls in `jobsdb/backup.go` and `destination.go` are not modelled. They have no observable result.
- `backupUploadWithExponentialBackoff` and the backoff in `getDestDetails` are reduced to their final success or failure. Retry timing and context cancellation are not modelled beyond the `backoffStopped` flag of the fetch.
- `sortDnumList` is not part of this model. The ordering of dataset indices is a parameter, and the first index after sorting is the minimum under it.
- The package-level `pathPrefix` variable is not modelled as shared state. Each export assigns it (`jobsdb/backup.go:159`, `212`, `273`) and reads it back in the `Sprintf` that follows (`jobsdb/backup.go:160`, `215`, `274`). The model uses the value just assigned. The backup loop of another queue could overwrite the variable in between, which would give a dump the other queue's name.
- BackupQueries.FailedJoin: rows with equal custom value, job id and execution time keep status-table order, where Postgres leaves their order unspecified. Text order is the C collation, code point by code point, not the database's collation.
- StatusCompaction.CleanStatusTable: the `DELETE ... WHERE id IN` keeps rows by id, while the model keeps them row by row. The two differ only when ids repeat, and `id` is the status table's serial key.
- Postgres window-frame ties are not modelled. The ordering keys of the export queries are assumed distinct, so the running payload size is a plain prefix sum.
- The JSON shape of each dump line is not modelled. A dump is the sequence of rows it holds.
- `mustGetAllTableNames`, `mustDropDS`, `JournalMarkStart` and `JournalMarkDone` are defined in files that are not part of this model. The catalog is a sequence of names, dropping removes two names, and the journal is the trace of start and done events.
- `getBackupFileUploader` is not modelled. Its failure is an upload fault.
- BackupConfig.UploadFolderInjective: the file manager's `Upload` is not part of this model. The folder it uploads to is taken to be the segments joined by '/' (`BackupConfig.FolderPath`). The folder is distinct per instance only when neither segment contains '/'. Otherwise two configurations can collide: prefix `a/b` with instance id `c`, and prefix `a` with instance id `b/c`, both give `a/b/c`.
- Journal ids: `JournalMarkStart` takes ids from a table that other operations of the same database also use. The model gives the drop the id after the backup's. No proof depends on the ids being consecutive.
- SchemaChange.HandleSchemaChange: combinations that no test row covers follow choices of the model, not of the implementation file, which is not part of this model. For example, an existing `text` column gives NotSupported, and a `string` column takes an array as its text.
- SchemaChange.HandleSchemaChange: a float is modelled only by the two things the conversion observes, its `%v` text and its truncation to an integer. An integer converted to a float gets its decimal digits as text, which is Go's `%v` of the float only below 10^21.
- Arrays are printed by `ToText` with their items space-separated. Nested maps and other Go kinds are not values in this model.
- SchemaMerge.MergeTable: the users and identifies inference of `mergeSchema` is not modelled. The test rows that mention these tables are consistent with either choice. The `warehouseType` argument only serves that inference.
- SchemaDiff.GetTableSchemaDiff: the columns to alter to `text` are a set, not Go's slice in map-iteration order.
- SchemaDiff.HasSchemaChanged: `reflect.DeepEqual` distinguishes a nil table map from an empty one, and the model does not. The environment variable that selects the mode is a parameter.
- SchemaNaming.SafeName: Go's `strings.ToUpper` folds all of Unicode; the model upper-cases ASCII letters only.
- BackupQueries.FindJob: a status row is joined with the first job of its id. The `INNER JOIN` would give one row per matching job, so the model relies on `job_id` being the jobs table's key.
- DataSetRanges.NanosToMillis: works on unbounded integers. Go's `UnixNano()` is an `int64` and is undefined for times outside the years 1678 to 2262, which the model does not represent.
- Destination.GetDestDetails: configuration objects are string maps. The source's `map[string]interface{}` values are not modelled.

=== FILE: artifact_names.dfy ===
/** Paths of the gzip dumps the three exports write under the temporary
    directory, and the files removeTableJSONDumps deletes there. */
module ArtifactNames {
  import opened Optional
  import opened JobsDb
  import Decimal

  const BackupPathDirName: string := "/rudder-s3-dumps/"

  /** `strings.TrimPrefix`: drops `prefix` when `s` starts with it. */
  function TrimPrefix(s: string, prefix: string): (r: string)
    ensures prefix <= s ==> prefix + r == s
    ensures !(prefix <= s) ==> r == s
  {
    if prefix <= s then s[|prefix|..] else s
  }

  predicate EndsWith(s: string, suffix: string) {
    |suffix| <= |s| && s[|s| - |suffix|..] == suffix
  }

  /** The directory every dump is written to. */
  function DumpDir(tmpDir: string): string {
    tmpDir + BackupPathDirName
  }

  /** `<dir><status table without pre_drop_>_aborted.gz` */
  function FailedOnlyDumpPath(tmpDir: string, range: DataSetRange): (path: string)
    ensures DumpDir(tmpDir) <= path && EndsWith(path, "_aborted.gz")
  {
    var path := DumpDir(tmpDir) + TrimPrefix(range.ds.jobStatusTable, PreDropTablePrefix) + "_" + AbortedState + ".gz";
    assert path == DumpDir(tmpDir) + (TrimPrefix(range.ds.jobStatusTable, PreDropTablePrefix) + "_aborted.gz");
    path
  }

  /** `.<minJobId>.<maxJobId>.<startTime>.<endTime>.gz` */
  function JobsDumpSuffix(range: DataSetRange): (suffix: string)
    ensures |suffix| > 0 && suffix[0] == '.' && EndsWith(suffix, ".gz")
  {
    var suffix := "." + Decimal.IntToString(range.minJobId) + "." + Decimal.IntToString(range.maxJobId)
      + "." + Decimal.IntToString(range.startTime) + "." + (Decimal.IntToString(range.endTime) + ".gz");
    assert suffix == ("." + Decimal.IntToString(range.minJobId) + "." + Decimal.IntToString(range.maxJobId)
      + "." + Decimal.IntToString(range.startTime) + "." + Decimal.IntToString(range.endTime)) + ".gz";
    suffix
  }

  /** `<dir><jobs table without pre_drop_>.<minJobId>.<maxJobId>.<startTime>.<endTime>.gz` */
  function JobsDumpPath(tmpDir: string, range: DataSetRange): (path: string)
    ensures DumpDir(tmpDir) <= path && EndsWith(path, ".gz")
  {
    var path := DumpDir(tmpDir) + TrimPrefix(range.ds.jobTable, PreDropTablePrefix) + JobsDumpSuffix(range);
    assert path == DumpDir(tmpDir) + (TrimPrefix(range.ds.jobTable, PreDropTablePrefix) + JobsDumpSuffix(range));
    path
  }

  /** `<dir><status table without pre_drop_>.gz` */
  function StatusDumpPath(tmpDir: string, range: DataSetRange): (path: string)
    ensures DumpDir(tmpDir) <= path && EndsWith(path, ".gz")
  {
    var path := DumpDir(tmpDir) + TrimPrefix(range.ds.jobStatusTable, PreDropTablePrefix) + ".gz";
    assert path == DumpDir(tmpDir) + (TrimPrefix(range.ds.jobStatusTable, PreDropTablePrefix) + ".gz");
    path
  }

  // ---------------------------------------------------------------------
  // Trimming undoes the pre_drop_ renaming

  lemma TrimPreDrop(tablePrefix: string, dnum: string)
    ensures TrimPrefix(PreDropDataSet(tablePrefix, dnum).jobTable, PreDropTablePrefix) == tablePrefix + "_jobs_" + dnum
    ensures TrimPrefix(PreDropDataSet(tablePrefix, dnum).jobStatusTable, PreDropTablePrefix) == tablePrefix + "_job_status_" + dnum
  {
    var ds := PreDropDataSet(tablePrefix, dnum);
    assert ds.jobTable == PreDropTablePrefix + (tablePrefix + "_jobs_" + dnum);
    assert ds.jobStatusTable == PreDropTablePrefix + (tablePrefix + "_job_status_" + dnum);
  }

  /** The dump paths of a renamed dataset share the head `<dir><queue>_job`. */
  lemma JobsPathShape(tmpDir: string, range: DataSetRange, tablePrefix: string, dnum: string)
    requires range.ds == PreDropDataSet(tablePrefix, dnum)
    ensures JobsDumpPath(tmpDir, range) == DumpDir(tmpDir) + tablePrefix + "_job" + ("s_" + dnum + JobsDumpSuffix(range))
  {
    TrimPreDrop(tablePrefix, dnum);
    var d := DumpDir(tmpDir);
    var x := JobsDumpSuffix(range);
    assert tablePrefix + "_jobs_" + dnum == tablePrefix + "_job" + ("s_" + dnum);
    calc {
      JobsDumpPath(tmpDir, range);
      d + (tablePrefix + "_jobs_" + dnum) + x;
      d + tablePrefix + "_job" + ("s_" + dnum + x);
    }
  }

  lemma StatusPathShape(tmpDir: string, range: DataSetRange, tablePrefix: string, dnum: string, ending: string)
    requires range.ds == PreDropDataSet(tablePrefix, dnum)
    ensures DumpDir(tmpDir) + TrimPrefix(range.ds.jobStatusTable, PreDropTablePrefix) + ending
      == DumpDir(tmpDir) + tablePrefix + "_job" + ("_status_" + dnum + ending)
  {
    TrimPreDrop(tablePrefix, dnum);
    assert tablePrefix + "_job_status_" + dnum == tablePrefix + "_job" + ("_status_" + dnum);
  }

  lemma DumpPathShapes(tmpDir: string, range: DataSetRange, tablePrefix: string, dnum: string)
    requires range.ds == PreDropDataSet(tablePrefix, dnum)
    ensures JobsDumpPath(tmpDir, range) == DumpDir(tmpDir) + tablePrefix + "_job" + ("s_" + dnum + JobsDumpSuffix(range))
    ensures StatusDumpPath(tmpDir, range) == DumpDir(tmpDir) + tablePrefix + "_job" + ("_status_" + dnum + ".gz")
    ensures FailedOnlyDumpPath(tmpDir, range) == DumpDir(tmpDir) + tablePrefix + "_job" + ("_status_" + dnum + "_aborted.gz")
  {
    JobsPathShape(tmpDir, range, tablePrefix, dnum);
    StatusPathShape(tmpDir, range, tablePrefix, dnum, ".gz");
    StatusPathShape(tmpDir, range, tablePrefix, dnum, "_aborted.gz");
    assert "_" + AbortedState + ".gz" == "_aborted.gz";
  }

  /** The three dumps of a renamed dataset never share a path, so the
      exports of one dataset cannot overwrite each other's file. */
  lemma DumpPathsDistinct(tmpDir: string, range: DataSetRange, tablePrefix: string, dnum: string)
    requires range.ds == PreDropDataSet(tablePrefix, dnum)
    ensures JobsDumpPath(tmpDir, range) != StatusDumpPath(tmpDir, range)
    ensures JobsDumpPath(tmpDir, range) != FailedOnlyDumpPath(tmpDir, range)
    ensures StatusDumpPath(tmpDir, range) != FailedOnlyDumpPath(tmpDir, range)
  {
    DumpPathShapes(tmpDir, range, tablePrefix, dnum);
    var head := DumpDir(tmpDir) + tablePrefix + "_job";
    var k := |head|;
    var jobs := JobsDumpPath(tmpDir, range);
    var status := StatusDumpPath(tmpDir, range);
    var failed := FailedOnlyDumpPath(tmpDir, range);
    assert jobs[k] == 's' && status[k] == '_' && failed[k] == '_';
    var common := head + ("_status_" + dnum);
    assert status == common + ".gz";
    assert failed == common + "_aborted.gz";
    assert status[|common|] == '.' && failed[|common|] == '_';
  }

  // ---------------------------------------------------------------------
  // The jobs dump name carries the dataset range

  /** Splits at the last '.': the text before it and the dot-free text after. */
  function SplitAtLastDot(s: string): (r: Option<(string, string)>)
    ensures r.Some? ==> r.value.0 + "." + r.value.1 == s && '.' !in r.value.1
    ensures r.None? ==> '.' !in s
    decreases |s|
  {
    if |s| == 0 then None
    else if s[|s| - 1] == '.' then Some((s[..|s| - 1], ""))
    else
      match SplitAtLastDot(s[..|s| - 1])
      case None => None
      case Some((a, b)) => Some((a, b + [s[|s| - 1]]))
  }

  lemma {:induction false} SplitAtLastDotJoin(a: string, b: string)
    requires '.' !in b
    ensures SplitAtLastDot(a + "." + b) == Some((a, b))
    decreases |b|
  {
    var s := a + "." + b;
    if |b| == 0 {
      assert s[..|s| - 1] == a;
    } else {
      var b' := b[..|b| - 1];
      assert s[..|s| - 1] == a + "." + b';
      assert s[|s| - 1] == b[|b| - 1];
      SplitAtLastDotJoin(a, b');
      assert b' + [b[|b| - 1]] == b;
    }
  }

  lemma IntTextHasNoDot(i: int)
    ensures '.' !in Decimal.IntToString(i)
  {
    var s := Decimal.IntToString(i);
    forall k | 0 <= k < |s|
      ensures s[k] != '.'
    {
      Decimal.IntTextChars(s, k);
    }
  }

  /** What a jobs dump file name says about its dataset. */
  datatype JobsDumpName = JobsDumpName(stem: string, minJobId: int, maxJobId: int, startTime: int, endTime: int)

  /** The next dot-separated integer field from the end of `s`. */
  function LastIntField(s: string): (r: Option<(string, int)>)
    ensures r.Some? ==> |r.value.0| < |s|
  {
    match SplitAtLastDot(s)
    case None => None
    case Some((rest, field)) =>
      if Decimal.IsIntText(field) then Some((rest, Decimal.ParseInt(field))) else None
  }

  /** Reads the four numbers back from a jobs dump path. */
  function ParseJobsDumpPath(path: string): Option<JobsDumpName> {
    if !EndsWith(path, ".gz") then None
    else
      match LastIntField(path[..|path| - 3])
      case None => None
      case Some((s3, endTime)) =>
        match LastIntField(s3)
        case None => None
        case Some((s2, startTime)) =>
          match LastIntField(s2)
          case None => None
          case Some((s1, maxJobId)) =>
            match LastIntField(s1)
            case None => None
            case Some((stem, minJobId)) => Some(JobsDumpName(stem, minJobId, maxJobId, startTime, endTime))
  }

  lemma LastIntFieldOf(a: string, i: int)
    ensures LastIntField(a + "." + Decimal.IntToString(i)) == Some((a, i))
  {
    IntTextHasNoDot(i);
    SplitAtLastDotJoin(a, Decimal.IntToString(i));
    Decimal.IntToStringRoundTrip(i);
  }

  /** The jobs dump path determines the dataset's job-id and time bounds:
      the archive name alone tells which jobs and which period it holds. */
  lemma JobsDumpPathRoundTrip(tmpDir: string, range: DataSetRange)
    ensures ParseJobsDumpPath(JobsDumpPath(tmpDir, range)) ==
      Some(JobsDumpName(DumpDir(tmpDir) + TrimPrefix(range.ds.jobTable, PreDropTablePrefix),
                        range.minJobId, range.maxJobId, range.startTime, range.endTime))
  {
    var path := JobsDumpPath(tmpDir, range);
    var stem := DumpDir(tmpDir) + TrimPrefix(range.ds.jobTable, PreDropTablePrefix);
    var s1 := stem + "." + Decimal.IntToString(range.minJobId);
    var s2 := s1 + "." + Decimal.IntToString(range.maxJobId);
    var s3 := s2 + "." + Decimal.IntToString(range.startTime);
    var s4 := s3 + "." + Decimal.IntToString(range.endTime);
    assert path == s4 + ".gz";
    assert path[..|path| - 3] == s4;
    LastIntFieldOf(s3, range.endTime);
    LastIntFieldOf(s2, range.startTime);
    LastIntFieldOf(s1, range.maxJobId);
    LastIntFieldOf(stem, range.minJobId);
  }

  // ---------------------------------------------------------------------
  // removeTableJSONDumps

  /** Matches the glob `<dir><tablePrefix>_job*`: `*` does not cross a '/'. */
  predicate MatchesLeftoverGlob(tmpDir: string, tablePrefix: string, file: string) {
    var head := DumpDir(tmpDir) + tablePrefix + "_job";
    head <= file && '/' !in file[|head|..]
  }

  /** The files removeTableJSONDumps deletes, in listing order. */
  function LeftoverDumps(tmpDir: string, tablePrefix: string, files: seq<string>): (removed: seq<string>)
    ensures |removed| <= |files|
    ensures forall k :: 0 <= k < |removed| ==> removed[k] in files && MatchesLeftoverGlob(tmpDir, tablePrefix, removed[k])
    decreases |files|
  {
    if |files| == 0 then []
    else
      (if MatchesLeftoverGlob(tmpDir, tablePrefix, files[0]) then [files[0]] else [])
      + LeftoverDumps(tmpDir, tablePrefix, files[1..])
  }

  lemma {:induction false} LeftoverDumpsComplete(tmpDir: string, tablePrefix: string, files: seq<string>, f: string)
    requires f in files && MatchesLeftoverGlob(tmpDir, tablePrefix, f)
    ensures f in LeftoverDumps(tmpDir, tablePrefix, files)
    decreases |files|
  {
    if files[0] != f {
      LeftoverDumpsComplete(tmpDir, tablePrefix, files[1..], f);
    }
  }

  lemma NoSlashInt(i: int)
    ensures '/' !in Decimal.IntToString(i)
  {
    var s := Decimal.IntToString(i);
    forall k | 0 <= k < |s|
      ensures s[k] != '/'
    {
      Decimal.IntTextChars(s, k);
    }
  }

  lemma NoSlashInSuffix(range: DataSetRange)
    ensures '/' !in JobsDumpSuffix(range)
  {
    NoSlashInt(range.minJobId);
    NoSlashInt(range.maxJobId);
    NoSlashInt(range.startTime);
    NoSlashInt(range.endTime);
  }

  /** Every dump a renamed dataset of the queue can leave behind is removed,
      provided the queue prefix and the dataset index hold no '/'. */
  lemma LeftoverDumpsCoverDataSet(tmpDir: string, tablePrefix: string, dnum: string, range: DataSetRange, files: seq<string>)
    requires range.ds == PreDropDataSet(tablePrefix, dnum)
    requires '/' !in tablePrefix && '/' !in dnum
    ensures JobsDumpPath(tmpDir, range) in files ==> JobsDumpPath(tmpDir, range) in LeftoverDumps(tmpDir, tablePrefix, files)
    ensures StatusDumpPath(tmpDir, range) in files ==> StatusDumpPath(tmpDir, range) in LeftoverDumps(tmpDir, tablePrefix, files)
    ensures FailedOnlyDumpPath(tmpDir, range) in files ==> FailedOnlyDumpPath(tmpDir, range) in LeftoverDumps(tmpDir, tablePrefix, files)
  {
    DumpPathShapes(tmpDir, range, tablePrefix, dnum);
    NoSlashInSuffix(range);
    var head := DumpDir(tmpDir) + tablePrefix + "_job";
    var jobs := JobsDumpPath(tmpDir, range);
    var status := StatusDumpPath(tmpDir, range);
    var failed := FailedOnlyDumpPath(tmpDir, range);
    assert jobs[|head|..] == "s_" + dnum + JobsDumpSuffix(range);
    assert status[|head|..] == "_status_" + dnum + ".gz";
    assert failed[|head|..] == "_status_" + dnum + "_aborted.gz";
    if jobs in files { LeftoverDumpsComplete(tmpDir, tablePrefix, files, jobs); }
    if status in files { LeftoverDumpsComplete(tmpDir, tablePrefix, files, status); }
    if failed in files { LeftoverDumpsComplete(tmpDir, tablePrefix, files, failed); }
  }
}

=== FILE: backup_config.dfy ===
/** Backup settings of one queue instance and the process configuration they
    are combined with. */
module BackupConfig {

  /** The process configuration, read as string values by key. */
  type Config = map<string, string>

  function GetString(config: Config, key: string, default: string): (v: string)
    ensures key in config ==> v == config[key]
    ensures key !in config ==> v == default
  {
    if key in config then config[key] else default
  }

  datatype BackupSettings = BackupSettings(
    instanceBackupEnabled: bool,
    failedOnly: bool,
    pathPrefix: string)

  /** Backup runs only when the process-wide flag, the instance flag and a
      non-empty `JOBS_BACKUP_BUCKET` setting all hold. */
  function IsBackupEnabled(masterBackupEnabled: bool, settings: BackupSettings, config: Config): (enabled: bool)
    ensures enabled <==>
      masterBackupEnabled && settings.instanceBackupEnabled &&
      "JOBS_BACKUP_BUCKET" in config && config["JOBS_BACKUP_BUCKET"] != ""
  {
    masterBackupEnabled && settings.instanceBackupEnabled && GetString(config, "JOBS_BACKUP_BUCKET", "") != ""
  }

  /** `INSTANCE_ID`, "1" when unset. */
  function InstanceId(config: Config): string {
    GetString(config, "INSTANCE_ID", "1")
  }

  /** Folder segments handed to the uploader: the configured path prefix, when
      there is one, then the instance id. */
  function UploadPathPrefixes(settings: BackupSettings, config: Config): (segments: seq<string>)
    ensures |segments| >= 1
    ensures segments[|segments| - 1] == (if "INSTANCE_ID" in config then config["INSTANCE_ID"] else "1")
    ensures settings.pathPrefix == "" <==> |segments| == 1
    ensures settings.pathPrefix != "" ==> |segments| == 2
    ensures settings.pathPrefix != "" ==> segments[0] == settings.pathPrefix
    ensures forall i :: 0 <= i < |segments| - 1 ==> segments[i] != ""
  {
    if settings.pathPrefix != "" then [settings.pathPrefix, InstanceId(config)] else [InstanceId(config)]
  }

  /** The folder list determines both the path prefix and the instance id:
      instances with different `INSTANCE_ID`s never get the same list of
      folder segments, whatever their prefixes. */
  lemma UploadPathPrefixesInjective(s1: BackupSettings, c1: Config, s2: BackupSettings, c2: Config)
    requires UploadPathPrefixes(s1, c1) == UploadPathPrefixes(s2, c2)
    ensures s1.pathPrefix == s2.pathPrefix
    ensures InstanceId(c1) == InstanceId(c2)
  {
  }

  /** The folder the uploader is given: the segments joined by '/'. */
  function FolderPath(segments: seq<string>): (path: string)
    ensures |segments| == 1 ==> path == segments[0]
    ensures |segments| >= 2 ==> path == segments[0] + "/" + FolderPath(segments[1..])
  {
    if |segments| == 0 then ""
    else if |segments| == 1 then segments[0]
    else segments[0] + "/" + FolderPath(segments[1..])
  }

  /** Two texts joined at a '/' that neither left part contains come apart
      at that '/'. */
  lemma {:induction false} SplitAtSlash(a: string, b: string, c: string, d: string)
    requires '/' !in a && '/' !in c
    requires a + "/" + b == c + "/" + d
    ensures a == c && b == d
  {
    var x := a + "/" + b;
    assert forall k :: 0 <= k < |a| ==> x[k] == a[k];
    assert forall k :: 0 <= k < |c| ==> x[k] == c[k];
    assert x[|a|] == '/' && x[|c|] == '/';
    assert |a| == |c|;
    assert a == x[..|a|] && c == x[..|c|];
    assert b == x[|a| + 1..] && d == x[|c| + 1..];
  }

  /** A text without '/' is never a joined two-part folder. */
  lemma {:induction false} SlashFreeIsNotJoined(id: string, c: string, d: string)
    requires '/' !in id
    ensures id != c + "/" + d
  {
    var joined := c + "/" + d;
    assert joined[|c|] == '/';
  }

  /** When neither prefix nor instance id contains '/', the joined upload
      folder determines both: instances with different `INSTANCE_ID`s
      never upload to the same folder. */
  lemma {:induction false} UploadFolderInjective(s1: BackupSettings, c1: Config, s2: BackupSettings, c2: Config)
    requires '/' !in s1.pathPrefix && '/' !in InstanceId(c1)
    requires '/' !in s2.pathPrefix && '/' !in InstanceId(c2)
    requires FolderPath(UploadPathPrefixes(s1, c1)) == FolderPath(UploadPathPrefixes(s2, c2))
    ensures s1.pathPrefix == s2.pathPrefix
    ensures InstanceId(c1) == InstanceId(c2)
  {
    var j1 := FolderPath(UploadPathPrefixes(s1, c1));
    var j2 := FolderPath(UploadPathPrefixes(s2, c2));
    assert j1 == (if s1.pathPrefix != "" then s1.pathPrefix + "/" + InstanceId(c1) else InstanceId(c1)) by {
      if s1.pathPrefix != "" { assert UploadPathPrefixes(s1, c1)[1..] == [InstanceId(c1)]; }
    }
    assert j2 == (if s2.pathPrefix != "" then s2.pathPrefix + "/" + InstanceId(c2) else InstanceId(c2)) by {
      if s2.pathPrefix != "" { assert UploadPathPrefixes(s2, c2)[1..] == [InstanceId(c2)]; }
    }
    if s1.pathPrefix != "" && s2.pathPrefix != "" {
      SplitAtSlash(s1.pathPrefix, InstanceId(c1), s2.pathPrefix, InstanceId(c2));
    } else if s1.pathPrefix != "" {
      SlashFreeIsNotJoined(InstanceId(c2), s1.pathPrefix, InstanceId(c1));
    } else if s2.pathPrefix != "" {
      SlashFreeIsNotJoined(InstanceId(c1), s2.pathPrefix, InstanceId(c2));
    }
  }
}

=== FILE: backup_loop.dfy ===
/** backupDSLoop: on every timer tick, when backup is enabled, find the
    oldest renamed dataset, back it up under a journal entry, then drop it
    under a second journal entry, whether or not the backup succeeded. The
    table catalog is part of the loop state so that drops are visible to
    later ticks; tables renamed by other processes arrive with each tick. */
module BackupLoop {
  import opened Optional
  import opened JobsDb
  import BackupConfig
  import DataSetRanges
  import BackupPipeline

  /** Settings fixed for the life of the loop. */
  datatype LoopConfig = LoopConfig(
    tablePrefix: string,
    settings: BackupConfig.BackupSettings,
    limits: BackupPipeline.Limits,
    before: (string, string) -> bool)

  /** What the world looks like when the timer fires. `store` holds the rows
      of whichever dataset the tick picks. */
  datatype TickEnv = TickEnv(
    masterBackupEnabled: bool,
    config: BackupConfig.Config,
    newTables: seq<string>,
    stats: string -> DataSetRanges.TableStats,
    lookupFaults: set<DataSetRanges.LookupFault>,
    store: BackupPipeline.Store,
    faults: set<BackupPipeline.Fault>,
    tmpDir: string)

  /** The `select`: the context is cancelled, or the timer fires. */
  datatype Tick = Cancelled | TimerFired(env: TickEnv)

  /** `sleepMultiplier`, the next journal operation id and the table catalog. */
  datatype LoopState = LoopState(sleepMultiplier: nat, nextOpId: nat, catalog: seq<string>)

  datatype JournalOp = BackupDSOperation | BackupDropDSOperation

  datatype Event =
    | Waited(multiplier: nat)       // the tick came after multiplier × backupCheckSleepDuration
    | JournalStart(opId: nat, op: JournalOp, ds: DataSet)
    | BackedUp(ds: DataSet, run: BackupPipeline.ExportRun)
    | DroppedDS(ds: DataSet)
    | JournalDone(opId: nat)
    | Crashed                       // getBackupDSRange aborted the process
    | Stopped                       // the loop returned on cancellation

  /** Why the loop ended. A hung backup leaves the loop inside backupDS with
      its journal entry open. */
  datatype Halt = CancelHalt | CrashHalt | HangHalt(opId: nat)

  datatype StepResult = StepResult(events: seq<Event>, state: LoopState, halt: Option<Halt>)

  const InitialState: LoopState := LoopState(1, 0, [])

  /** The catalog without the two tables of `ds` (mustDropDS). */
  function DropTables(catalog: seq<string>, ds: DataSet): (rest: seq<string>)
    ensures ds.jobTable !in rest && ds.jobStatusTable !in rest
    ensures forall t :: t in rest <==> t in catalog && t != ds.jobTable && t != ds.jobStatusTable
    decreases |catalog|
  {
    if |catalog| == 0 then []
    else
      var tail := DropTables(catalog[1..], ds);
      var t := catalog[0];
      if t == ds.jobTable || t == ds.jobStatusTable then tail else [t] + tail
  }

  /** Ids of journal entries started and not yet marked done after `events`,
      starting from the open set `open`. */
  function OpenEntries(open: set<nat>, events: seq<Event>): set<nat>
    decreases |events|
  {
    if |events| == 0 then open else OpenEntries(Journaled(open, events[0]), events[1..])
  }

  /** The open entries after one more event. */
  function Journaled(open: set<nat>, e: Event): set<nat> {
    match e
    case JournalStart(id, _, _) => open + {id}
    case JournalDone(id) => open - {id}
    case _ => open
  }

  lemma OpenEntriesCons(open: set<nat>, e: Event, rest: seq<Event>)
    ensures OpenEntries(open, [e] + rest) == OpenEntries(Journaled(open, e), rest)
  {
    assert ([e] + rest)[1..] == rest;
  }

  lemma {:induction false} OpenEntriesAppend(open: set<nat>, a: seq<Event>, b: seq<Event>)
    ensures OpenEntries(open, a + b) == OpenEntries(OpenEntries(open, a), b)
    decreases |a|
  {
    if |a| == 0 {
      assert a + b == b;
    } else {
      assert (a + b)[1..] == a[1..] + b;
      OpenEntriesAppend(Journaled(open, a[0]), a[1..], b);
    }
  }

  /** The journaled backup and drop of a dataset found by the lookup, given
      what its backup did. */
  function BackupThenDrop(id: nat, catalog: seq<string>, ds: DataSet, run: BackupPipeline.ExportRun): (r: StepResult)
    ensures r.halt.None? ==> OpenEntries({}, r.events) == {} && r.state == LoopState(1, id + 2, DropTables(catalog, ds))
    ensures r.halt.Some? ==> r.halt == Some(HangHalt(id)) && OpenEntries({}, r.events) == {id}
    ensures r.halt.Some? <==> run.outcome.Hung?
    ensures r.halt.Some? ==> r.state.catalog == catalog
    ensures forall e :: e in r.events && e.BackedUp? ==> e.ds == ds
    ensures forall e :: e in r.events && e.DroppedDS? ==> e.ds == ds && r.halt.None?
    ensures r.halt.None? ==>
      |r.events| == 6 && r.events[1].BackedUp? && r.events[1].ds == ds && r.events[4] == DroppedDS(ds)
  {
    if run.outcome.Hung? then
      BackupLeavesEntryOpen(id, ds, run);
      StepResult([JournalStart(id, BackupDSOperation, ds), BackedUp(ds, run)], LoopState(1, id, catalog), Some(HangHalt(id)))
    else
      StepResult(BackupDropEvents(id, ds, run), LoopState(1, id + 2, DropTables(catalog, ds)), None)
  }

  /** The journal of a backup that returned, followed by the drop. Journal
      ids only need to be fresh; that the drop takes `id + 1` is a choice of
      the model, since the journal table hands out ids to other operations
      of the same database too. */
  function BackupDropEvents(id: nat, ds: DataSet, run: BackupPipeline.ExportRun): (events: seq<Event>)
    ensures OpenEntries({}, events) == {}
    ensures |events| == 6 && events[1] == BackedUp(ds, run) && events[4] == DroppedDS(ds)
    ensures forall e :: e in events && (e.BackedUp? || e.DroppedDS?) ==> e.ds == ds
  {
    var backup := [JournalStart(id, BackupDSOperation, ds), BackedUp(ds, run)];
    var drop := [JournalDone(id), JournalStart(id + 1, BackupDropDSOperation, ds), DroppedDS(ds), JournalDone(id + 1)];
    BackupLeavesEntryOpen(id, ds, run);
    DropClosesEntries(id, ds);
    OpenEntriesAppend({}, backup, drop);
    backup + drop
  }

  /** The backup's journal entry is still open when the backup returns. */
  lemma BackupLeavesEntryOpen(id: nat, ds: DataSet, run: BackupPipeline.ExportRun)
    ensures OpenEntries({}, [JournalStart(id, BackupDSOperation, ds), BackedUp(ds, run)]) == {id}
  {
    OpenEntriesCons({}, JournalStart(id, BackupDSOperation, ds), [BackedUp(ds, run)]);
    OpenEntriesCons({id}, BackedUp(ds, run), []);
  }

  /** Marking the backup done and journaling the drop closes every entry. */
  lemma DropClosesEntries(id: nat, ds: DataSet)
    ensures OpenEntries({id}, [JournalDone(id), JournalStart(id + 1, BackupDropDSOperation, ds), DroppedDS(ds), JournalDone(id + 1)]) == {}
  {
    var drop := [JournalDone(id), JournalStart(id + 1, BackupDropDSOperation, ds), DroppedDS(ds), JournalDone(id + 1)];
    assert drop == [drop[0]] + drop[1..];
    assert drop[1..] == [drop[1]] + drop[2..];
    assert drop[2..] == [drop[2]] + drop[3..];
    assert drop[3..] == [drop[3]] + [];
    OpenEntriesCons({id}, drop[0], drop[1..]);
    assert {id} - {id} == {};
    OpenEntriesCons({}, drop[1], drop[2..]);
    OpenEntriesCons({id + 1}, drop[2], drop[3..]);
    OpenEntriesCons({id + 1}, drop[3], []);
    assert {id + 1} - {id + 1} == {};
  }

  lemma WaitedIsNotJournaled(m: nat, events: seq<Event>)
    ensures OpenEntries({}, [Waited(m)] + events) == OpenEntries({}, events)
  {
    OpenEntriesCons({}, Waited(m), events);
  }

  /** The catalog a timer tick looks at. */
  function TickCatalog(state: LoopState, env: TickEnv): seq<string> {
    state.catalog + env.newTables
  }

  /** One pass of the loop body. */
  function Step(cfg: LoopConfig, state: LoopState, tick: Tick): (r: StepResult)
    ensures tick.Cancelled? ==> r.events == [Stopped] && r.halt == Some(CancelHalt)
    ensures tick.TimerFired? ==> |r.events| >= 1 && r.events[0] == Waited(state.sleepMultiplier)
    ensures tick.TimerFired? && !BackupConfig.IsBackupEnabled(tick.env.masterBackupEnabled, cfg.settings, tick.env.config) ==>
      r.halt.None? && r.state.sleepMultiplier == state.sleepMultiplier && r.events == [Waited(state.sleepMultiplier)]
    ensures r.halt.None? ==> r.state.sleepMultiplier in {state.sleepMultiplier, 1, 6}
    ensures r.halt.None? ==> OpenEntries({}, r.events) == {}
    ensures r.halt.Some? && r.halt.value.HangHalt? ==> OpenEntries({}, r.events) == {r.halt.value.opId}
    ensures forall e :: e in r.events && e.BackedUp? ==> tick.TimerFired? && e.ds.jobTable in TickCatalog(state, tick.env)
    ensures forall e :: e in r.events && e.DroppedDS? ==>
      && r.halt.None? && r.state.sleepMultiplier == 1
      && e.ds.jobTable !in r.state.catalog && e.ds.jobStatusTable !in r.state.catalog
  {
    match tick
    case Cancelled => StepResult([Stopped], state, Some(CancelHalt))
    case TimerFired(env) =>
      var catalog := TickCatalog(state, env);
      var waited := Waited(state.sleepMultiplier);
      if !BackupConfig.IsBackupEnabled(env.masterBackupEnabled, cfg.settings, env.config) then
        StepResult([waited], state.(catalog := catalog), None)
      else
        match DataSetRanges.GetBackupDSRange(catalog, cfg.tablePrefix, cfg.before, env.stats, env.lookupFaults)
        case Panicked => StepResult([waited, Crashed], state.(catalog := catalog), Some(CrashHalt))
        case Looked(range) =>
          if range == ZeroRange then
            StepResult([waited], LoopState(6, state.nextOpId, catalog), None)
          else
            var run := BackupPipeline.BackupDS(range, cfg.settings, env.config, env.store, cfg.limits, env.faults, env.tmpDir);
            var body := BackupThenDrop(state.nextOpId, catalog, range.ds, run);
            WaitedIsNotJournaled(state.sleepMultiplier, body.events);
            StepResult([waited] + body.events, body.state, body.halt)
  }

  /** The loop run over a sequence of ticks, up to the first halt. */
  function RunLoop(cfg: LoopConfig, state: LoopState, ticks: seq<Tick>): (r: StepResult)
    ensures r.halt.None? ==> OpenEntries({}, r.events) == {}
    ensures r.halt.Some? && r.halt.value.HangHalt? ==> OpenEntries({}, r.events) == {r.halt.value.opId}
    decreases |ticks|
  {
    if |ticks| == 0 then StepResult([], state, None)
    else
      var first := Step(cfg, state, ticks[0]);
      if first.halt.Some? then first
      else
        var rest := RunLoop(cfg, first.state, ticks[1..]);
        OpenEntriesAppend({}, first.events, rest.events);
        StepResult(first.events + rest.events, rest.state, rest.halt)
  }

  // ---------------------------------------------------------------------
  // Properties of the loop

  /** The dataset is dropped even when its backup failed: a failed backup
      is counted and logged, and the drop goes ahead. */
  lemma DropsAfterFailedBackup(cfg: LoopConfig, state: LoopState, env: TickEnv)
    requires BackupConfig.IsBackupEnabled(env.masterBackupEnabled, cfg.settings, env.config)
    requires var catalog := state.catalog + env.newTables;
      var lookup := DataSetRanges.GetBackupDSRange(catalog, cfg.tablePrefix, cfg.before, env.stats, env.lookupFaults);
      && lookup.Looked? && lookup.range != ZeroRange
      && BackupPipeline.BackupDS(lookup.range, cfg.settings, env.config, env.store, cfg.limits, env.faults, env.tmpDir).outcome.Failed?
    ensures var catalog := state.catalog + env.newTables;
      var ds := DataSetRanges.GetBackupDSRange(catalog, cfg.tablePrefix, cfg.before, env.stats, env.lookupFaults).range.ds;
      var r := Step(cfg, state, TimerFired(env));
      && r.halt.None?
      && DroppedDS(ds) in r.events
      && ds.jobTable !in r.state.catalog && ds.jobStatusTable !in r.state.catalog
  {
    var catalog := state.catalog + env.newTables;
    var ds := DataSetRanges.GetBackupDSRange(catalog, cfg.tablePrefix, cfg.before, env.stats, env.lookupFaults).range.ds;
    var r := Step(cfg, state, TimerFired(env));
    var range := DataSetRanges.GetBackupDSRange(catalog, cfg.tablePrefix, cfg.before, env.stats, env.lookupFaults).range;
    var run := BackupPipeline.BackupDS(range, cfg.settings, env.config, env.store, cfg.limits, env.faults, env.tmpDir);
    var body := BackupThenDrop(state.nextOpId, catalog, range.ds, run);
    assert r.events == [Waited(state.sleepMultiplier)] + body.events;
    assert r.events[5] == DroppedDS(ds);
  }

  /** The journal of a tick that finds a dataset whose backup returns,
      event by event: the dataset is backed up under one entry and dropped
      under the next, whatever the backup's outcome. */
  lemma FoundDataSetTickEvents(cfg: LoopConfig, state: LoopState, env: TickEnv,
                               range: DataSetRange, run: BackupPipeline.ExportRun)
    requires BackupConfig.IsBackupEnabled(env.masterBackupEnabled, cfg.settings, env.config)
    requires DataSetRanges.GetBackupDSRange(TickCatalog(state, env), cfg.tablePrefix, cfg.before, env.stats, env.lookupFaults)
      == DataSetRanges.Looked(range)
    requires range != ZeroRange
    requires run == BackupPipeline.BackupDS(range, cfg.settings, env.config, env.store, cfg.limits, env.faults, env.tmpDir)
    requires !run.outcome.Hung?
    ensures var r := Step(cfg, state, TimerFired(env));
      var ds := range.ds;
      var id := state.nextOpId;
      && r.events == [Waited(state.sleepMultiplier), JournalStart(id, BackupDSOperation, ds), BackedUp(ds, run),
                      JournalDone(id), JournalStart(id + 1, BackupDropDSOperation, ds), DroppedDS(ds), JournalDone(id + 1)]
      && r.halt.None? && r.state == LoopState(1, id + 2, DropTables(TickCatalog(state, env), ds))
  {
    StepOnFoundDataSet(cfg, state, env);
    BackupThenDropEvents(state.nextOpId, TickCatalog(state, env), range.ds, run);
  }

  /** The journal of a tick whose backup hangs: the backup's entry is
      started and never marked done, and nothing is dropped. */
  lemma HungBackupTickEvents(cfg: LoopConfig, state: LoopState, env: TickEnv,
                             range: DataSetRange, run: BackupPipeline.ExportRun)
    requires BackupConfig.IsBackupEnabled(env.masterBackupEnabled, cfg.settings, env.config)
    requires DataSetRanges.GetBackupDSRange(TickCatalog(state, env), cfg.tablePrefix, cfg.before, env.stats, env.lookupFaults)
      == DataSetRanges.Looked(range)
    requires range != ZeroRange
    requires run == BackupPipeline.BackupDS(range, cfg.settings, env.config, env.store, cfg.limits, env.faults, env.tmpDir)
    requires run.outcome.Hung?
    ensures var r := Step(cfg, state, TimerFired(env));
      var id := state.nextOpId;
      && r.events == [Waited(state.sleepMultiplier), JournalStart(id, BackupDSOperation, range.ds), BackedUp(range.ds, run)]
      && r.halt == Some(HangHalt(id)) && r.state.catalog == TickCatalog(state, env)
  {
    StepOnFoundDataSet(cfg, state, env);
    BackupThenDropEvents(state.nextOpId, TickCatalog(state, env), range.ds, run);
  }

  /** A tick that finds a dataset is the wait followed by its backup and drop. */
  lemma StepOnFoundDataSet(cfg: LoopConfig, state: LoopState, env: TickEnv)
    requires BackupConfig.IsBackupEnabled(env.masterBackupEnabled, cfg.settings, env.config)
    requires var lookup := DataSetRanges.GetBackupDSRange(TickCatalog(state, env), cfg.tablePrefix, cfg.before,
                                                          env.stats, env.lookupFaults);
      lookup.Looked? && lookup.range != ZeroRange
    ensures var catalog := TickCatalog(state, env);
      var range := DataSetRanges.GetBackupDSRange(catalog, cfg.tablePrefix, cfg.before, env.stats, env.lookupFaults).range;
      var run := BackupPipeline.BackupDS(range, cfg.settings, env.config, env.store, cfg.limits, env.faults, env.tmpDir);
      var body := BackupThenDrop(state.nextOpId, catalog, range.ds, run);
      Step(cfg, state, TimerFired(env)) == StepResult([Waited(state.sleepMultiplier)] + body.events, body.state, body.halt)
  {
  }

  /** The events of a backup and drop, given what the backup did. */
  lemma BackupThenDropEvents(id: nat, catalog: seq<string>, ds: DataSet, run: BackupPipeline.ExportRun)
    ensures var r := BackupThenDrop(id, catalog, ds, run);
      && (!run.outcome.Hung? ==>
            r.events == [JournalStart(id, BackupDSOperation, ds), BackedUp(ds, run), JournalDone(id),
                         JournalStart(id + 1, BackupDropDSOperation, ds), DroppedDS(ds), JournalDone(id + 1)])
      && (run.outcome.Hung? ==> r.events == [JournalStart(id, BackupDSOperation, ds), BackedUp(ds, run)])
  {
  }

  /** An enabled tick whose lookup aborts crashes the loop, and one that
      finds no dataset only waits. */
  lemma NoDataSetTickEvents(cfg: LoopConfig, state: LoopState, env: TickEnv)
    requires BackupConfig.IsBackupEnabled(env.masterBackupEnabled, cfg.settings, env.config)
    ensures var lookup := DataSetRanges.GetBackupDSRange(TickCatalog(state, env), cfg.tablePrefix, cfg.before,
                                                         env.stats, env.lookupFaults);
      var r := Step(cfg, state, TimerFired(env));
      && (lookup.Panicked? ==> r.events == [Waited(state.sleepMultiplier), Crashed] && r.halt == Some(CrashHalt))
      && (lookup == DataSetRanges.Looked(ZeroRange) ==> r.events == [Waited(state.sleepMultiplier)] && r.halt.None?)
  {
  }

  /** A dataset just dropped is not backed up again by the next tick unless
      that tick brings its jobs table back. */
  lemma NoBackupTwice(cfg: LoopConfig, state: LoopState, env1: TickEnv, env2: TickEnv, ds: DataSet)
    requires DroppedDS(ds) in Step(cfg, state, TimerFired(env1)).events
    requires ds.jobTable !in env2.newTables
    ensures var s1 := Step(cfg, state, TimerFired(env1)).state;
      forall e :: e in Step(cfg, s1, TimerFired(env2)).events ==> !e.BackedUp? || e.ds != ds
  {
    var s1 := Step(cfg, state, TimerFired(env1)).state;
    assert ds.jobTable !in TickCatalog(s1, env2);
  }

  /** Backing off: after a tick that finds nothing to back up the next wait
      is six periods, after a tick that backs up a dataset it is one, and a
      tick with backup disabled keeps the current wait. */
  lemma SleepMultiplierRule(cfg: LoopConfig, state: LoopState, env: TickEnv)
    requires BackupConfig.IsBackupEnabled(env.masterBackupEnabled, cfg.settings, env.config)
    ensures var catalog := state.catalog + env.newTables;
      var lookup := DataSetRanges.GetBackupDSRange(catalog, cfg.tablePrefix, cfg.before, env.stats, env.lookupFaults);
      var r := Step(cfg, state, TimerFired(env));
      && (lookup == DataSetRanges.Looked(ZeroRange) ==> r.halt.None? && r.state.sleepMultiplier == 6)
      && (lookup.Looked? && lookup.range != ZeroRange && r.halt.None? ==> r.state.sleepMultiplier == 1)
      && (lookup.Panicked? ==> r.halt == Some(CrashHalt))
  {
  }
}

=== FILE: backup_pipeline.dfy ===
/** backupDS and the three table exports it runs: compaction of the status
    table, then either the failed-only export or the jobs export followed by
    the status export. Each export counts its rows, names its dump, writes it
    page by page, uploads it and deletes the local file. The database, the
    file system and the uploader are replaced by the dataset's rows and a set
    of injected faults; what the run does is recorded as a list of actions. */
module BackupPipeline {
  import opened Optional
  import opened JobsDb
  import BackupConfig
  import StatusCompaction
  import BackupQueries
  import TableDump
  import ArtifactNames

  datatype Export = FailedOnlyExport | JobsExport | StatusExport

  /** A step of a run that the environment makes fail. */
  datatype Fault =
    | CleanFault                            // the compaction DELETE fails
    | CountFault(target: Export)            // the COUNT(*) query fails
    | TmpDirFault(target: Export)           // the temporary directory cannot be made
    | CreateFault(target: Export)           // the dump directory or the gzip file cannot be created
    | QueryFault(target: Export, offset: nat) // the page query at this offset, or the scan or write of one of its rows, fails
    | CloseFault(target: Export)            // closing the gzip file fails
    | UploadFault(target: Export)           // no uploader, or the upload retries run out

  /** The error a failed run returns, naming the step that failed. */
  datatype BackupError =
    | CleanError
    | CountError(target: Export)
    | FileNameError(target: Export)
    | DumpError(target: Export)
    | UploadError(target: Export)

  /** Rows of the dataset's two tables: the jobs in job-id order and the
      statuses in the order of their `job_id`, the orders the jobs and status
      export queries sort by. The failed-only export sorts its join itself. */
  datatype Store = Store(jobs: seq<Job>, statuses: seq<JobStatus>)

  /** `backupRowsBatchSize` and `backupMaxTotalPayloadSize`. */
  datatype Limits = Limits(rowsBatchSize: nat, maxTotalPayloadSize: int)

  /** Content of a dump file, one JSON line per row. */
  datatype DumpLines =
    | JobLines(jobs: seq<Job>)
    | StatusLines(statuses: seq<JobStatus>)
    | FailedLines(rows: seq<BackupQueries.FailedJobRow>)

  /** Effects of a run on the outside world. `Wrote` is a dump written and
      closed; `Abandoned` is a dump file left behind with the rows written to
      it when its dump stopped. */
  datatype Action =
    | Compacted(table: string, kept: seq<JobStatus>)
    | Wrote(path: string, lines: DumpLines)
    | Abandoned(path: string, lines: DumpLines)
    | Uploaded(path: string, folders: seq<string>)
    | Removed(path: string)

  /** `Hung` is an export whose dump loop never ends. */
  datatype Outcome = Completed | Failed(err: BackupError) | Hung(target: Export)

  datatype ExportRun = ExportRun(actions: seq<Action>, outcome: Outcome)

  // ---------------------------------------------------------------------
  // The dump files on disk

  /** The dump files present after one more action. */
  function Touch(disk: set<string>, a: Action): set<string> {
    match a
    case Wrote(p, _) => disk + {p}
    case Abandoned(p, _) => disk + {p}
    case Removed(p) => disk - {p}
    case _ => disk
  }

  /** The dump files present after `actions`, starting from `disk`. */
  function DiskAfter(disk: set<string>, actions: seq<Action>): set<string>
    decreases |actions|
  {
    if |actions| == 0 then disk else DiskAfter(Touch(disk, actions[0]), actions[1..])
  }

  /** The dump files a run leaves behind. */
  function FilesLeft(actions: seq<Action>): set<string> {
    DiskAfter({}, actions)
  }

  lemma DiskAfterFirst(disk: set<string>, actions: seq<Action>)
    requires |actions| > 0
    ensures DiskAfter(disk, actions) == DiskAfter(Touch(disk, actions[0]), actions[1..])
  {
  }

  lemma {:induction false} DiskAfterAppend(disk: set<string>, a: seq<Action>, b: seq<Action>)
    ensures DiskAfter(disk, a + b) == DiskAfter(DiskAfter(disk, a), b)
    decreases |a|
  {
    if |a| == 0 {
      assert a + b == b;
    } else {
      assert (a + b)[1..] == a[1..] + b;
      DiskAfterAppend(Touch(disk, a[0]), a[1..], b);
    }
  }

  // ---------------------------------------------------------------------
  // One export

  /** The page query as the run sees it: failing at the offsets the faults name. */
  function QueryWithFaults<T>(target: Export, query: nat -> Option<seq<T>>, faults: set<Fault>): nat -> Option<seq<T>> {
    (o: nat) => if QueryFault(target, o) in faults then None else query(o)
  }

  /** The export gets as far as creating its dump file. */
  predicate FileCreated(target: Export, totalCount: int, faults: set<Fault>) {
    && CountFault(target) !in faults && totalCount != 0
    && TmpDirFault(target) !in faults && CreateFault(target) !in faults
  }

  /** The dump loop ends with every row written and the file closes. */
  predicate DumpClosed<T>(target: Export, query: nat -> Option<seq<T>>, totalCount: int, faults: set<Fault>) {
    TableDump.CreateTableDump(query, totalCount).Dumped? && CloseFault(target) !in faults
  }

  /** The shared shape of failedOnlyBackup, backupJobsTable and
      backupStatusTable once the count and the query are known. The removal
      of the local file is deferred only once the dump has been closed: a
      dump that stops earlier leaves its file behind, while a failed upload
      still removes it. */
  function RunExport<T>(target: Export, totalCount: int, query: nat -> Option<seq<T>>, lines: seq<T> -> DumpLines,
                        path: string, folders: seq<string>, faults: set<Fault>): (run: ExportRun)
    ensures CountFault(target) in faults ==> run == ExportRun([], Failed(CountError(target)))
    ensures CountFault(target) !in faults && totalCount == 0 ==> run == ExportRun([], Completed)
    ensures run.outcome.Failed? ==> !run.outcome.err.CleanError? && run.outcome.err.target == target
    ensures run.outcome.Hung? <==> FileCreated(target, totalCount, faults) && TableDump.CreateTableDump(query, totalCount).Spins?
    ensures run.outcome.Hung? ==> run.outcome.target == target
    ensures !FileCreated(target, totalCount, faults) ==> run.actions == []
    ensures FileCreated(target, totalCount, faults) && !DumpClosed(target, query, totalCount, faults) ==>
      && run.actions == [Abandoned(path, lines(TableDump.CreateTableDump(query, totalCount).lines))]
      && (run.outcome.Hung? || run.outcome == Failed(DumpError(target)))
    ensures FileCreated(target, totalCount, faults) && DumpClosed(target, query, totalCount, faults) ==>
      && |run.actions| >= 2
      && run.actions[0] == Wrote(path, lines(TableDump.CreateTableDump(query, totalCount).lines))
      && run.actions[|run.actions| - 1] == Removed(path)
      && (UploadFault(target) in faults ==> |run.actions| == 2 && run.outcome == Failed(UploadError(target)))
      && (UploadFault(target) !in faults ==>
            |run.actions| == 3 && run.actions[1] == Uploaded(path, folders) && run.outcome == Completed)
    ensures forall a :: a in run.actions && (a.Wrote? || a.Abandoned?) ==> a == run.actions[0]
  {
    if CountFault(target) in faults then ExportRun([], Failed(CountError(target)))
    else if totalCount == 0 then ExportRun([], Completed)
    else if TmpDirFault(target) in faults then ExportRun([], Failed(FileNameError(target)))
    else if CreateFault(target) in faults then ExportRun([], Failed(DumpError(target)))
    else
      match TableDump.CreateTableDump(query, totalCount)
      case QueryFailed(written) => ExportRun([Abandoned(path, lines(written))], Failed(DumpError(target)))
      case Spins(written) => ExportRun([Abandoned(path, lines(written))], Hung(target))
      case Dumped(rows) =>
        if CloseFault(target) in faults then
          ExportRun([Abandoned(path, lines(rows))], Failed(DumpError(target)))
        else if UploadFault(target) in faults then
          ExportRun([Wrote(path, lines(rows)), Removed(path)], Failed(UploadError(target)))
        else
          ExportRun([Wrote(path, lines(rows)), Uploaded(path, folders), Removed(path)], Completed)
  }

  // ---------------------------------------------------------------------
  // The three exports

  /** failedOnlyBackup: the failed and aborted statuses joined with their jobs. */
  function FailedOnlyBackup(range: DataSetRange, store: Store, limits: Limits, faults: set<Fault>,
                            tmpDir: string, folders: seq<string>): (run: ExportRun)
    ensures forall a :: a in run.actions ==>
      !a.Compacted? && a.path == ArtifactNames.FailedOnlyDumpPath(tmpDir, range)
    ensures forall a :: a in run.actions && (a.Wrote? || a.Abandoned?) ==> a.lines.FailedLines?
    ensures CountFault(FailedOnlyExport) !in faults && BackupQueries.CountFailedOrAborted(store.statuses) == 0 ==>
      run == ExportRun([], Completed)
    ensures run.outcome.Failed? ==> !run.outcome.err.CleanError? && run.outcome.err.target == FailedOnlyExport
    ensures run.outcome.Hung? ==> run.outcome.target == FailedOnlyExport
  {
    RunExport(FailedOnlyExport, BackupQueries.CountFailedOrAborted(store.statuses),
              QueryWithFaults(FailedOnlyExport,
                TableDump.FailedOnlyQuery(store.statuses, store.jobs, limits.rowsBatchSize, limits.maxTotalPayloadSize), faults),
              rows => FailedLines(rows),
              ArtifactNames.FailedOnlyDumpPath(tmpDir, range), folders, faults)
  }

  /** backupJobsTable: the jobs table. */
  function BackupJobsTable(range: DataSetRange, store: Store, limits: Limits, faults: set<Fault>,
                           tmpDir: string, folders: seq<string>): (run: ExportRun)
    ensures forall a :: a in run.actions ==>
      !a.Compacted? && a.path == ArtifactNames.JobsDumpPath(tmpDir, range)
    ensures forall a :: a in run.actions && (a.Wrote? || a.Abandoned?) ==> a.lines.JobLines?
    ensures CountFault(JobsExport) !in faults && |store.jobs| == 0 ==> run == ExportRun([], Completed)
    ensures run.outcome.Failed? ==> !run.outcome.err.CleanError? && run.outcome.err.target == JobsExport
    ensures run.outcome.Hung? ==> run.outcome.target == JobsExport
  {
    RunExport(JobsExport, |store.jobs|,
              QueryWithFaults(JobsExport,
                TableDump.JobsQuery(store.jobs, limits.rowsBatchSize, limits.maxTotalPayloadSize), faults),
              rows => JobLines(rows),
              ArtifactNames.JobsDumpPath(tmpDir, range), folders, faults)
  }

  /** backupStatusTable: the status table. */
  function BackupStatusTable(range: DataSetRange, store: Store, limits: Limits, faults: set<Fault>,
                             tmpDir: string, folders: seq<string>): (run: ExportRun)
    ensures forall a :: a in run.actions ==>
      !a.Compacted? && a.path == ArtifactNames.StatusDumpPath(tmpDir, range)
    ensures forall a :: a in run.actions && (a.Wrote? || a.Abandoned?) ==> a.lines.StatusLines?
    ensures CountFault(StatusExport) !in faults && |store.statuses| == 0 ==> run == ExportRun([], Completed)
    ensures run.outcome.Failed? ==> !run.outcome.err.CleanError? && run.outcome.err.target == StatusExport
    ensures run.outcome.Hung? ==> run.outcome.target == StatusExport
  {
    RunExport(StatusExport, |store.statuses|,
              QueryWithFaults(StatusExport, TableDump.StatusQuery(store.statuses, limits.rowsBatchSize), faults),
              rows => StatusLines(rows),
              ArtifactNames.StatusDumpPath(tmpDir, range), folders, faults)
  }

  /** completeBackup: the jobs export, then the status export unless the
      first one failed. */
  function CompleteBackup(range: DataSetRange, store: Store, limits: Limits, faults: set<Fault>,
                          tmpDir: string, folders: seq<string>): (run: ExportRun)
    ensures BackupJobsTable(range, store, limits, faults, tmpDir, folders).outcome.Completed? ==>
      && run.actions == BackupJobsTable(range, store, limits, faults, tmpDir, folders).actions
                        + BackupStatusTable(range, store, limits, faults, tmpDir, folders).actions
      && run.outcome == BackupStatusTable(range, store, limits, faults, tmpDir, folders).outcome
    ensures !BackupJobsTable(range, store, limits, faults, tmpDir, folders).outcome.Completed? ==>
      run == BackupJobsTable(range, store, limits, faults, tmpDir, folders)
  {
    var jobsRun := BackupJobsTable(range, store, limits, faults, tmpDir, folders);
    if !jobsRun.outcome.Completed? then jobsRun
    else
      var statusRun := BackupStatusTable(range, store, limits, faults, tmpDir, folders);
      ExportRun(jobsRun.actions + statusRun.actions, statusRun.outcome)
  }

  /** The status table as compaction leaves it, with the jobs untouched. */
  function CompactedStore(store: Store): Store {
    Store(store.jobs, StatusCompaction.CleanStatusTable(store.statuses))
  }

  /** backupDS: compaction first; a compaction error ends the run before any
      export. The exports read the compacted status table: the failed-only
      export when the setting asks for it, the two-table backup otherwise. */
  function BackupDS(range: DataSetRange, settings: BackupConfig.BackupSettings, config: BackupConfig.Config,
                    store: Store, limits: Limits, faults: set<Fault>, tmpDir: string): (run: ExportRun)
    ensures CleanFault in faults ==> run == ExportRun([], Failed(CleanError))
    ensures CleanFault !in faults ==>
      var folders := BackupConfig.UploadPathPrefixes(settings, config);
      var exportRun := if settings.failedOnly
        then FailedOnlyBackup(range, CompactedStore(store), limits, faults, tmpDir, folders)
        else CompleteBackup(range, CompactedStore(store), limits, faults, tmpDir, folders);
      run == ExportRun([Compacted(range.ds.jobStatusTable, StatusCompaction.CleanStatusTable(store.statuses))]
                       + exportRun.actions, exportRun.outcome)
    ensures settings.failedOnly ==> forall a :: a in run.actions && (a.Wrote? || a.Abandoned?) ==> a.lines.FailedLines?
    ensures !settings.failedOnly ==> forall a :: a in run.actions && (a.Wrote? || a.Abandoned?) ==> !a.lines.FailedLines?
  {
    if CleanFault in faults then ExportRun([], Failed(CleanError))
    else
      var kept := StatusCompaction.CleanStatusTable(store.statuses);
      var compacted := Store(store.jobs, kept);
      var folders := BackupConfig.UploadPathPrefixes(settings, config);
      var exportRun :=
        if settings.failedOnly then FailedOnlyBackup(range, compacted, limits, faults, tmpDir, folders)
        else CompleteBackup(range, compacted, limits, faults, tmpDir, folders);
      ExportRun([Compacted(range.ds.jobStatusTable, kept)] + exportRun.actions, exportRun.outcome)
  }

  // ---------------------------------------------------------------------
  // Properties of one export

  /** No fault touches `target`. */
  predicate Unfaulted(target: Export, faults: set<Fault>) {
    forall f :: f in faults && !f.CleanFault? ==> f.target != target
  }

  lemma QueryWithoutFaults<T>(target: Export, query: nat -> Option<seq<T>>, faults: set<Fault>, table: seq<T>)
    requires Unfaulted(target, faults)
    requires TableDump.ServesTable(query, table)
    ensures TableDump.ServesTable(QueryWithFaults(target, query, faults), table)
  {
    var q := QueryWithFaults(target, query, faults);
    forall o: nat | o <= |table|
      ensures q(o) == query(o)
    {
      assert QueryFault(target, o) !in faults;
    }
  }

  /** With no fault and a count equal to the rows the query pages through,
      an export writes exactly those rows, uploads the file and removes it. */
  lemma ExportWholeTable<T>(target: Export, query: nat -> Option<seq<T>>, table: seq<T>, lines: seq<T> -> DumpLines,
                            path: string, folders: seq<string>, faults: set<Fault>)
    requires Unfaulted(target, faults)
    requires TableDump.ServesTable(query, table)
    requires |table| > 0
    ensures RunExport(target, |table|, QueryWithFaults(target, query, faults), lines, path, folders, faults)
      == ExportRun([Wrote(path, lines(table)), Uploaded(path, folders), Removed(path)], Completed)
  {
    QueryWithoutFaults(target, query, faults, table);
    TableDump.DumpWritesWholeTable(QueryWithFaults(target, query, faults), table);
  }

  /** A count above the rows the query can return hangs the export, with
      the whole table written to a dump file that stays on disk. */
  lemma ExportHangsOnShortTable<T>(target: Export, query: nat -> Option<seq<T>>, table: seq<T>, totalCount: int,
                                   lines: seq<T> -> DumpLines, path: string, folders: seq<string>, faults: set<Fault>)
    requires Unfaulted(target, faults)
    requires TableDump.ServesTable(query, table)
    requires totalCount > |table|
    ensures RunExport(target, totalCount, QueryWithFaults(target, query, faults), lines, path, folders, faults)
      == ExportRun([Abandoned(path, lines(table))], Hung(target))
  {
    QueryWithoutFaults(target, query, faults, table);
    TableDump.DumpSpinsWhenCountExceedsRows(QueryWithFaults(target, query, faults), table, totalCount);
  }

  /** A query that fails on the second page, after the first page has been
      written, fails the export and leaves the partial dump on disk: the
      removal is only deferred once the dump has been closed. */
  lemma QueryFaultOnSecondPageLeavesDump<T>(target: Export, query: nat -> Option<seq<T>>, table: seq<T>,
                                            lines: seq<T> -> DumpLines, path: string, folders: seq<string>)
    requires TableDump.ServesTable(query, table)
    requires 0 < |query(0).value| < |table|
    ensures var faults := {QueryFault(target, |query(0).value|)};
      var run := RunExport(target, |table|, QueryWithFaults(target, query, faults), lines, path, folders, faults);
      && run == ExportRun([Abandoned(path, lines(query(0).value))], Failed(DumpError(target)))
      && FilesLeft(run.actions) == {path}
  {
    var faults := {QueryFault(target, |query(0).value|)};
    var q := QueryWithFaults(target, query, faults);
    var first := query(0).value;
    assert q(0) == Some(first);
    assert q(|first|) == None;
    assert [] + first == first;
    assert TableDump.DumpFrom(q, |table|, first) == TableDump.QueryFailed(first);
    assert TableDump.CreateTableDump(q, |table|) == TableDump.QueryFailed(first);
    var run := RunExport(target, |table|, q, lines, path, folders, faults);
    assert run.actions == [Abandoned(path, lines(first))];
    DiskAfterFirst({}, run.actions);
    assert Touch({}, run.actions[0]) == {path};
  }

  /** The jobs export dumps the whole jobs table, in job-id order. */
  lemma JobsExportDumpsAllJobs(range: DataSetRange, store: Store, limits: Limits, faults: set<Fault>,
                               tmpDir: string, folders: seq<string>)
    requires Unfaulted(JobsExport, faults)
    requires limits.rowsBatchSize > 0 && |store.jobs| > 0
    ensures BackupJobsTable(range, store, limits, faults, tmpDir, folders) ==
      ExportRun([Wrote(ArtifactNames.JobsDumpPath(tmpDir, range), JobLines(store.jobs)),
                 Uploaded(ArtifactNames.JobsDumpPath(tmpDir, range), folders),
                 Removed(ArtifactNames.JobsDumpPath(tmpDir, range))], Completed)
  {
    var query := TableDump.JobsQuery(store.jobs, limits.rowsBatchSize, limits.maxTotalPayloadSize);
    TableDump.JobsQueryServes(store.jobs, limits.rowsBatchSize, limits.maxTotalPayloadSize);
    ExportWholeTable(JobsExport, query, store.jobs, rows => JobLines(rows),
                     ArtifactNames.JobsDumpPath(tmpDir, range), folders, faults);
  }

  /** The status export dumps the whole status table. */
  lemma StatusExportDumpsAllStatuses(range: DataSetRange, store: Store, limits: Limits, faults: set<Fault>,
                                     tmpDir: string, folders: seq<string>)
    requires Unfaulted(StatusExport, faults)
    requires limits.rowsBatchSize > 0 && |store.statuses| > 0
    ensures BackupStatusTable(range, store, limits, faults, tmpDir, folders) ==
      ExportRun([Wrote(ArtifactNames.StatusDumpPath(tmpDir, range), StatusLines(store.statuses)),
                 Uploaded(ArtifactNames.StatusDumpPath(tmpDir, range), folders),
                 Removed(ArtifactNames.StatusDumpPath(tmpDir, range))], Completed)
  {
    var query := TableDump.StatusQuery(store.statuses, limits.rowsBatchSize);
    TableDump.StatusQueryServes(store.statuses, limits.rowsBatchSize);
    ExportWholeTable(StatusExport, query, store.statuses, rows => StatusLines(rows),
                     ArtifactNames.StatusDumpPath(tmpDir, range), folders, faults);
  }

  /** Every failed or aborted status has its job. */
  ghost predicate FailedStatusesHaveJobs(store: Store) {
    forall s :: s in store.statuses && IsFailedOrAborted(s.jobState) ==>
      exists j :: j in store.jobs && j.jobId == s.jobId
  }

  /** When every failed status has its job, the failed-only export dumps the
      whole join, sorted as the export query orders it. */
  lemma FailedOnlyExportDumpsJoin(range: DataSetRange, store: Store, limits: Limits, faults: set<Fault>,
                                  tmpDir: string, folders: seq<string>)
    requires Unfaulted(FailedOnlyExport, faults)
    requires limits.rowsBatchSize > 0 && FailedStatusesHaveJobs(store)
    requires BackupQueries.CountFailedOrAborted(store.statuses) > 0
    ensures var join := BackupQueries.FailedJoin(store.statuses, store.jobs);
      var path := ArtifactNames.FailedOnlyDumpPath(tmpDir, range);
      FailedOnlyBackup(range, store, limits, faults, tmpDir, folders) ==
        ExportRun([Wrote(path, FailedLines(join)), Uploaded(path, folders), Removed(path)], Completed)
  {
    var join := BackupQueries.FailedJoin(store.statuses, store.jobs);
    BackupQueries.FailedJoinMatchesCount(store.statuses, store.jobs);
    var query := TableDump.FailedOnlyQuery(store.statuses, store.jobs, limits.rowsBatchSize, limits.maxTotalPayloadSize);
    TableDump.FailedOnlyQueryServes(store.statuses, store.jobs, limits.rowsBatchSize, limits.maxTotalPayloadSize);
    ExportWholeTable(FailedOnlyExport, query, join, rows => FailedLines(rows),
                     ArtifactNames.FailedOnlyDumpPath(tmpDir, range), folders, faults);
  }

  /** The failed-only count does not join: a failed status whose job is
      missing makes the count exceed the rows the query returns, and the
      export never finishes, with the join written to a file left behind. */
  lemma FailedOnlyExportHangsOnOrphanStatus(range: DataSetRange, store: Store, limits: Limits, faults: set<Fault>,
                                            tmpDir: string, folders: seq<string>, orphan: JobStatus)
    requires Unfaulted(FailedOnlyExport, faults)
    requires limits.rowsBatchSize > 0
    requires orphan in store.statuses && IsFailedOrAborted(orphan.jobState)
    requires forall j :: j in store.jobs ==> j.jobId != orphan.jobId
    ensures var join := BackupQueries.FailedJoin(store.statuses, store.jobs);
      FailedOnlyBackup(range, store, limits, faults, tmpDir, folders) ==
        ExportRun([Abandoned(ArtifactNames.FailedOnlyDumpPath(tmpDir, range), FailedLines(join))], Hung(FailedOnlyExport))
  {
    var join := BackupQueries.FailedJoin(store.statuses, store.jobs);
    BackupQueries.FailedJoinShortOnOrphan(store.statuses, store.jobs, orphan);
    var query := TableDump.FailedOnlyQuery(store.statuses, store.jobs, limits.rowsBatchSize, limits.maxTotalPayloadSize);
    TableDump.FailedOnlyQueryServes(store.statuses, store.jobs, limits.rowsBatchSize, limits.maxTotalPayloadSize);
    ExportHangsOnShortTable(FailedOnlyExport, query, join, BackupQueries.CountFailedOrAborted(store.statuses),
                            rows => FailedLines(rows), ArtifactNames.FailedOnlyDumpPath(tmpDir, range), folders, faults);
  }

  /** A zero batch size makes every page empty: any non-empty jobs table
      hangs the export, leaving an empty dump file behind. */
  lemma ZeroBatchSizeHangs(range: DataSetRange, store: Store, limits: Limits, faults: set<Fault>,
                           tmpDir: string, folders: seq<string>)
    requires Unfaulted(JobsExport, faults)
    requires limits.rowsBatchSize == 0 && |store.jobs| > 0
    ensures BackupJobsTable(range, store, limits, faults, tmpDir, folders) ==
      ExportRun([Abandoned(ArtifactNames.JobsDumpPath(tmpDir, range), JobLines([]))], Hung(JobsExport))
  {
    var query := QueryWithFaults(JobsExport,
      TableDump.JobsQuery(store.jobs, limits.rowsBatchSize, limits.maxTotalPayloadSize), faults);
    assert QueryFault(JobsExport, 0) !in faults;
    assert query(0) == Some([]);
    assert TableDump.DumpFrom(query, |store.jobs|, []) == TableDump.Spins([]);
  }

  // ---------------------------------------------------------------------
  // Properties of a whole run

  /** Every upload comes right after the dump it uploads, and every dump
      written and closed is removed before the run ends. */
  ghost predicate DumpsUploadedThenRemoved(actions: seq<Action>) {
    && (forall i :: 0 <= i < |actions| && actions[i].Uploaded? ==>
          i > 0 && actions[i - 1].Wrote? && actions[i - 1].path == actions[i].path)
    && (forall i :: 0 <= i < |actions| && actions[i].Wrote? ==>
          exists k :: i < k < |actions| && actions[k] == Removed(actions[i].path))
  }

  /** One export removes the dump it closed; a dump that stops before it is
      closed, or that is never closed, stays on disk, and the export then
      hangs or fails with a dump error. */
  lemma ExportRunShape<T>(target: Export, totalCount: int, query: nat -> Option<seq<T>>, lines: seq<T> -> DumpLines,
                          path: string, folders: seq<string>, faults: set<Fault>)
    ensures var run := RunExport(target, totalCount, query, lines, path, folders, faults);
      && DumpsUploadedThenRemoved(run.actions)
      && FilesLeft(run.actions) ==
           (if FileCreated(target, totalCount, faults) && !DumpClosed(target, query, totalCount, faults) then {path} else {})
      && (FilesLeft(run.actions) != {} ==> run.outcome.Hung? || run.outcome == Failed(DumpError(target)))
  {
    var actions := RunExport(target, totalCount, query, lines, path, folders, faults).actions;
    if actions != [] {
      DiskAfterFirst({}, actions);
      assert Touch({}, actions[0]) == {path};
      if |actions| >= 2 {
        DiskAfterFirst({path}, actions[1..]);
        assert actions[1..][1..] == actions[2..];
        if |actions| == 2 {
          assert Touch({path}, actions[1]) == {};
        } else {
          assert Touch({path}, actions[1]) == {path};
          DiskAfterFirst({path}, actions[2..]);
          assert Touch({path}, actions[2]) == {};
        }
      }
    }
  }

  lemma DumpsUploadedThenRemovedAppend(a: seq<Action>, b: seq<Action>)
    requires DumpsUploadedThenRemoved(a) && DumpsUploadedThenRemoved(b)
    requires b != [] ==> !b[0].Uploaded?
    ensures DumpsUploadedThenRemoved(a + b)
  {
    var c := a + b;
    forall i | 0 <= i < |c| && c[i].Wrote?
      ensures exists k :: i < k < |c| && c[k] == Removed(c[i].path)
    {
      if i < |a| {
        var k :| i < k < |a| && a[k] == Removed(a[i].path);
        assert c[k] == Removed(c[i].path);
      } else {
        var k :| i - |a| < k < |b| && b[k] == Removed(b[i - |a|].path);
        assert c[k + |a|] == Removed(c[i].path);
      }
    }
    forall i | 0 <= i < |c| && c[i].Uploaded?
      ensures i > 0 && c[i - 1].Wrote? && c[i - 1].path == c[i].path
    {
      if i >= |a| {
        assert b[i - |a|].Uploaded?;
      }
    }
  }

  /** The dump files of one dataset. */
  function DumpPaths(tmpDir: string, range: DataSetRange): set<string> {
    {ArtifactNames.JobsDumpPath(tmpDir, range), ArtifactNames.StatusDumpPath(tmpDir, range),
     ArtifactNames.FailedOnlyDumpPath(tmpDir, range)}
  }

  /** Each upload follows its dump, every closed dump is removed, and at
      most one file of `paths` is left, only by a run that hangs or fails on
      a dump. */
  ghost predicate CleansUp(run: ExportRun, paths: set<string>) {
    && DumpsUploadedThenRemoved(run.actions)
    && (run.actions != [] ==> !run.actions[0].Uploaded?)
    && FilesLeft(run.actions) <= paths
    && |FilesLeft(run.actions)| <= 1
    && (FilesLeft(run.actions) != {} ==> run.outcome.Hung? || (run.outcome.Failed? && run.outcome.err.DumpError?))
  }

  lemma FailedOnlyBackupCleansUp(range: DataSetRange, store: Store, limits: Limits, faults: set<Fault>,
                                 tmpDir: string, folders: seq<string>)
    ensures CleansUp(FailedOnlyBackup(range, store, limits, faults, tmpDir, folders), DumpPaths(tmpDir, range))
  {
    ExportRunShape(FailedOnlyExport, BackupQueries.CountFailedOrAborted(store.statuses),
      QueryWithFaults(FailedOnlyExport,
        TableDump.FailedOnlyQuery(store.statuses, store.jobs, limits.rowsBatchSize, limits.maxTotalPayloadSize), faults),
      rows => FailedLines(rows), ArtifactNames.FailedOnlyDumpPath(tmpDir, range), folders, faults);
  }

  lemma BackupJobsTableCleansUp(range: DataSetRange, store: Store, limits: Limits, faults: set<Fault>,
                                tmpDir: string, folders: seq<string>)
    ensures CleansUp(BackupJobsTable(range, store, limits, faults, tmpDir, folders), DumpPaths(tmpDir, range))
  {
    ExportRunShape(JobsExport, |store.jobs|,
      QueryWithFaults(JobsExport, TableDump.JobsQuery(store.jobs, limits.rowsBatchSize, limits.maxTotalPayloadSize), faults),
      rows => JobLines(rows), ArtifactNames.JobsDumpPath(tmpDir, range), folders, faults);
  }

  lemma BackupStatusTableCleansUp(range: DataSetRange, store: Store, limits: Limits, faults: set<Fault>,
                                  tmpDir: string, folders: seq<string>)
    ensures CleansUp(BackupStatusTable(range, store, limits, faults, tmpDir, folders), DumpPaths(tmpDir, range))
  {
    ExportRunShape(StatusExport, |store.statuses|,
      QueryWithFaults(StatusExport, TableDump.StatusQuery(store.statuses, limits.rowsBatchSize), faults),
      rows => StatusLines(rows), ArtifactNames.StatusDumpPath(tmpDir, range), folders, faults);
  }

  /** A completed first run leaves nothing, so the pair leaves what the
      second leaves. */
  lemma CleansUpAppend(first: ExportRun, second: ExportRun, paths: set<string>)
    requires CleansUp(first, paths) && CleansUp(second, paths)
    requires first.outcome.Completed?
    ensures CleansUp(ExportRun(first.actions + second.actions, second.outcome), paths)
  {
    DumpsUploadedThenRemovedAppend(first.actions, second.actions);
    DiskAfterAppend({}, first.actions, second.actions);
    if first.actions == [] {
      assert first.actions + second.actions == second.actions;
    }
  }

  lemma CompleteBackupCleansUp(range: DataSetRange, store: Store, limits: Limits, faults: set<Fault>,
                               tmpDir: string, folders: seq<string>)
    ensures CleansUp(CompleteBackup(range, store, limits, faults, tmpDir, folders), DumpPaths(tmpDir, range))
  {
    var jobsRun := BackupJobsTable(range, store, limits, faults, tmpDir, folders);
    var statusRun := BackupStatusTable(range, store, limits, faults, tmpDir, folders);
    BackupJobsTableCleansUp(range, store, limits, faults, tmpDir, folders);
    BackupStatusTableCleansUp(range, store, limits, faults, tmpDir, folders);
    if jobsRun.outcome.Completed? {
      CleansUpAppend(jobsRun, statusRun, DumpPaths(tmpDir, range));
    }
  }

  /** In every run, whatever the faults, each upload follows the dump it
      uploads and every closed dump is removed. At most one dump of the
      dataset stays on disk, and only when the run hangs or fails on a dump. */
  lemma BackupDSCleansUp(range: DataSetRange, settings: BackupConfig.BackupSettings, config: BackupConfig.Config,
                         store: Store, limits: Limits, faults: set<Fault>, tmpDir: string)
    ensures var run := BackupDS(range, settings, config, store, limits, faults, tmpDir);
      && DumpsUploadedThenRemoved(run.actions)
      && FilesLeft(run.actions) <= DumpPaths(tmpDir, range)
      && |FilesLeft(run.actions)| <= 1
      && (FilesLeft(run.actions) != {} ==> run.outcome.Hung? || (run.outcome.Failed? && run.outcome.err.DumpError?))
  {
    if CleanFault !in faults {
      var compacted := CompactedStore(store);
      var folders := BackupConfig.UploadPathPrefixes(settings, config);
      var head := ExportRun([Compacted(range.ds.jobStatusTable, compacted.statuses)], Completed);
      var exportRun := if settings.failedOnly then FailedOnlyBackup(range, compacted, limits, faults, tmpDir, folders)
        else CompleteBackup(range, compacted, limits, faults, tmpDir, folders);
      if settings.failedOnly {
        FailedOnlyBackupCleansUp(range, compacted, limits, faults, tmpDir, folders);
      } else {
        CompleteBackupCleansUp(range, compacted, limits, faults, tmpDir, folders);
      }
      DiskAfterFirst({}, head.actions);
      assert CleansUp(head, DumpPaths(tmpDir, range));
      CleansUpAppend(head, exportRun, DumpPaths(tmpDir, range));
    }
  }

  /** A dump a run leaves behind is one the next start-up sweep removes,
      when the queue prefix and the dataset index hold no '/'. */
  lemma LeftDumpsAreSwept(range: DataSetRange, settings: BackupConfig.BackupSettings, config: BackupConfig.Config,
                          store: Store, limits: Limits, faults: set<Fault>, tmpDir: string,
                          tablePrefix: string, dnum: string, files: seq<string>)
    requires range.ds == PreDropDataSet(tablePrefix, dnum)
    requires '/' !in tablePrefix && '/' !in dnum
    ensures forall f :: f in FilesLeft(BackupDS(range, settings, config, store, limits, faults, tmpDir).actions) && f in files ==>
      f in ArtifactNames.LeftoverDumps(tmpDir, tablePrefix, files)
  {
    BackupDSCleansUp(range, settings, config, store, limits, faults, tmpDir);
    ArtifactNames.LeftoverDumpsCoverDataSet(tmpDir, tablePrefix, dnum, range, files);
  }

  /** Without faults, with a positive batch size and both tables non-empty,
      a complete backup compacts the status table and archives both tables
      whole: the jobs table first, then the compacted status table. */
  lemma CompleteBackupArchivesBothTables(range: DataSetRange, settings: BackupConfig.BackupSettings,
                                         config: BackupConfig.Config, store: Store, limits: Limits,
                                         faults: set<Fault>, tmpDir: string)
    requires !settings.failedOnly && CleanFault !in faults
    requires Unfaulted(JobsExport, faults) && Unfaulted(StatusExport, faults)
    requires limits.rowsBatchSize > 0 && |store.jobs| > 0 && |store.statuses| > 0
    ensures var run := BackupDS(range, settings, config, store, limits, faults, tmpDir);
      var kept := StatusCompaction.CleanStatusTable(store.statuses);
      var folders := BackupConfig.UploadPathPrefixes(settings, config);
      var jobsPath := ArtifactNames.JobsDumpPath(tmpDir, range);
      var statusPath := ArtifactNames.StatusDumpPath(tmpDir, range);
      && run.outcome == Completed
      && run.actions == [Compacted(range.ds.jobStatusTable, kept),
                         Wrote(jobsPath, JobLines(store.jobs)), Uploaded(jobsPath, folders), Removed(jobsPath),
                         Wrote(statusPath, StatusLines(kept)), Uploaded(statusPath, folders), Removed(statusPath)]
  {
    var compacted := CompactedStore(store);
    var folders := BackupConfig.UploadPathPrefixes(settings, config);
    StatusCompaction.CleanKeepsSomeRow(store.statuses);
    JobsExportDumpsAllJobs(range, compacted, limits, faults, tmpDir, folders);
    StatusExportDumpsAllStatuses(range, compacted, limits, faults, tmpDir, folders);
    BackupDSRunsComplete(range, settings, config, store, limits, faults, tmpDir);
  }

  /** A complete backup past compaction is the compaction followed by the
      two-table backup of the compacted tables. */
  lemma BackupDSRunsComplete(range: DataSetRange, settings: BackupConfig.BackupSettings,
                             config: BackupConfig.Config, store: Store, limits: Limits,
                             faults: set<Fault>, tmpDir: string)
    requires !settings.failedOnly && CleanFault !in faults
    ensures var exportRun := CompleteBackup(range, CompactedStore(store), limits, faults, tmpDir,
                                            BackupConfig.UploadPathPrefixes(settings, config));
      BackupDS(range, settings, config, store, limits, faults, tmpDir)
        == ExportRun([Compacted(range.ds.jobStatusTable, CompactedStore(store).statuses)] + exportRun.actions,
                     exportRun.outcome)
  {
  }

  /** Without faults, with a positive batch size and every failed status
      joined to its job, a failed-only backup compacts the status table and
      archives exactly the sorted join of the compacted statuses. */
  lemma FailedOnlyBackupArchivesJoin(range: DataSetRange, settings: BackupConfig.BackupSettings,
                                     config: BackupConfig.Config, store: Store, limits: Limits,
                                     faults: set<Fault>, tmpDir: string)
    requires settings.failedOnly && CleanFault !in faults && Unfaulted(FailedOnlyExport, faults)
    requires limits.rowsBatchSize > 0 && FailedStatusesHaveJobs(store)
    requires BackupQueries.CountFailedOrAborted(StatusCompaction.CleanStatusTable(store.statuses)) > 0
    ensures var run := BackupDS(range, settings, config, store, limits, faults, tmpDir);
      var kept := StatusCompaction.CleanStatusTable(store.statuses);
      var folders := BackupConfig.UploadPathPrefixes(settings, config);
      var path := ArtifactNames.FailedOnlyDumpPath(tmpDir, range);
      && run.outcome == Completed
      && run.actions == [Compacted(range.ds.jobStatusTable, kept),
                         Wrote(path, FailedLines(BackupQueries.FailedJoin(kept, store.jobs))),
                         Uploaded(path, folders), Removed(path)]
  {
    var compacted := CompactedStore(store);
    var folders := BackupConfig.UploadPathPrefixes(settings, config);
    CompactionKeepsJobsJoined(store);
    FailedOnlyExportDumpsJoin(range, compacted, limits, faults, tmpDir, folders);
    BackupDSRunsFailedOnly(range, settings, config, store, limits, faults, tmpDir);
  }

  /** A failed-only backup past compaction is the compaction followed by
      the failed-only export of the compacted tables. */
  lemma BackupDSRunsFailedOnly(range: DataSetRange, settings: BackupConfig.BackupSettings,
                               config: BackupConfig.Config, store: Store, limits: Limits,
                               faults: set<Fault>, tmpDir: string)
    requires settings.failedOnly && CleanFault !in faults
    ensures var exportRun := FailedOnlyBackup(range, CompactedStore(store), limits, faults, tmpDir,
                                              BackupConfig.UploadPathPrefixes(settings, config));
      BackupDS(range, settings, config, store, limits, faults, tmpDir)
        == ExportRun([Compacted(range.ds.jobStatusTable, CompactedStore(store).statuses)] + exportRun.actions,
                     exportRun.outcome)
  {
  }

  /** Compaction only deletes status rows, so it keeps every failed status
      joined to its job. */
  lemma CompactionKeepsJobsJoined(store: Store)
    requires FailedStatusesHaveJobs(store)
    ensures FailedStatusesHaveJobs(CompactedStore(store))
  {
    var compacted := CompactedStore(store);
    forall s | s in compacted.statuses && IsFailedOrAborted(s.jobState)
      ensures exists j :: j in compacted.jobs && j.jobId == s.jobId
    {
      assert s in store.statuses;
    }
  }
}

=== FILE: backup_queries.dfy ===
/** What one backup query returns for a given offset. Each query reads a
    `LIMIT rowsBatchSize OFFSET offset` page of an ordered result; the jobs and
    failed-only queries then keep only the rows whose running payload size fits
    the budget, always keeping the page's first row. Result orderings are
    taken as the order of the input sequences. */
module BackupQueries {
  import opened JobsDb
  import opened Optional

  function Min(a: int, b: int): int {
    if a <= b then a else b
  }

  /** `LIMIT limit OFFSET offset` over an ordered result. */
  function Page<T>(rows: seq<T>, offset: nat, limit: nat): (page: seq<T>)
    ensures |page| == (if offset >= |rows| then 0 else Min(limit, |rows| - offset))
    ensures forall i :: 0 <= i < |page| ==> offset + i < |rows| && page[i] == rows[offset + i]
  {
    if offset >= |rows| then [] else rows[offset..Min(offset + limit, |rows|)]
  }

  /** Sum of the sizes of the first `n` rows: the `sum(...) OVER (ORDER BY
      ...)` column of row number `n`, the ordering keys being distinct. */
  function RunningSize<T>(rows: seq<T>, size: T -> nat, n: nat): nat
    requires n <= |rows|
    decreases n
  {
    if n == 0 then 0 else RunningSize(rows, size, n - 1) + size(rows[n - 1])
  }

  /** Rows `i..` of `page` that pass `running_payload_size <= maxTotal OR
      row_num = 1` (`row_num` is `i + 1`). */
  function WindowFrom<T>(page: seq<T>, size: T -> nat, maxTotal: int, i: nat): (kept: seq<T>)
    requires i <= |page|
    ensures |kept| <= |page| - i
    decreases |page| - i
  {
    if i == |page| then []
    else
      (if RunningSize(page, size, i + 1) <= maxTotal || i == 0 then [page[i]] else [])
      + WindowFrom(page, size, maxTotal, i + 1)
  }

  /** The size-windowed selection over one page. */
  function SizeWindow<T>(page: seq<T>, size: T -> nat, maxTotal: int): (kept: seq<T>)
    ensures |kept| <= |page|
  {
    WindowFrom(page, size, maxTotal, 0)
  }

  lemma {:induction false} RunningSizeMonotone<T>(rows: seq<T>, size: T -> nat, m: nat, n: nat)
    requires m <= n <= |rows|
    ensures RunningSize(rows, size, m) <= RunningSize(rows, size, n)
    decreases n - m
  {
    if m < n {
      RunningSizeMonotone(rows, size, m, n - 1);
    }
  }

  /** Once a row past the first is over budget, so is every later row. */
  lemma {:induction false} WindowFromOverBudget<T>(page: seq<T>, size: T -> nat, maxTotal: int, i: nat)
    requires 1 <= i < |page|
    requires RunningSize(page, size, i + 1) > maxTotal
    ensures WindowFrom(page, size, maxTotal, i) == []
    decreases |page| - i
  {
    if i + 1 < |page| {
      RunningSizeMonotone(page, size, i + 1, i + 2);
      WindowFromOverBudget(page, size, maxTotal, i + 1);
    }
  }

  /** Past the first row the window is a contiguous run that ends at the
      first over-budget row. */
  lemma {:induction false} WindowFromIsSlice<T>(page: seq<T>, size: T -> nat, maxTotal: int, i: nat)
      returns (cut: nat)
    requires 1 <= i <= |page|
    ensures i <= cut <= |page|
    ensures WindowFrom(page, size, maxTotal, i) == page[i..cut]
    ensures cut > i ==> RunningSize(page, size, cut) <= maxTotal
    ensures cut < |page| ==> RunningSize(page, size, cut + 1) > maxTotal
    decreases |page| - i
  {
    if i == |page| {
      cut := i;
    } else if RunningSize(page, size, i + 1) > maxTotal {
      WindowFromOverBudget(page, size, maxTotal, i);
      cut := i;
    } else {
      var c := WindowFromIsSlice(page, size, maxTotal, i + 1);
      cut := c;
      assert page[i..cut] == [page[i]] + page[i + 1..cut];
    }
  }

  /** The size window is a prefix of the page: non-empty whenever the page
      is, within budget whenever it holds two or more rows, and cut exactly
      where the next row would exceed the budget. */
  lemma SizeWindowIsPrefix<T>(page: seq<T>, size: T -> nat, maxTotal: int)
    ensures SizeWindow(page, size, maxTotal) == page[..|SizeWindow(page, size, maxTotal)|]
    ensures |page| > 0 ==> |SizeWindow(page, size, maxTotal)| >= 1
    ensures |SizeWindow(page, size, maxTotal)| >= 2 ==>
      RunningSize(page, size, |SizeWindow(page, size, maxTotal)|) <= maxTotal
    ensures 0 < |SizeWindow(page, size, maxTotal)| < |page| ==>
      RunningSize(page, size, |SizeWindow(page, size, maxTotal)| + 1) > maxTotal
  {
    if |page| > 0 {
      var cut := WindowFromIsSlice(page, size, maxTotal, 1);
      assert SizeWindow(page, size, maxTotal) == [page[0]] + page[1..cut];
      assert page[..cut] == [page[0]] + page[1..cut];
    }
  }

  // ---------------------------------------------------------------------
  // The three export queries

  function JobPayloadSize(job: Job): nat {
    job.payloadSize
  }

  /** One row of the failed-only export: a failed or aborted status joined
      with its job. */
  datatype FailedJobRow = FailedJobRow(job: Job, status: JobStatus)

  function FailedRowPayloadSize(row: FailedJobRow): nat {
    row.job.payloadSize
  }

  /** The job with the given id, if the jobs table holds one. */
  function FindJob(jobs: seq<Job>, jobId: int): (found: Option<Job>)
    ensures found.Some? ==> found.value in jobs && found.value.jobId == jobId
    ensures found.None? ==> forall j :: j in jobs ==> j.jobId != jobId
    decreases |jobs|
  {
    if |jobs| == 0 then None
    else if jobs[0].jobId == jobId then Some(jobs[0])
    else FindJob(jobs[1..], jobId)
  }

  /** `job_status INNER JOIN job ... WHERE job_state IN (failed, aborted)`,
      before sorting: one row per failed or aborted status whose job is
      present, in status-table order. */
  function FailedMatches(statuses: seq<JobStatus>, jobs: seq<Job>): (rows: seq<FailedJobRow>)
    ensures |rows| <= |statuses|
    ensures forall r :: r in rows ==>
      r.status in statuses && IsFailedOrAborted(r.status.jobState) && r.job in jobs && r.job.jobId == r.status.jobId
    decreases |statuses|
  {
    if |statuses| == 0 then []
    else
      var s := statuses[0];
      var head := if IsFailedOrAborted(s.jobState) then
          (match FindJob(jobs, s.jobId)
           case Some(j) => [FailedJobRow(j, s)]
           case None => [])
        else [];
      head + FailedMatches(statuses[1..], jobs)
  }

  // ---------------------------------------------------------------------
  // ORDER BY job.custom_val, job_status.job_id, job_status.exec_time

  /** Text order, character by character, a proper prefix first (the C
      collation). */
  predicate TextLeq(a: string, b: string)
    decreases |a|
  {
    |a| == 0 || (|b| > 0 && (a[0] < b[0] || (a[0] == b[0] && TextLeq(a[1..], b[1..]))))
  }

  lemma {:induction false} TextLeqTotal(a: string, b: string)
    ensures TextLeq(a, b) || TextLeq(b, a)
    decreases |a|
  {
    if |a| > 0 && |b| > 0 && a[0] == b[0] {
      TextLeqTotal(a[1..], b[1..]);
    }
  }

  lemma {:induction false} TextLeqAntisymmetric(a: string, b: string)
    requires TextLeq(a, b) && TextLeq(b, a)
    ensures a == b
    decreases |a|
  {
    if |a| > 0 {
      TextLeqAntisymmetric(a[1..], b[1..]);
      assert a == [a[0]] + a[1..] && b == [b[0]] + b[1..];
    }
  }

  lemma {:induction false} TextLeqTransitive(a: string, b: string, c: string)
    requires TextLeq(a, b) && TextLeq(b, c)
    ensures TextLeq(a, c)
    decreases |a|
  {
    if |a| > 0 && a[0] == b[0] && b[0] == c[0] {
      TextLeqTransitive(a[1..], b[1..], c[1..]);
    }
  }

  /** `a` sorts no later than `b` under the failed-only export's ORDER BY. */
  predicate RowLeq(a: FailedJobRow, b: FailedJobRow) {
    if a.job.customVal != b.job.customVal then TextLeq(a.job.customVal, b.job.customVal)
    else if a.status.jobId != b.status.jobId then a.status.jobId < b.status.jobId
    else a.status.execTime <= b.status.execTime
  }

  lemma RowLeqTotal(a: FailedJobRow, b: FailedJobRow)
    ensures RowLeq(a, b) || RowLeq(b, a)
  {
    TextLeqTotal(a.job.customVal, b.job.customVal);
  }

  lemma RowLeqTransitive(a: FailedJobRow, b: FailedJobRow, c: FailedJobRow)
    requires RowLeq(a, b) && RowLeq(b, c)
    ensures RowLeq(a, c)
  {
    var x, y, z := a.job.customVal, b.job.customVal, c.job.customVal;
    if x != y && y != z {
      TextLeqTransitive(x, y, z);
      if x == z {
        TextLeqAntisymmetric(x, y);
      }
    }
  }

  /** Every row sorts no later than every row after it. */
  predicate SortedByKey(rows: seq<FailedJobRow>) {
    forall i, j :: 0 <= i < j < |rows| ==> RowLeq(rows[i], rows[j])
  }

  /** Inserts `x` before the first row it sorts no later than. */
  function InsertRow(x: FailedJobRow, rows: seq<FailedJobRow>): (r: seq<FailedJobRow>)
    ensures multiset(r) == multiset(rows) + multiset{x}
    decreases |rows|
  {
    if |rows| == 0 || RowLeq(x, rows[0]) then [x] + rows
    else
      assert rows == [rows[0]] + rows[1..];
      [rows[0]] + InsertRow(x, rows[1..])
  }

  lemma {:induction false} InsertRowSorted(x: FailedJobRow, rows: seq<FailedJobRow>)
    requires SortedByKey(rows)
    ensures SortedByKey(InsertRow(x, rows))
    decreases |rows|
  {
    var r := InsertRow(x, rows);
    if |rows| == 0 || RowLeq(x, rows[0]) {
      forall i, j | 0 <= i < j < |r|
        ensures RowLeq(r[i], r[j])
      {
        if i == 0 && j > 1 {
          RowLeqTransitive(x, rows[0], rows[j - 1]);
        }
      }
    } else {
      var tail := InsertRow(x, rows[1..]);
      InsertRowSorted(x, rows[1..]);
      RowLeqTotal(x, rows[0]);
      forall k | 0 <= k < |tail|
        ensures RowLeq(rows[0], tail[k])
      {
        assert tail[k] in multiset(tail);
        if tail[k] != x {
          assert tail[k] in multiset(rows[1..]);
          var m :| 0 <= m < |rows[1..]| && rows[1..][m] == tail[k];
          assert rows[m + 1] == tail[k];
        }
      }
      assert r == [rows[0]] + tail;
      forall i, j | 0 <= i < j < |r|
        ensures RowLeq(r[i], r[j])
      {
        if i > 0 {
          assert r[i] == tail[i - 1] && r[j] == tail[j - 1];
        } else {
          assert r[j] == tail[j - 1];
        }
      }
    }
  }

  /** Insertion sort by the export's key. Rows with equal keys keep their
      relative order. */
  function SortRows(rows: seq<FailedJobRow>): (sorted: seq<FailedJobRow>)
    ensures multiset(sorted) == multiset(rows)
    ensures SortedByKey(sorted)
    decreases |rows|
  {
    if |rows| == 0 then []
    else
      var rest := SortRows(rows[1..]);
      InsertRowSorted(rows[0], rest);
      assert rows == [rows[0]] + rows[1..];
      InsertRow(rows[0], rest)
  }

  /** The join the failed-only query pages through: the matches, ordered by
      `job.custom_val, job_status.job_id, job_status.exec_time`. */
  function FailedJoin(statuses: seq<JobStatus>, jobs: seq<Job>): (rows: seq<FailedJobRow>)
    ensures SortedByKey(rows)
    ensures multiset(rows) == multiset(FailedMatches(statuses, jobs))
    ensures |rows| == |FailedMatches(statuses, jobs)| && |rows| <= |statuses|
    ensures forall r :: r in rows ==>
      r.status in statuses && IsFailedOrAborted(r.status.jobState) && r.job in jobs && r.job.jobId == r.status.jobId
  {
    var matches := FailedMatches(statuses, jobs);
    var rows := SortRows(matches);
    assert |multiset(rows)| == |multiset(matches)|;
    assert forall r :: r in rows ==> r in multiset(matches);
    rows
  }

  /** The `COUNT(*)` the failed-only export compares its offset with: failed
      or aborted statuses, without the join. */
  function CountFailedOrAborted(statuses: seq<JobStatus>): (count: nat)
    ensures count <= |statuses|
    ensures count == 0 <==> forall s :: s in statuses ==> !IsFailedOrAborted(s.jobState)
    decreases |statuses|
  {
    if |statuses| == 0 then 0
    else
      var rest := CountFailedOrAborted(statuses[1..]);
      assert forall s :: s in statuses[1..] ==> s in statuses;
      assert forall s :: s in statuses ==> s == statuses[0] || s in statuses[1..];
      (if IsFailedOrAborted(statuses[0].jobState) then 1 else 0) + rest
  }

  lemma {:induction false} FailedMatchesCount(statuses: seq<JobStatus>, jobs: seq<Job>)
    requires forall s :: s in statuses && IsFailedOrAborted(s.jobState) ==>
      exists j :: j in jobs && j.jobId == s.jobId
    ensures |FailedMatches(statuses, jobs)| == CountFailedOrAborted(statuses)
    decreases |statuses|
  {
    if |statuses| > 0 {
      var s := statuses[0];
      if IsFailedOrAborted(s.jobState) {
        var j :| j in jobs && j.jobId == s.jobId;
        assert FindJob(jobs, s.jobId).Some?;
      }
      FailedMatchesCount(statuses[1..], jobs);
    }
  }

  /** Every failed or aborted status is exported when its job is present:
      the join then returns exactly as many rows as the count. */
  lemma FailedJoinMatchesCount(statuses: seq<JobStatus>, jobs: seq<Job>)
    requires forall s :: s in statuses && IsFailedOrAborted(s.jobState) ==>
      exists j :: j in jobs && j.jobId == s.jobId
    ensures |FailedJoin(statuses, jobs)| == CountFailedOrAborted(statuses)
  {
    FailedMatchesCount(statuses, jobs);
  }

  lemma {:induction false} FailedMatchesShortOnOrphan(statuses: seq<JobStatus>, jobs: seq<Job>, orphan: JobStatus)
    requires orphan in statuses && IsFailedOrAborted(orphan.jobState)
    requires forall j :: j in jobs ==> j.jobId != orphan.jobId
    ensures |FailedMatches(statuses, jobs)| < CountFailedOrAborted(statuses)
    decreases |statuses|
  {
    FailedMatchesAtMostCount(statuses[1..], jobs);
    if statuses[0] != orphan {
      FailedMatchesShortOnOrphan(statuses[1..], jobs, orphan);
    }
  }

  /** A failed or aborted status without its job is counted but not joined:
      the join is then strictly shorter than the count. */
  lemma FailedJoinShortOnOrphan(statuses: seq<JobStatus>, jobs: seq<Job>, orphan: JobStatus)
    requires orphan in statuses && IsFailedOrAborted(orphan.jobState)
    requires forall j :: j in jobs ==> j.jobId != orphan.jobId
    ensures |FailedJoin(statuses, jobs)| < CountFailedOrAborted(statuses)
  {
    FailedMatchesShortOnOrphan(statuses, jobs, orphan);
  }

  lemma {:induction false} FailedMatchesAtMostCount(statuses: seq<JobStatus>, jobs: seq<Job>)
    ensures |FailedMatches(statuses, jobs)| <= CountFailedOrAborted(statuses)
    decreases |statuses|
  {
    if |statuses| > 0 {
      FailedMatchesAtMostCount(statuses[1..], jobs);
    }
  }

  /** getFailedOnlyBackupQueryFn at one offset. */
  function FailedOnlyBatch(statuses: seq<JobStatus>, jobs: seq<Job>, rowsBatchSize: nat, maxTotalPayloadSize: int, offset: nat)
    : (batch: seq<FailedJobRow>)
    ensures |batch| <= rowsBatchSize
    ensures var page := Page(FailedJoin(statuses, jobs), offset, rowsBatchSize);
      |batch| <= |page| && batch == page[..|batch|] && (|page| > 0 ==> |batch| > 0)
    ensures |batch| >= 2 ==>
      RunningSize(Page(FailedJoin(statuses, jobs), offset, rowsBatchSize), FailedRowPayloadSize, |batch|)
        <= maxTotalPayloadSize
    ensures var page := Page(FailedJoin(statuses, jobs), offset, rowsBatchSize);
      0 < |batch| < |page| ==> RunningSize(page, FailedRowPayloadSize, |batch| + 1) > maxTotalPayloadSize
  {
    var page := Page(FailedJoin(statuses, jobs), offset, rowsBatchSize);
    SizeWindowIsPrefix(page, FailedRowPayloadSize, maxTotalPayloadSize);
    SizeWindow(page, FailedRowPayloadSize, maxTotalPayloadSize)
  }

  /** getJobsBackupQueryFn at one offset. */
  function JobsBatch(jobs: seq<Job>, rowsBatchSize: nat, maxTotalPayloadSize: int, offset: nat): (batch: seq<Job>)
    ensures |batch| <= rowsBatchSize
    ensures var page := Page(jobs, offset, rowsBatchSize);
      |batch| <= |page| && batch == page[..|batch|] && (|page| > 0 ==> |batch| > 0)
    ensures |batch| >= 2 ==>
      RunningSize(Page(jobs, offset, rowsBatchSize), JobPayloadSize, |batch|) <= maxTotalPayloadSize
    ensures var page := Page(jobs, offset, rowsBatchSize);
      0 < |batch| < |page| ==> RunningSize(page, JobPayloadSize, |batch| + 1) > maxTotalPayloadSize
  {
    var page := Page(jobs, offset, rowsBatchSize);
    SizeWindowIsPrefix(page, JobPayloadSize, maxTotalPayloadSize);
    SizeWindow(page, JobPayloadSize, maxTotalPayloadSize)
  }

  /** getStatusBackupQueryFn at one offset: a plain page, no size window. */
  function StatusBatch(statuses: seq<JobStatus>, rowsBatchSize: nat, offset: nat): (batch: seq<JobStatus>)
    ensures |batch| == (if offset >= |statuses| then 0 else Min(rowsBatchSize, |statuses| - offset))
    ensures |batch| <= rowsBatchSize
    ensures offset < |statuses| && rowsBatchSize > 0 ==> |batch| > 0
    ensures forall i :: 0 <= i < |batch| ==> offset + i < |statuses| && batch[i] == statuses[offset + i]
  {
    Page(statuses, offset, rowsBatchSize)
  }
}

=== FILE: dataset_range.dfy ===
/** getBackupDSRange: finds the oldest renamed dataset of the queue and
    reads its job-id and creation-time bounds. */
module DataSetRanges {
  import opened Optional
  import opened JobsDb

  // ---------------------------------------------------------------------
  // Finding the renamed datasets

  /** Indices of the renamed jobs tables of queue `tablePrefix`, in the order
      the catalog lists the tables. */
  function DnumList(tableNames: seq<string>, tablePrefix: string): (dnums: seq<string>)
    ensures |dnums| <= |tableNames|
    ensures forall k :: 0 <= k < |dnums| ==> PreDropJobsPrefix(tablePrefix) + dnums[k] in tableNames
    decreases |tableNames|
  {
    if |tableNames| == 0 then []
    else
      var p := PreDropJobsPrefix(tablePrefix);
      var t := tableNames[0];
      var rest := DnumList(tableNames[1..], tablePrefix);
      if p <= t then
        assert p + t[|p|..] == t;
        [t[|p|..]] + rest
      else rest
  }

  /** Every renamed jobs table of the queue contributes its index. */
  lemma {:induction false} DnumListComplete(tableNames: seq<string>, tablePrefix: string, t: string)
    requires t in tableNames && PreDropJobsPrefix(tablePrefix) <= t
    ensures t[|PreDropJobsPrefix(tablePrefix)|..] in DnumList(tableNames, tablePrefix)
    decreases |tableNames|
  {
    if tableNames[0] != t {
      DnumListComplete(tableNames[1..], tablePrefix, t);
    }
  }

  /** The list is empty exactly when no table carries the renamed-jobs prefix. */
  lemma {:induction false} DnumListEmpty(tableNames: seq<string>, tablePrefix: string)
    ensures |DnumList(tableNames, tablePrefix)| == 0 <==>
      forall t :: t in tableNames ==> !(PreDropJobsPrefix(tablePrefix) <= t)
  {
    var dnums := DnumList(tableNames, tablePrefix);
    var p := PreDropJobsPrefix(tablePrefix);
    if |dnums| > 0 {
      assert p <= p + dnums[0];
    }
    forall t | t in tableNames && p <= t
      ensures |dnums| > 0
    {
      DnumListComplete(tableNames, tablePrefix, t);
    }
  }

  /** A renamed status table never passes for a jobs table, although both
      names start with `pre_drop_<queue>_job`. */
  lemma StatusTableNotListed(tablePrefix: string, dnum: string)
    ensures !(PreDropJobsPrefix(tablePrefix) <= PreDropStatusPrefix(tablePrefix) + dnum)
  {
    var head := PreDropTablePrefix + tablePrefix + "_job";
    assert PreDropJobsPrefix(tablePrefix) == head + "s_";
    assert PreDropStatusPrefix(tablePrefix) + dnum == head + ("_status_" + dnum);
    assert PreDropJobsPrefix(tablePrefix)[|head|] == 's';
    assert (PreDropStatusPrefix(tablePrefix) + dnum)[|head|] == '_';
  }

  // ---------------------------------------------------------------------
  // Picking the first dataset after sorting

  /** The first element of `dnums` once sorted by `before`: sortDnumList is
      not part of this model, so its ordering is a parameter. Ties keep the
      earlier-listed element. */
  function Earliest(dnums: seq<string>, before: (string, string) -> bool): (first: string)
    requires |dnums| > 0
    ensures first in dnums
    decreases |dnums|
  {
    if |dnums| == 1 then dnums[0]
    else
      var rest := Earliest(dnums[1..], before);
      if before(rest, dnums[0]) then rest else dnums[0]
  }

  /** `before` is a strict total order on the elements of `xs`. */
  ghost predicate StrictTotalOrderOn(before: (string, string) -> bool, xs: seq<string>) {
    && (forall a :: a in xs ==> !before(a, a))
    && (forall a, b :: a in xs && b in xs && a != b ==> before(a, b) || before(b, a))
    && (forall a, b, c :: a in xs && b in xs && c in xs && before(a, b) && before(b, c) ==> before(a, c))
  }

  lemma StrictTotalOrderOnTail(before: (string, string) -> bool, xs: seq<string>)
    requires |xs| > 0 && StrictTotalOrderOn(before, xs)
    ensures StrictTotalOrderOn(before, xs[1..])
  {
    forall a | a in xs[1..] ensures a in xs { }
  }

  /** Under a strict total order the chosen index precedes every other one:
      the backup always takes the oldest renamed dataset. */
  lemma {:induction false} EarliestIsMinimal(dnums: seq<string>, before: (string, string) -> bool, d: string)
    requires |dnums| > 0 && StrictTotalOrderOn(before, dnums)
    requires d in dnums && d != Earliest(dnums, before)
    ensures before(Earliest(dnums, before), d)
    decreases |dnums|
  {
    if |dnums| > 1 {
      var rest := Earliest(dnums[1..], before);
      StrictTotalOrderOnTail(before, dnums);
      if d != dnums[0] && d != rest {
        assert d in dnums[1..];
        EarliestIsMinimal(dnums[1..], before, d);
      }
      assert rest in dnums;
    }
  }

  // ---------------------------------------------------------------------
  // Reading the bounds

  /** Answers of `SELECT MIN(job_id), MAX(job_id)` and `SELECT
      MIN(created_at), MAX(created_at)` on a jobs table; `None` is SQL NULL,
      which an empty table yields. Creation times are Unix nanoseconds. */
  datatype TableStats = TableStats(
    minJobId: Option<int>,
    maxJobId: Option<int>,
    minCreatedAt: Option<int>,
    maxCreatedAt: Option<int>)

  /** A `sql.NullInt64` read through its `Int64` field: NULL reads as 0. */
  function NullToZero(v: Option<int>): (i: int)
    ensures v.Some? ==> i == v.value
    ensures v.None? ==> i == 0
  {
    match v
    case Some(x) => x
    case None => 0
  }

  /** `UnixNano() / int64(time.Millisecond)`: Go's division truncates toward
      zero, so instants before 1970 round up to the millisecond. */
  function NanosToMillis(nanos: int): (millis: int)
    ensures nanos >= 0 ==> 0 <= nanos - millis * 1000000 < 1000000
    ensures nanos < 0 ==> 0 <= millis * 1000000 - nanos < 1000000
  {
    if nanos >= 0 then nanos / 1000000 else -((-nanos) / 1000000)
  }

  /** Truncation keeps the order of instants. */
  lemma NanosToMillisMonotone(a: int, b: int)
    requires a <= b
    ensures NanosToMillis(a) <= NanosToMillis(b)
  {
  }

  /** A database call of the lookup that fails: listing the tables, or
      reading the job-id or the creation-time bounds. */
  datatype LookupFault = CatalogFault | JobIdBoundsFault | TimeBoundsFault

  /** What getBackupDSRange returns. `Panicked` is the process abort on any
      error of the lookup's database calls, including scanning NULL creation
      times (an empty jobs table) into a `time.Time`: each error is asserted
      away. */
  datatype Lookup = Looked(range: DataSetRange) | Panicked

  function GetBackupDSRange(tableNames: seq<string>, tablePrefix: string, before: (string, string) -> bool,
                            stats: string -> TableStats, faults: set<LookupFault>): (r: Lookup)
    ensures r.Looked? && r.range == ZeroRange <==>
      CatalogFault !in faults && forall t :: t in tableNames ==> !(PreDropJobsPrefix(tablePrefix) <= t)
    ensures r.Looked? && r.range != ZeroRange ==>
      && r.range.ds == PreDropDataSet(tablePrefix, r.range.ds.index)
      && r.range.ds.index in DnumList(tableNames, tablePrefix)
      && r.range.ds.jobTable in tableNames
    ensures r.Panicked? <==>
      || CatalogFault in faults
      || (&& |DnumList(tableNames, tablePrefix)| > 0
          && (|| JobIdBoundsFault in faults || TimeBoundsFault in faults
              || var st := stats(PreDropDataSet(tablePrefix, Earliest(DnumList(tableNames, tablePrefix), before)).jobTable);
                 st.minCreatedAt.None? || st.maxCreatedAt.None?))
  {
    var dnums := DnumList(tableNames, tablePrefix);
    DnumListEmpty(tableNames, tablePrefix);
    if CatalogFault in faults then Panicked
    else if |dnums| == 0 then Looked(ZeroRange)
    else if JobIdBoundsFault in faults || TimeBoundsFault in faults then Panicked
    else
      var ds := PreDropDataSet(tablePrefix, Earliest(dnums, before));
      assert ds.jobTable != "";
      var st := stats(ds.jobTable);
      match (st.minCreatedAt, st.maxCreatedAt)
      case (Some(minAt), Some(maxAt)) =>
        Looked(DataSetRange(NullToZero(st.minJobId), NullToZero(st.maxJobId),
                            NanosToMillis(minAt), NanosToMillis(maxAt), ds))
      case _ => Panicked
  }

  /** The range found is the oldest renamed dataset (under a strict total
      order), its job ids are the table's bounds (0 for NULL) and its times
      are the table's bounds truncated to milliseconds, start before end. */
  lemma FoundRangeDescribesOldestDataSet(tableNames: seq<string>, tablePrefix: string, before: (string, string) -> bool,
                                         stats: string -> TableStats, faults: set<LookupFault>, d: string)
    requires StrictTotalOrderOn(before, DnumList(tableNames, tablePrefix))
    requires GetBackupDSRange(tableNames, tablePrefix, before, stats, faults).Looked?
    requires d in DnumList(tableNames, tablePrefix)
    ensures var range := GetBackupDSRange(tableNames, tablePrefix, before, stats, faults).range;
      && (d != range.ds.index ==> before(range.ds.index, d))
      && range.minJobId == NullToZero(stats(range.ds.jobTable).minJobId)
      && range.maxJobId == NullToZero(stats(range.ds.jobTable).maxJobId)
      && range.startTime == NanosToMillis(stats(range.ds.jobTable).minCreatedAt.value)
      && range.endTime == NanosToMillis(stats(range.ds.jobTable).maxCreatedAt.value)
      && (stats(range.ds.jobTable).minCreatedAt.value <= stats(range.ds.jobTable).maxCreatedAt.value ==>
            range.startTime <= range.endTime)
  {
    var dnums := DnumList(tableNames, tablePrefix);
    var range := GetBackupDSRange(tableNames, tablePrefix, before, stats, faults).range;
    var first := Earliest(dnums, before);
    assert range.ds == PreDropDataSet(tablePrefix, first);
    if d != first {
      EarliestIsMinimal(dnums, before, d);
    }
    var st := stats(range.ds.jobTable);
    if st.minCreatedAt.value <= st.maxCreatedAt.value {
      NanosToMillisMonotone(st.minCreatedAt.value, st.maxCreatedAt.value);
    }
  }
}

=== FILE: decimal.dfy ===
/** Decimal rendering of integers, as Go's `%v` / `%d` verbs print them.
    Used for the numeric parts of backup artifact names and for the textual
    form of warehouse values. */
module Decimal {

  predicate IsDigit(c: char) {
    '0' <= c <= '9'
  }

  predicate AllDigits(s: string) {
    forall i :: 0 <= i < |s| ==> IsDigit(s[i])
  }

  function DigitChar(d: nat): (c: char)
    requires d < 10
    ensures IsDigit(c)
  {
    (('0' as int) + d) as char
  }

  function DigitValue(c: char): (d: nat)
    requires IsDigit(c)
    ensures d < 10
  {
    (c as int) - ('0' as int)
  }

  /** Base-10 rendering of a natural number, most significant digit first,
      without leading zeros. */
  function NatToString(n: nat): (s: string)
    ensures |s| >= 1
    ensures AllDigits(s)
    ensures s[0] == '0' ==> n == 0 && |s| == 1
    decreases n
  {
    if n < 10 then [DigitChar(n)] else NatToString(n / 10) + [DigitChar(n % 10)]
  }

  /** Reads back a string of digits. */
  function ParseNat(s: string): nat
    requires AllDigits(s)
    decreases |s|
  {
    if |s| == 0 then 0 else ParseNat(s[..|s| - 1]) * 10 + DigitValue(s[|s| - 1])
  }

  lemma {:induction false} ParseNatToString(n: nat)
    ensures ParseNat(NatToString(n)) == n
    decreases n
  {
    var s := NatToString(n);
    if n >= 10 {
      ParseNatToString(n / 10);
      assert s[..|s| - 1] == NatToString(n / 10);
    }
  }

  /** Rendering of a signed integer: a leading '-' for negative values. */
  function IntToString(i: int): (s: string)
    ensures |s| >= 1
    ensures i < 0 <==> s[0] == '-'
    ensures i >= 0 ==> AllDigits(s)
    ensures AllDigits(s[1..])
    ensures IsIntText(s)
  {
    if i < 0 then "-" + NatToString(-i) else NatToString(i)
  }

  /** Text `ParseInt` accepts: digits, optionally after one leading '-'. */
  predicate IsIntText(s: string) {
    && |s| >= 1
    && (s[0] == '-' ==> AllDigits(s[1..]))
    && (s[0] != '-' ==> AllDigits(s))
  }

  /** Integer text holds no character other than digits and a leading '-'. */
  lemma IntTextChars(s: string, k: nat)
    requires IsIntText(s) && k < |s|
    ensures IsDigit(s[k]) || (k == 0 && s[k] == '-')
  {
    if s[0] == '-' && k > 0 {
      assert s[k] == s[1..][k - 1];
    }
  }

  function ParseInt(s: string): int
    requires IsIntText(s)
  {
    if s[0] == '-' then -(ParseNat(s[1..]) as int) else ParseNat(s)
  }

  /** Rendering then reading gives the number back, so distinct numbers
      render to distinct strings. */
  lemma IntToStringRoundTrip(i: int)
    ensures ParseInt(IntToString(i)) == i
  {
    var s := IntToString(i);
    if i < 0 {
      assert s[1..] == NatToString(-i);
      ParseNatToString(-i);
      assert ParseInt(s) == -(ParseNat(s[1..]) as int);
    } else {
      ParseNatToString(i);
      assert ParseInt(s) == ParseNat(s);
    }
  }

  lemma IntToStringInjective(i: int, j: int)
    requires IntToString(i) == IntToString(j)
    ensures i == j
  {
    IntToStringRoundTrip(i);
    IntToStringRoundTrip(j);
  }
}

=== FILE: destination.dfy ===
/** The regulation worker's view of the backend configuration: which
    workspace it serves (GetWorkspaceId) and the details of one destination
    (GetDestDetails), both read from a configuration fetched with retries
    (getDestDetails). */
module Destination {
  import opened Optional

  /** Configuration objects are kept as string maps. */
  type Config = map<string, string>

  datatype DestinationDefinition = DestinationDefinition(name: string, config: Config)
  datatype DestinationT = DestinationT(id: string, config: Config, definition: DestinationDefinition)
  datatype Source = Source(destinations: seq<DestinationT>)
  datatype WorkspaceConfig = WorkspaceConfig(sources: seq<Source>)

  /** The fetched configuration: workspace id to its configuration. */
  type BackendConfig = map<string, WorkspaceConfig>

  /** What the worker needs to know about a destination. */
  datatype DestinationDetails = DestinationDetails(
    config: Config, destinationId: string, name: string, destDefConfig: Config)

  const EmptyDetails: DestinationDetails := DestinationDetails(map[], "", "", map[])

  datatype Error =
    | FetchError(cause: string)
    | WorkspaceIdNotFound
    | InvalidDestination

  /** The text of the error GetWorkspaceId makes. */
  const WorkspaceIdNotFoundMessage: string := "workspaceId not found in config"

  /** How the retried fetch ended. On failure the backoff is asked once
      more whether it would stop (`backoffStopped`); `lastConf` is what the
      last attempt left in the shared variable. */
  datatype RetryOutcome =
    | RetrySucceeded(conf: BackendConfig)
    | RetryFailed(err: Error, backoffStopped: bool, lastConf: BackendConfig)

  datatype Fetched = Fetched(conf: BackendConfig, err: Option<Error>)

  /** The result rule of getDestDetails. A failure is reported only when the
      backoff has given up, and then with an empty configuration; a failure
      for any other reason, such as cancellation, passes as success with
      whatever the last attempt left. */
  function FetchConfig(outcome: RetryOutcome): (r: Fetched)
    ensures r.err.Some? <==> outcome.RetryFailed? && outcome.backoffStopped
    ensures r.err.Some? ==> r.err.value == outcome.err && r.conf == map[]
    ensures outcome.RetrySucceeded? ==> r == Fetched(outcome.conf, None)
    ensures outcome.RetryFailed? && !outcome.backoffStopped ==> r == Fetched(outcome.lastConf, None)
  {
    match outcome
    case RetrySucceeded(conf) => Fetched(conf, None)
    case RetryFailed(err, stopped, last) => if stopped then Fetched(map[], Some(err)) else Fetched(last, None)
  }

  // ---------------------------------------------------------------------
  // GetWorkspaceId

  lemma SingleKey(conf: BackendConfig, a: string, b: string)
    requires |conf| == 1 && a in conf && b in conf
    ensures a == b
  {
    if a != b {
      assert {a, b} <= conf.Keys;
      assert |{a, b}| == 2;
      SubsetCardinality({a, b}, conf.Keys);
    }
  }

  lemma SubsetCardinality(small: set<string>, big: set<string>)
    requires small <= big
    ensures |small| <= |big|
  {
    assert big == small + (big - small);
  }

  /** The sole workspace of a single-workspace configuration. */
  function SoleWorkspace(conf: BackendConfig): (w: string)
    requires |conf| == 1
    ensures w in conf
  {
    assert forall a, b :: a in conf && b in conf ==> a == b by {
      forall a, b | a in conf && b in conf ensures a == b { SingleKey(conf, a, b); }
    }
    var w :| w in conf; w
  }

  /** Only single-workspace configurations are served: the workspace id is
      the configuration's only key; with none or several the result is the
      empty id and WorkspaceIdNotFound. A fetch error comes back unchanged. */
  function GetWorkspaceId(outcome: RetryOutcome): (r: (string, Option<Error>))
    ensures FetchConfig(outcome).err.Some? ==> r == ("", FetchConfig(outcome).err)
    ensures FetchConfig(outcome).err.None? && |FetchConfig(outcome).conf| == 1 ==>
      r.1 == None && r.0 in FetchConfig(outcome).conf
    ensures FetchConfig(outcome).err.None? && |FetchConfig(outcome).conf| != 1 ==>
      r == ("", Some(WorkspaceIdNotFound))
    ensures r.1 == None <==> FetchConfig(outcome).err.None? && |FetchConfig(outcome).conf| == 1
  {
    var fetched := FetchConfig(outcome);
    if fetched.err.Some? then ("", fetched.err)
    else if |fetched.conf| == 1 then (SoleWorkspace(fetched.conf), None)
    else ("", Some(WorkspaceIdNotFound))
  }

  /** The workspace id found is the one workspace of the configuration: any
      workspace the configuration has is it. */
  lemma WorkspaceIdIsTheOnlyWorkspace(outcome: RetryOutcome, w: string)
    requires GetWorkspaceId(outcome).1 == None
    requires w in FetchConfig(outcome).conf
    ensures GetWorkspaceId(outcome).0 == w
  {
    SingleKey(FetchConfig(outcome).conf, w, GetWorkspaceId(outcome).0);
  }

  /** A fetch that failed without the backoff giving up leaves no
      configuration behind in practice, and then the worker reports
      WorkspaceIdNotFound rather than the fetch error. */
  lemma CancelledFetchReportsNotFound(err: Error)
    ensures GetWorkspaceId(RetryFailed(err, false, map[])) == ("", Some(WorkspaceIdNotFound))
  {
  }

  // ---------------------------------------------------------------------
  // GetDestDetails

  function FindInDestinations(dests: seq<DestinationT>, destId: string): (found: Option<DestinationT>)
    ensures found.Some? ==> found.value in dests && found.value.id == destId
    ensures found.None? <==> forall k :: 0 <= k < |dests| ==> dests[k].id != destId
    decreases |dests|
  {
    if |dests| == 0 then None
    else if dests[0].id == destId then Some(dests[0])
    else
      var rest := FindInDestinations(dests[1..], destId);
      assert forall k :: 1 <= k < |dests| ==> dests[k] == dests[1..][k - 1];
      rest
  }

  /** Some destination of some source in `sources` has the id. */
  predicate SourcesHave(sources: seq<Source>, destId: string) {
    exists i, k :: 0 <= i < |sources| && 0 <= k < |sources[i].destinations| && sources[i].destinations[k].id == destId
  }

  function FindInSources(sources: seq<Source>, destId: string): (found: Option<DestinationT>)
    ensures found.Some? ==> found.value.id == destId && exists i :: 0 <= i < |sources| && found.value in sources[i].destinations
    ensures found.None? <==> !SourcesHave(sources, destId)
    decreases |sources|
  {
    if |sources| == 0 then None
    else
      var here := FindInDestinations(sources[0].destinations, destId);
      if here.Some? then here
      else
        var rest := FindInSources(sources[1..], destId);
        assert forall i :: 1 <= i < |sources| ==> sources[i] == sources[1..][i - 1];
        rest
  }

  /** The search over the workspaces in `order`, the order in which the map
      happens to be iterated; names not in the configuration are skipped. */
  function FindInWorkspaces(conf: BackendConfig, order: seq<string>, destId: string): (found: Option<DestinationT>)
    ensures found.Some? ==> found.value.id == destId
    ensures found.Some? ==>
      exists w, i :: w in conf && 0 <= i < |conf[w].sources| && found.value in conf[w].sources[i].destinations
    ensures found.None? <==> forall w :: w in order && w in conf ==> !SourcesHave(conf[w].sources, destId)
    decreases |order|
  {
    if |order| == 0 then None
    else
      var here := if order[0] in conf then FindInSources(conf[order[0]].sources, destId) else None;
      if here.Some? then here
      else
        var rest := FindInWorkspaces(conf, order[1..], destId);
        assert forall w :: w in order ==> w == order[0] || w in order[1..];
        rest
  }

  /** The details of the first destination with the id; an unknown id gives
      the empty details and InvalidDestination, a fetch error the empty
      details and that error. */
  function GetDestDetails(outcome: RetryOutcome, order: seq<string>, destId: string): (r: (DestinationDetails, Option<Error>))
    ensures FetchConfig(outcome).err.Some? ==> r == (EmptyDetails, FetchConfig(outcome).err)
    ensures r.1 == None ==> r.0.destinationId == destId
    ensures r.1 == None ==>
      exists w, i, d ::
        && w in FetchConfig(outcome).conf
        && 0 <= i < |FetchConfig(outcome).conf[w].sources|
        && d in FetchConfig(outcome).conf[w].sources[i].destinations
        && d.id == destId
        && r.0 == DestinationDetails(d.config, d.id, d.definition.name, d.definition.config)
    ensures r.1 == Some(InvalidDestination) ==> r.0 == EmptyDetails
    ensures FetchConfig(outcome).err.None? ==> r.1 == None || r.1 == Some(InvalidDestination)
  {
    var fetched := FetchConfig(outcome);
    if fetched.err.Some? then (EmptyDetails, fetched.err)
    else
      match FindInWorkspaces(fetched.conf, order, destId)
      case Some(d) => (DestinationDetails(d.config, d.id, d.definition.name, d.definition.config), None)
      case None => (EmptyDetails, Some(InvalidDestination))
  }

  /** Some destination of the configuration has the id. */
  predicate ConfigHas(conf: BackendConfig, destId: string) {
    exists w :: w in conf && SourcesHave(conf[w].sources, destId)
  }

  /** When the iteration covers every workspace, the destination is reported
      invalid exactly when no workspace has a destination with the id, and
      found without an error exactly when some workspace has one. */
  lemma InvalidIffAbsent(outcome: RetryOutcome, order: seq<string>, destId: string)
    requires FetchConfig(outcome).err.None?
    requires forall w :: w in FetchConfig(outcome).conf ==> w in order
    ensures GetDestDetails(outcome, order, destId).1 == Some(InvalidDestination) <==>
      !ConfigHas(FetchConfig(outcome).conf, destId)
    ensures GetDestDetails(outcome, order, destId).1 == None <==>
      ConfigHas(FetchConfig(outcome).conf, destId)
  {
  }

  /** With destination ids unique across the configuration, the details do
      not depend on the order in which the workspaces are visited. */
  lemma DetailsIndependentOfOrder(outcome: RetryOutcome, order1: seq<string>, order2: seq<string>, destId: string)
    requires forall w :: w in FetchConfig(outcome).conf ==> w in order1 && w in order2
    requires forall w1, i1, w2, i2, d1, d2 ::
      && w1 in FetchConfig(outcome).conf && 0 <= i1 < |FetchConfig(outcome).conf[w1].sources|
      && w2 in FetchConfig(outcome).conf && 0 <= i2 < |FetchConfig(outcome).conf[w2].sources|
      && d1 in FetchConfig(outcome).conf[w1].sources[i1].destinations
      && d2 in FetchConfig(outcome).conf[w2].sources[i2].destinations
      && d1.id == destId && d2.id == destId
      ==> d1 == d2
    ensures GetDestDetails(outcome, order1, destId) == GetDestDetails(outcome, order2, destId)
  {
  }
}

=== FILE: jobsdb_types.dfy ===
/** Rows, datasets and dataset ranges of the job queue, as the backup code
    reads them. A table is a sequence of rows in the order its export query
    sorts them. */
module JobsDb {

  /** Tables of a dataset awaiting archival are renamed with this prefix. */
  const PreDropTablePrefix: string := "pre_drop_"

  /** The `job_state` values the failed-only export selects. */
  const FailedState: string := "failed"
  const AbortedState: string := "aborted"

  predicate IsFailedOrAborted(state: string) {
    state == FailedState || state == AbortedState
  }

  /** One row of a jobs table. `payloadSize` is the stored size of
      `event_payload` (`pg_column_size`), which is all the export looks at. */
  datatype Job = Job(
    jobId: int,
    workspaceId: string,
    customVal: string,
    payloadSize: nat,
    createdAt: int)

  /** One row of a job-status table; `id` is the table's serial key. */
  datatype JobStatus = JobStatus(
    id: int,
    jobId: int,
    jobState: string,
    attempt: int,
    execTime: int)

  /** The pair of tables forming one partition of the queue. */
  datatype DataSet = DataSet(jobTable: string, jobStatusTable: string, index: string)

  /** Name prefixes of the renamed tables of queue `tablePrefix`; the dataset
      index follows the prefix. */
  function PreDropJobsPrefix(tablePrefix: string): string {
    PreDropTablePrefix + tablePrefix + "_jobs_"
  }

  function PreDropStatusPrefix(tablePrefix: string): string {
    PreDropTablePrefix + tablePrefix + "_job_status_"
  }

  /** The renamed dataset with index `dnum` of queue `tablePrefix`. */
  function PreDropDataSet(tablePrefix: string, dnum: string): DataSet {
    DataSet(PreDropJobsPrefix(tablePrefix) + dnum, PreDropStatusPrefix(tablePrefix) + dnum, dnum)
  }

  /** Job-id and creation-time bounds of a dataset, times in milliseconds. */
  datatype DataSetRange = DataSetRange(
    minJobId: int,
    maxJobId: int,
    startTime: int,
    endTime: int,
    ds: DataSet)

  /** The zero value `dataSetRangeT{}`: the "no dataset to back up" answer. */
  const ZeroRange: DataSetRange := DataSetRange(0, 0, 0, 0, DataSet("", "", ""))
}

=== FILE: option.dfy ===
/** The optional value used across the model for "absent" results. */
module Optional {
  datatype Option<T> = None | Some(value: T)
}

=== FILE: schema_change.dfy ===
/** HandleSchemaChange: what value a warehouse loader writes into a column
    whose type in the warehouse (`existing`) differs from the type the new
    event carries (`current`). The implementation is not part of this model;
    the rules are the ones the test table of warehouse/schema_test.go pins
    down, stated for every value of each kind. */
module SchemaChange {
  import opened Optional
  import Decimal

  /** The column types the conversion distinguishes. */
  const BooleanType: string := "boolean"
  const IntType: string := "int"
  const FloatType: string := "float"
  const StringType: string := "string"
  const DateTimeType: string := "datetime"
  const JsonType: string := "json"

  /** A float as the conversion observes it: its `%v` text and `int(f)`,
      the value truncated toward zero. */
  datatype Float = Float(text: string, truncated: int)

  /** The dynamic kinds of an event value. */
  datatype Value =
    | BoolVal(b: bool)
    | IntVal(i: int)
    | FloatVal(f: Float)
    | StringVal(s: string)
    | ArrayVal(items: seq<Value>)

  datatype ConversionError = SchemaConversionNotSupported | IncompatibleSchemaConversion

  /** The `(any, error)` pair: a nil value is `None`. */
  datatype Conversion = Conversion(newValue: Option<Value>, err: Option<ConversionError>)

  /** `float64(i)`: its text is the integer's digits. */
  function IntAsFloat(i: int): (f: Float)
    ensures f.truncated == i
  {
    Float(Decimal.IntToString(i), i)
  }

  function JoinSpaced(parts: seq<string>): string {
    if |parts| == 0 then ""
    else if |parts| == 1 then parts[0]
    else parts[0] + " " + JoinSpaced(parts[1..])
  }

  /** `fmt.Sprintf("%v", value)`: an array prints as its items' texts,
      space-separated inside brackets. */
  function ToText(v: Value): string
    decreases v
  {
    match v
    case BoolVal(b) => if b then "true" else "false"
    case IntVal(i) => Decimal.IntToString(i)
    case FloatVal(f) => f.text
    case StringVal(s) => s
    case ArrayVal(items) =>
      "[" + JoinSpaced(seq(|items|, k requires 0 <= k < |items| => ToText(items[k]))) + "]"
  }

  /** `fmt.Sprintf("\"%v\"", value)`. */
  function Quoted(v: Value): (s: string)
    ensures |s| == |ToText(v)| + 2 && s[0] == '"' && s[|s| - 1] == '"'
    ensures s[1..|s| - 1] == ToText(v)
  {
    "\"" + ToText(v) + "\""
  }

  function Ok(v: Value): Conversion {
    Conversion(Some(v), None)
  }

  function Fail(e: ConversionError): Conversion {
    Conversion(None, Some(e))
  }

  /** A conversion exists from a `string` or `json` column to every type,
      between `int` and `float` in both directions, and nowhere else. */
  predicate ConversionSupported(existing: string, current: string) {
    || existing == StringType
    || existing == JsonType
    || (existing == IntType && current == FloatType)
    || (existing == FloatType && current == IntType)
  }

  function HandleSchemaChange(existing: string, current: string, value: Value): (r: Conversion)
    ensures r.newValue.None? <==> r.err.Some?
    ensures r.err == Some(SchemaConversionNotSupported) <==> !ConversionSupported(existing, current)
    ensures r.err == Some(IncompatibleSchemaConversion) <==>
      || (existing == IntType && current == FloatType && !value.FloatVal?)
      || (existing == FloatType && current == IntType && !value.IntVal?)
    ensures r.newValue.Some? && existing != FloatType ==> !r.newValue.value.FloatVal?
  {
    if existing == StringType then Ok(StringVal(ToText(value)))
    else if existing == IntType && current == FloatType then
      match value
      case FloatVal(f) => Ok(IntVal(f.truncated))
      case _ => Fail(IncompatibleSchemaConversion)
    else if existing == FloatType && current == IntType then
      match value
      case IntVal(i) => Ok(FloatVal(IntAsFloat(i)))
      case _ => Fail(IncompatibleSchemaConversion)
    else if existing == JsonType then
      if current == IntType || current == FloatType || current == BooleanType then Ok(StringVal(ToText(value)))
      else if value.ArrayVal? then Ok(value)
      else Ok(StringVal(Quoted(value)))
    else Fail(SchemaConversionNotSupported)
  }

  // ---------------------------------------------------------------------
  // The rules, one group of test rows at a time

  /** From a `boolean` or `datetime` column nothing converts, and from an
      `int` or `float` column nothing but the other numeric type does. */
  lemma UnsupportedConversions(existing: string, current: string, value: Value)
    requires existing in {BooleanType, DateTimeType}
      || (existing == IntType && current != FloatType)
      || (existing == FloatType && current != IntType)
    ensures HandleSchemaChange(existing, current, value) == Conversion(None, Some(SchemaConversionNotSupported))
  {
  }

  /** Numeric cross-conversion depends on the value's own kind, not on the
      declared types: `int` from `float` needs a float value and truncates
      it; `float` from `int` needs an int value. */
  lemma NumericCrossConversion(value: Value)
    ensures HandleSchemaChange(IntType, FloatType, value) ==
      if value.FloatVal? then Conversion(Some(IntVal(value.f.truncated)), None)
      else Conversion(None, Some(IncompatibleSchemaConversion))
    ensures HandleSchemaChange(FloatType, IntType, value) ==
      if value.IntVal? then Conversion(Some(FloatVal(Float(Decimal.IntToString(value.i), value.i))), None)
      else Conversion(None, Some(IncompatibleSchemaConversion))
  {
  }

  /** A `string` column takes every value as its text, so a string value is
      written unchanged. */
  lemma StringColumnTakesText(current: string, value: Value)
    ensures HandleSchemaChange(StringType, current, value).err.None?
    ensures HandleSchemaChange(StringType, current, value).newValue == Some(StringVal(ToText(value)))
    ensures value.StringVal? ==> HandleSchemaChange(StringType, current, value).newValue == Some(value)
  {
  }

  /** A `json` column: scalars announced as numbers or booleans become bare
      text, arrays pass through, anything else becomes a quoted string. */
  lemma JsonColumnEncodes(current: string, value: Value)
    ensures HandleSchemaChange(JsonType, current, value).err.None?
    ensures current in {IntType, FloatType, BooleanType} ==>
      HandleSchemaChange(JsonType, current, value).newValue == Some(StringVal(ToText(value)))
    ensures current !in {IntType, FloatType, BooleanType} && value.ArrayVal? ==>
      HandleSchemaChange(JsonType, current, value).newValue == Some(value)
    ensures current !in {IntType, FloatType, BooleanType} && !value.ArrayVal? ==>
      HandleSchemaChange(JsonType, current, value).newValue == Some(StringVal(Quoted(value)))
  {
  }

  // ---------------------------------------------------------------------
  // The test table

  const OnePointFiveOOne: Value := FloatVal(Float("1.501", 1))
  const InstantText: string := "2022-05-05T00:00:00.000Z"
  const Instant: Value := StringVal(InstantText)
  const JsonText: Value := StringVal("{\"json\":true}")
  const Words: Value := StringVal("string value")

  /** The rows of TestHandleSchemaChange that convert into a numeric or
      `string` column. */
  lemma HandleSchemaChangeConversionRows()
    ensures HandleSchemaChange("int", "float", OnePointFiveOOne) == Ok(IntVal(1))
    ensures HandleSchemaChange("float", "int", IntVal(1)) == Ok(FloatVal(IntAsFloat(1)))
    ensures HandleSchemaChange("string", "boolean", BoolVal(false)) == Ok(StringVal("false"))
    ensures HandleSchemaChange("string", "int", IntVal(1)) == Ok(StringVal("1"))
    ensures HandleSchemaChange("string", "float", OnePointFiveOOne) == Ok(StringVal("1.501"))
    ensures HandleSchemaChange("string", "datetime", Instant) == Ok(Instant)
    ensures HandleSchemaChange("string", "json", JsonText) == Ok(JsonText)
  {
    assert Decimal.IntToString(1) == "1";
  }

  /** The rows of TestHandleSchemaChange that convert into a `json` column
      from a number, a boolean or an array. */
  lemma HandleSchemaChangeJsonRows()
    ensures HandleSchemaChange("json", "boolean", BoolVal(false)) == Ok(StringVal("false"))
    ensures HandleSchemaChange("json", "int", IntVal(1)) == Ok(StringVal("1"))
    ensures HandleSchemaChange("json", "float", OnePointFiveOOne) == Ok(StringVal("1.501"))
    ensures HandleSchemaChange("json", "array", ArrayVal([BoolVal(false), IntVal(1), Words]))
      == Ok(ArrayVal([BoolVal(false), IntVal(1), Words]))
  {
    assert Decimal.IntToString(1) == "1";
  }

  /** The row of TestHandleSchemaChange that quotes a `datetime` value for
      a `json` column. */
  lemma HandleSchemaChangeQuotedDateRow()
    ensures HandleSchemaChange("json", "datetime", Instant) == Ok(StringVal("\"" + InstantText + "\""))
  {
  }

  /** The row of TestHandleSchemaChange that quotes a `string` value for a
      `json` column. */
  lemma HandleSchemaChangeQuotedStringRow()
    ensures HandleSchemaChange("json", "string", Words) == Ok(StringVal("\"string value\""))
  {
    assert Quoted(Words) == "\"string value\"";
  }

  /** The rows of TestHandleSchemaChange that fail. */
  lemma HandleSchemaChangeErrorRows()
    ensures HandleSchemaChange("boolean", "int", IntVal(1)) == Fail(SchemaConversionNotSupported)
    ensures HandleSchemaChange("boolean", "float", OnePointFiveOOne) == Fail(SchemaConversionNotSupported)
    ensures HandleSchemaChange("boolean", "string", Words) == Fail(SchemaConversionNotSupported)
    ensures HandleSchemaChange("boolean", "datetime", Instant) == Fail(SchemaConversionNotSupported)
    ensures HandleSchemaChange("boolean", "json", JsonText) == Fail(SchemaConversionNotSupported)
    ensures HandleSchemaChange("int", "boolean", BoolVal(false)) == Fail(SchemaConversionNotSupported)
    ensures HandleSchemaChange("int", "string", Words) == Fail(SchemaConversionNotSupported)
    ensures HandleSchemaChange("int", "datetime", Instant) == Fail(SchemaConversionNotSupported)
    ensures HandleSchemaChange("int", "json", JsonText) == Fail(SchemaConversionNotSupported)
    ensures HandleSchemaChange("int", "float", IntVal(1)) == Fail(IncompatibleSchemaConversion)
    ensures HandleSchemaChange("float", "boolean", BoolVal(false)) == Fail(SchemaConversionNotSupported)
    ensures HandleSchemaChange("float", "int", FloatVal(Float("1", 1))) == Fail(IncompatibleSchemaConversion)
    ensures HandleSchemaChange("float", "string", Words) == Fail(SchemaConversionNotSupported)
    ensures HandleSchemaChange("float", "datetime", Instant) == Fail(SchemaConversionNotSupported)
    ensures HandleSchemaChange("float", "json", JsonText) == Fail(SchemaConversionNotSupported)
    ensures HandleSchemaChange("datetime", "boolean", BoolVal(false)) == Fail(SchemaConversionNotSupported)
    ensures HandleSchemaChange("datetime", "string", Words) == Fail(SchemaConversionNotSupported)
    ensures HandleSchemaChange("datetime", "int", IntVal(1)) == Fail(SchemaConversionNotSupported)
    ensures HandleSchemaChange("datetime", "float", OnePointFiveOOne) == Fail(SchemaConversionNotSupported)
    ensures HandleSchemaChange("datetime", "json", JsonText) == Fail(SchemaConversionNotSupported)
  {
  }
}

=== FILE: schema_diff.dfy ===
/** Comparing a table's schema in the warehouse with the schema an upload
    needs (getTableSchemaDiff), merging the two before a load
    (mergeUploadAndLocalSchemas), and deciding whether the locally cached
    schema is stale (hasSchemaChanged). */
module SchemaDiff {
  import opened Schemas

  /** What has to change in the warehouse for one table. Go keeps the
      columns to alter in a slice in map-iteration order; here they are a set. */
  datatype TableSchemaDiff = TableSchemaDiff(
    diffExists: bool,
    tableToBeCreated: bool,
    columnMap: TableSchema,
    updatedSchema: TableSchema,
    stringColumnsToBeAlteredToText: set<string>)

  /** A column's type after the diff is applied: unchanged, or widened from
      `string` to `text`. */
  predicate KeepsOrWidens(before: string, after: string) {
    after == before || (before == StringType && after == TextType)
  }

  function GetTableSchemaDiff(t: string, current: Schema, upload: Schema): (d: TableSchemaDiff)
    ensures d.tableToBeCreated <==> t !in current && t in upload
    ensures d.tableToBeCreated ==> d.columnMap == d.updatedSchema == upload[t]
    ensures t !in current && t !in upload ==> d == TableSchemaDiff(false, false, map[], map[], {})
    ensures t in current ==> d == ExistingTableDiff(current[t], TableOf(upload, t))
    ensures d.diffExists <==> d.tableToBeCreated || (t in current && d.updatedSchema != current[t])
  {
    if t !in current then
      if t !in upload then TableSchemaDiff(false, false, map[], map[], {})
      else TableSchemaDiff(true, true, upload[t], upload[t], {})
    else ExistingTableDiff(current[t], TableOf(upload, t))
  }

  /** The diff for a table the warehouse already has: new columns are added
      with the upload's type, a `string` column the upload wants as `text` is
      widened, every other column keeps its warehouse type. */
  function ExistingTableDiff(cur: TableSchema, up: TableSchema): (d: TableSchemaDiff)
    ensures !d.tableToBeCreated
    ensures forall c :: c in d.columnMap <==> c in up && c !in cur
    ensures forall c :: c in d.columnMap ==> d.columnMap[c] == up[c]
    ensures forall c :: c in d.stringColumnsToBeAlteredToText <==>
      c in cur && c in up && cur[c] == StringType && up[c] == TextType
    ensures d.updatedSchema.Keys == cur.Keys + d.columnMap.Keys
    ensures forall c :: c in d.columnMap ==> d.updatedSchema[c] == d.columnMap[c]
    ensures forall c :: c in cur ==> KeepsOrWidens(cur[c], d.updatedSchema[c])
    ensures forall c :: c in cur && c !in d.stringColumnsToBeAlteredToText ==> d.updatedSchema[c] == cur[c]
    ensures d.diffExists <==> d.updatedSchema != cur
  {
    var added := AddedColumns(cur, up);
    var toText := AlteredToText(cur, up);
    var updated := UpdatedTable(cur, added, toText);
    ChangedIffAddedOrAltered(cur, added, toText, updated);
    TableSchemaDiff(added != map[] || toText != {}, false, added, updated, toText)
  }

  /** The upload's columns the warehouse table lacks. */
  function AddedColumns(cur: TableSchema, up: TableSchema): (added: TableSchema)
    ensures added.Keys !! cur.Keys
    ensures forall c :: c in added <==> c in up && c !in cur
    ensures forall c :: c in added ==> added[c] == up[c]
  {
    map c | c in up && c !in cur :: up[c]
  }

  /** The warehouse's `string` columns the upload sends as `text`. */
  function AlteredToText(cur: TableSchema, up: TableSchema): (toText: set<string>)
    ensures toText <= cur.Keys
    ensures forall c :: c in toText <==> c in cur && c in up && cur[c] == StringType && up[c] == TextType
  {
    set c | c in up && c in cur && up[c] == TextType && cur[c] == StringType
  }

  /** The warehouse table with `added` columns and `toText` columns widened. */
  function UpdatedTable(cur: TableSchema, added: TableSchema, toText: set<string>): (updated: TableSchema)
    requires added.Keys !! cur.Keys && toText <= cur.Keys
    ensures updated.Keys == cur.Keys + added.Keys
    ensures forall c :: c in updated ==>
      updated[c] == (if c in added then added[c] else if c in toText then TextType else cur[c])
  {
    map c | c in cur.Keys + added.Keys ::
      if c in added then added[c] else if c in toText then TextType else cur[c]
  }

  lemma ChangedIffAddedOrAltered(cur: TableSchema, added: TableSchema, toText: set<string>, updated: TableSchema)
    requires added.Keys !! cur.Keys && toText <= cur.Keys
    requires forall c :: c in toText ==> cur[c] == StringType
    requires updated.Keys == cur.Keys + added.Keys
    requires forall c :: c in updated ==>
      updated[c] == (if c in added then added[c] else if c in toText then TextType else cur[c])
    ensures updated != cur <==> added != map[] || toText != {}
  {
    if added != map[] {
      var c :| c in added;
      assert c in updated && c !in cur;
    }
    if toText != {} {
      var c :| c in toText;
      assert updated[c] != cur[c];
    }
    if added == map[] && toText == {} {
      assert updated == cur;
    }
  }

  /** The updated schema is the final one: diffing the upload again against
      a warehouse that holds it finds nothing to change. */
  lemma DiffIsIdempotent(t: string, current: Schema, upload: Schema)
    ensures var d := GetTableSchemaDiff(t, current, upload);
      !GetTableSchemaDiff(t, current[t := d.updatedSchema], upload).diffExists
  {
    var d := GetTableSchemaDiff(t, current, upload);
    var again := GetTableSchemaDiff(t, current[t := d.updatedSchema], upload);
    assert again.columnMap == map[];
    assert again.stringColumnsToBeAlteredToText == {};
    assert again.updatedSchema == d.updatedSchema;
  }

  // ---------------------------------------------------------------------
  // Merging the upload's schema with the warehouse's

  /** The upload's tables, each with the union of both schemas' columns; the
      warehouse's type wins for a column both have. */
  function MergeUploadAndLocalSchemas(upload: Schema, preUpload: Schema): (merged: Schema)
    ensures merged.Keys == upload.Keys
    ensures forall t :: t in merged && t !in preUpload ==> merged[t] == upload[t]
    ensures forall t :: t in merged && t in preUpload ==>
      && merged[t].Keys == upload[t].Keys + preUpload[t].Keys
      && (forall c :: c in preUpload[t] ==> merged[t][c] == preUpload[t][c])
      && (forall c :: c in upload[t] && c !in preUpload[t] ==> merged[t][c] == upload[t][c])
  {
    map t | t in upload ::
      if t in preUpload then
        map c | c in upload[t].Keys + preUpload[t].Keys ::
          if c in preUpload[t] then preUpload[t][c] else upload[t][c]
      else upload[t]
  }

  /** Merging again changes nothing, and the merged schema has every column
      the upload needs, so diffing the upload against it adds no column. */
  lemma MergedSchemaCoversUpload(upload: Schema, preUpload: Schema, t: string)
    ensures var merged := MergeUploadAndLocalSchemas(upload, preUpload);
      && MergeUploadAndLocalSchemas(merged, preUpload) == merged
      && GetTableSchemaDiff(t, merged, upload).columnMap == map[]
      && !GetTableSchemaDiff(t, merged, upload).tableToBeCreated
  {
    var merged := MergeUploadAndLocalSchemas(upload, preUpload);
    var again := MergeUploadAndLocalSchemas(merged, preUpload);
    forall u | u in merged ensures again[u] == merged[u] { }
    assert again == merged;
  }

  // ---------------------------------------------------------------------
  // Has the cached schema gone stale?

  /** Some table of `local` is missing from `wh`, or has a column that is
      missing from `wh`'s table or typed differently there. */
  predicate LocalColumnsDiffer(local: Schema, wh: Schema) {
    exists t :: t in local && (t !in wh || exists c :: c in local[t] && (c !in wh[t] || wh[t][c] != local[t][c]))
  }

  /** With deep comparison the schemas must be equal; when deep comparison is
      skipped only the local tables and columns are looked up. */
  function HasSchemaChanged(local: Schema, wh: Schema, skipDeepEqual: bool): (changed: bool)
    ensures !skipDeepEqual ==> (changed <==> local != wh)
    ensures skipDeepEqual ==> (changed <==> LocalColumnsDiffer(local, wh))
  {
    if !skipDeepEqual then local != wh else LocalColumnsDiffer(local, wh)
  }

  /** The skipping check is weaker than deep comparison: it never reports a
      change deep comparison would not, and it misses tables the warehouse
      has beyond the local ones. */
  lemma SkippedCheckIsWeaker(local: Schema, wh: Schema, extra: Schema)
    requires local.Keys !! extra.Keys
    ensures HasSchemaChanged(local, wh, true) ==> HasSchemaChanged(local, wh, false)
    ensures !HasSchemaChanged(local, local + extra, true)
    ensures extra != map[] ==> HasSchemaChanged(local, local + extra, false)
  {
    if extra != map[] {
      var t :| t in extra;
      assert t !in local && t in local + extra;
    }
  }

  // ---------------------------------------------------------------------
  // The test tables

  const Table: string := "test-table"

  /** The rows of the table-schema-diff test. */
  lemma TableSchemaDiffRows()
    ensures GetTableSchemaDiff(Table, map[], map[]) == TableSchemaDiff(false, false, map[], map[], {})
    ensures GetTableSchemaDiff(Table, map[], map[Table := map["test-column" := "test-value"]])
      == TableSchemaDiff(true, true, map["test-column" := "test-value"], map["test-column" := "test-value"], {})
    ensures GetTableSchemaDiff(Table, map[Table := map["test-column" := "test-value-1"]],
                               map[Table := map["test-column" := "test-value-2"]])
      == TableSchemaDiff(false, false, map[], map["test-column" := "test-value-1"], {})
  {
    var d := GetTableSchemaDiff(Table, map[Table := map["test-column" := "test-value-1"]],
                                map[Table := map["test-column" := "test-value-2"]]);
    assert d.columnMap == map[];
    assert d.stringColumnsToBeAlteredToText == {};
  }

  /** The diff test row where the table exists and the upload adds a column. */
  lemma TableSchemaDiffAddRow()
    ensures GetTableSchemaDiff(Table, map[Table := map["test-column-1" := "test-value-1", "test-column-2" := "test-value-2"]],
                               map[Table := map["test-column" := "test-value-2"]])
      == TableSchemaDiff(true, false, map["test-column" := "test-value-2"],
           map["test-column-1" := "test-value-1", "test-column-2" := "test-value-2", "test-column" := "test-value-2"], {})
  {
    var d := GetTableSchemaDiff(Table, map[Table := map["test-column-1" := "test-value-1", "test-column-2" := "test-value-2"]],
                                map[Table := map["test-column" := "test-value-2"]]);
    assert d.columnMap == map["test-column" := "test-value-2"];
    assert d.stringColumnsToBeAlteredToText == {};
    assert "test-column" in d.updatedSchema && "test-column" !in map["test-column-1" := "test-value-1", "test-column-2" := "test-value-2"];
  }

  /** The diff test row where the upload widens a `string` column to `text`. */
  lemma TableSchemaDiffTextRow()
    ensures GetTableSchemaDiff(Table, map[Table := map["test-column" := "string", "test-column-2" := "test-value-2"]],
                               map[Table := map["test-column" := "text"]])
      == TableSchemaDiff(true, false, map[],
           map["test-column-2" := "test-value-2", "test-column" := "text"], {"test-column"})
  {
    var d := GetTableSchemaDiff(Table, map[Table := map["test-column" := "string", "test-column-2" := "test-value-2"]],
                                map[Table := map["test-column" := "text"]]);
    assert d.columnMap == map[];
    assert d.stringColumnsToBeAlteredToText == {"test-column"};
  }

  /** The merge-upload rows with empty schemas or a shared column. */
  lemma MergeUploadAndLocalRows()
    ensures MergeUploadAndLocalSchemas(map[], map[]) == map[]
    ensures MergeUploadAndLocalSchemas(map[], map[Table := map["test-column" := "test-value"]]) == map[]
    ensures MergeUploadAndLocalSchemas(map[Table := map["test-column" := "test-value-1"]],
                                       map[Table := map["test-column" := "test-value-2"]])
      == map[Table := map["test-column" := "test-value-2"]]
  {
    var m3 := MergeUploadAndLocalSchemas(map[Table := map["test-column" := "test-value-1"]],
                                         map[Table := map["test-column" := "test-value-2"]]);
    assert m3[Table] == map["test-column" := "test-value-2"];
  }

  /** The merge-upload row where the upload brings new columns. */
  lemma MergeUploadAndLocalNewColumnsRow()
    ensures MergeUploadAndLocalSchemas(map[Table := map["test-column-1" := "test-value-1", "test-column-2" := "test-value-2"]],
                                       map[Table := map["test-column" := "test-value-2"]])
      == map[Table := map["test-column" := "test-value-2", "test-column-1" := "test-value-1", "test-column-2" := "test-value-2"]]
  {
    var m := MergeUploadAndLocalSchemas(map[Table := map["test-column-1" := "test-value-1", "test-column-2" := "test-value-2"]],
                                        map[Table := map["test-column" := "test-value-2"]]);
    assert m[Table] == map["test-column" := "test-value-2", "test-column-1" := "test-value-1", "test-column-2" := "test-value-2"];
  }

  /** The merge-upload row where the warehouse already widened a column to
      `text`. */
  lemma MergeUploadAndLocalTextRow()
    ensures MergeUploadAndLocalSchemas(map[Table := map["test-column" := "string", "test-column-2" := "test-value-2"]],
                                       map[Table := map["test-column" := "text"]])
      == map[Table := map["test-column-2" := "test-value-2", "test-column" := "text"]]
  {
    var m := MergeUploadAndLocalSchemas(map[Table := map["test-column" := "string", "test-column-2" := "test-value-2"]],
                                        map[Table := map["test-column" := "text"]]);
    assert m[Table] == map["test-column-2" := "test-value-2", "test-column" := "text"];
  }

  /** The rows of the has-schema-changed test, in both modes. */
  lemma HasSchemaChangedRows()
    ensures !HasSchemaChanged(map[], map[], true)
    ensures !HasSchemaChanged(map[], map[Table := map["test-column" := "test-value"]], true)
    ensures HasSchemaChanged(map[Table := map["test-column" := "test-value-1"]],
                             map[Table := map["test-column" := "test-value-2"]], true)
    ensures HasSchemaChanged(map[Table := map["test-column-1" := "test-value-1", "test-column-2" := "test-value-2"]],
                             map[Table := map["test-column" := "test-value-2"]], true)
    ensures HasSchemaChanged(map[Table := map["test-column" := "string"]],
                             map["test-table-1" := map["test-column" := "text"]], true)
    ensures !HasSchemaChanged(map[], map[], false)
    ensures HasSchemaChanged(map[], map[Table := map["test-column" := "test-value"]], false)
  {
    assert Table in map[Table := map["test-column" := "test-value"]];
    var local3: Schema := map[Table := map["test-column" := "test-value-1"]];
    var wh3: Schema := map[Table := map["test-column" := "test-value-2"]];
    assert "test-column" in local3[Table] && wh3[Table]["test-column"] != local3[Table]["test-column"];
    var local4: Schema := map[Table := map["test-column-1" := "test-value-1", "test-column-2" := "test-value-2"]];
    var wh4: Schema := map[Table := map["test-column" := "test-value-2"]];
    assert "test-column-1" in local4[Table] && "test-column-1" !in wh4[Table];
    var local5: Schema := map[Table := map["test-column" := "string"]];
    assert Table in local5 && Table !in map["test-table-1" := map["test-column" := "text"]];
  }
}

=== FILE: schema_merge.dfy ===
/** mergeSchema: folds the schemas of an upload's staging files into one
    schema, preferring the type a column already has in the warehouse and,
    after that, the first type seen for it. */
module SchemaMerge {
  import opened Optional
  import opened Schemas

  /** The type one incoming column gets. A type in the warehouse wins,
      except that a warehouse `string` column the incoming schema calls
      `text` becomes `text`; a column already merged keeps its type;
      otherwise the incoming type is taken. */
  function ColumnType(dbType: Option<string>, mergedType: Option<string>, incoming: string): string {
    match dbType
    case Some(db) => if db == StringType && incoming == TextType then TextType else db
    case None => if mergedType.Some? then mergedType.value else incoming
  }

  /** Merges one incoming table into the merged table of the same name. */
  function MergeTable(dbTable: TableSchema, mergedTable: TableSchema, incoming: TableSchema): (r: TableSchema)
    ensures r.Keys == mergedTable.Keys + incoming.Keys
    ensures forall c :: c in mergedTable && c !in incoming ==> r[c] == mergedTable[c]
    ensures forall c :: c in incoming && c !in dbTable && c in mergedTable ==> r[c] == mergedTable[c]
    ensures forall c :: c in incoming && c !in dbTable && c !in mergedTable ==> r[c] == incoming[c]
  {
    mergedTable + map c | c in incoming ::
      ColumnType(if c in dbTable then Some(dbTable[c]) else None,
                 if c in mergedTable then Some(mergedTable[c]) else None,
                 incoming[c])
  }

  /** Merges one incoming schema: every table it names is present afterwards,
      even with no columns. */
  function MergeOne(current: Schema, merged: Schema, incoming: Schema): (r: Schema)
    ensures r.Keys == merged.Keys + incoming.Keys
    ensures forall t :: t in merged && t !in incoming ==> r[t] == merged[t]
  {
    merged + map t | t in incoming :: MergeTable(TableOf(current, t), TableOf(merged, t), incoming[t])
  }

  /** Folds `schemaList` in order into `merged`. */
  function MergeSchema(current: Schema, schemaList: seq<Schema>, merged: Schema): (r: Schema)
    ensures merged.Keys <= r.Keys
    ensures forall k :: 0 <= k < |schemaList| ==> schemaList[k].Keys <= r.Keys
    ensures forall t :: t in r ==> t in merged || exists k :: 0 <= k < |schemaList| && t in schemaList[k]
    decreases |schemaList|
  {
    if |schemaList| == 0 then merged
    else
      var r := MergeSchema(current, schemaList[1..], MergeOne(current, merged, schemaList[0]));
      assert forall k :: 1 <= k < |schemaList| ==> schemaList[k] == schemaList[1..][k - 1];
      forall t | t in r && t !in merged
        ensures exists k :: 0 <= k < |schemaList| && t in schemaList[k]
      {
        if t in schemaList[0] {
        } else {
          var k :| 0 <= k < |schemaList[1..]| && t in schemaList[1..][k];
          assert t in schemaList[k + 1];
        }
      }
      r
  }

  /** The type of `c` in table `t` in the first schema of the list that has
      it. */
  function FirstIncoming(schemaList: seq<Schema>, t: string, c: string): (ty: Option<string>)
    ensures ty.Some? <==> exists k :: 0 <= k < |schemaList| && ColumnOf(schemaList[k], t, c).Some?
    decreases |schemaList|
  {
    if |schemaList| == 0 then None
    else if ColumnOf(schemaList[0], t, c).Some? then ColumnOf(schemaList[0], t, c)
    else
      var rest := FirstIncoming(schemaList[1..], t, c);
      assert forall k :: 1 <= k < |schemaList| ==> schemaList[k] == schemaList[1..][k - 1];
      rest
  }

  /** One column after merging one incoming schema: the type ColumnType
      gives when the incoming schema has the column, the merged one
      otherwise. */
  lemma MergeOneColumn(current: Schema, merged: Schema, incoming: Schema, t: string, c: string)
    ensures var r := ColumnOf(MergeOne(current, merged, incoming), t, c);
      if ColumnOf(incoming, t, c).Some? then
        r == Some(ColumnType(ColumnOf(current, t, c), ColumnOf(merged, t, c), incoming[t][c]))
      else r == ColumnOf(merged, t, c)
  {
    if t in incoming {
      MergeTableColumn(TableOf(current, t), TableOf(merged, t), incoming[t], c);
    }
  }

  /** One column of a merged table, read the way MergeOneColumn reads it. */
  lemma MergeTableColumn(dbTable: TableSchema, mergedTable: TableSchema, incoming: TableSchema, c: string)
    ensures var r := MergeTable(dbTable, mergedTable, incoming);
      if c in incoming then
        c in r && r[c] == ColumnType(if c in dbTable then Some(dbTable[c]) else None,
                                     if c in mergedTable then Some(mergedTable[c]) else None, incoming[c])
      else (c in r <==> c in mergedTable) && (c in mergedTable ==> r[c] == mergedTable[c])
  {
  }

  /** A column the warehouse does not have keeps the type it was first
      given: the one already merged, otherwise the first incoming one. In
      particular a `text` already merged wins over an incoming `string`. */
  lemma {:induction false} FirstTypeWins(current: Schema, schemaList: seq<Schema>, merged: Schema, t: string, c: string)
    requires ColumnOf(current, t, c).None?
    ensures ColumnOf(MergeSchema(current, schemaList, merged), t, c) ==
      if ColumnOf(merged, t, c).Some? then ColumnOf(merged, t, c) else FirstIncoming(schemaList, t, c)
    decreases |schemaList|
  {
    if |schemaList| > 0 {
      MergeOneColumn(current, merged, schemaList[0], t, c);
      FirstTypeWins(current, schemaList[1..], MergeOne(current, merged, schemaList[0]), t, c);
    }
  }

  /** The type a column has in the warehouse, or `text` widening a
      warehouse `string`. */
  predicate WarehouseCompatible(dbType: string, ty: Option<string>) {
    ty == Some(dbType) || (dbType == StringType && ty == Some(TextType))
  }

  /** A column the warehouse has ends up with the warehouse's type (or the
      widening to `text`) as soon as any incoming schema mentions it, and
      keeps it through the rest of the fold. */
  lemma {:induction false} WarehouseTypeWins(current: Schema, schemaList: seq<Schema>, merged: Schema, t: string, c: string)
    requires ColumnOf(current, t, c).Some?
    requires FirstIncoming(schemaList, t, c).Some? || WarehouseCompatible(current[t][c], ColumnOf(merged, t, c))
    ensures WarehouseCompatible(current[t][c], ColumnOf(MergeSchema(current, schemaList, merged), t, c))
    decreases |schemaList|
  {
    if |schemaList| > 0 {
      var next := MergeOne(current, merged, schemaList[0]);
      MergeOneColumn(current, merged, schemaList[0], t, c);
      WarehouseTypeWins(current, schemaList[1..], next, t, c);
    }
  }

  lemma MergeTableIdempotent(dbTable: TableSchema, mergedTable: TableSchema, incoming: TableSchema)
    ensures var once := MergeTable(dbTable, mergedTable, incoming);
      MergeTable(dbTable, once, incoming) == once
  {
    var once := MergeTable(dbTable, mergedTable, incoming);
    var twice := MergeTable(dbTable, once, incoming);
    forall c | c in twice ensures twice[c] == once[c] { }
  }

  /** Merging the same schema a second time changes nothing. */
  lemma MergeOneIdempotent(current: Schema, merged: Schema, incoming: Schema)
    ensures var once := MergeOne(current, merged, incoming);
      MergeOne(current, once, incoming) == once
  {
    var once := MergeOne(current, merged, incoming);
    var twice := MergeOne(current, once, incoming);
    forall t | t in twice ensures twice[t] == once[t] {
      if t in incoming {
        MergeTableIdempotent(TableOf(current, t), TableOf(merged, t), incoming[t]);
      }
    }
  }

  // ---------------------------------------------------------------------
  // The test table

  const Table: string := "test-table"
  const Users: string := "users"
  const Identifies: string := "identifies"

  /** The rows of the merge-schema test that start from an empty
      warehouse and an empty merged schema. */
  lemma MergeSchemaRows()
    ensures MergeSchema(map[], [], map[]) == map[]
    ensures MergeSchema(map[], [map[Table := map["test-column" := "test-value"]]], map[])
      == map[Table := map["test-column" := "test-value"]]
  {
    var s2 := [map[Table := map["test-column" := "test-value"]]];
    var m2 := MergeOne(map[], map[], s2[0]);
    assert MergeSchema(map[], s2, map[]) == m2;
    assert m2[Table] == map["test-column" := "test-value"];
  }

  /** The merge-schema row that brings `users` and `identifies` into an
      empty schema. */
  lemma MergeSchemaTwoTablesRow()
    ensures MergeSchema(map[], [map[Users := map["test-column" := "test-value"], Identifies := map["test-column" := "test-value"]]], map[])
      == map[Users := map["test-column" := "test-value"], Identifies := map["test-column" := "test-value"]]
  {
    var s3 := [map[Users := map["test-column" := "test-value"], Identifies := map["test-column" := "test-value"]]];
    var m3 := MergeOne(map[], map[], s3[0]);
    assert MergeSchema(map[], s3, map[]) == m3;
    assert m3[Users] == map["test-column" := "test-value"];
    assert m3[Identifies] == map["test-column" := "test-value"];
  }

  /** The merge-schema row whose warehouse already has the tables. */
  lemma MergeSchemaWarehouseRow()
    ensures MergeSchema(map[Users := map["test-column" := "test-value"], Identifies := map["test-column" := "test-value"]],
                        [map[Users := map["test-column" := "test-value"], Identifies := map["test-column" := "test-value"]]], map[])
      == map[Users := map["test-column" := "test-value"], Identifies := map["test-column" := "test-value"]]
  {
    var cur: Schema := map[Users := map["test-column" := "test-value"], Identifies := map["test-column" := "test-value"]];
    var m4 := MergeOne(cur, map[], cur);
    assert MergeSchema(cur, [cur], map[]) == m4;
    assert m4[Users] == map["test-column" := "test-value"];
    assert m4[Identifies] == map["test-column" := "test-value"];
  }

  /** The merge-schema row where `text` is already merged and `string`
      comes in. */
  lemma MergeSchemaTextRow()
    ensures MergeSchema(map[], [map[Table := map["test-column" := "string", "test-column-2" := "test-value-2"]]],
                        map[Table := map["test-column" := "text"]])
      == map[Table := map["test-column" := "text", "test-column-2" := "test-value-2"]]
  {
    TextMergedBeforeString(Table, "test-column", "test-column-2", "test-value-2");
  }

  /** A `text` column already merged stays `text` when a staging file calls
      it `string`, next to a new column that is taken as it comes. */
  lemma TextMergedBeforeString(t: string, c: string, c2: string, ty2: string)
    requires c != c2
    ensures MergeSchema(map[], [map[t := map[c := StringType, c2 := ty2]]], map[t := map[c := TextType]])
      == map[t := map[c := TextType, c2 := ty2]]
  {
    var incoming: TableSchema := map[c := StringType, c2 := ty2];
    MergeSingle(map[], map[t := incoming], map[t := map[c := TextType]]);
    MergeOneSameTable(t, map[c := TextType], incoming);
    MergeTableTextKept(c, c2, ty2);
  }

  /** Folding in a single schema is one merge step. */
  lemma MergeSingle(current: Schema, incoming: Schema, merged: Schema)
    ensures MergeSchema(current, [incoming], merged) == MergeOne(current, merged, incoming)
  {
    assert [incoming][1..] == [];
  }

  /** With no warehouse schema and one table on both sides, the merge step
      is the merge of that table. */
  lemma MergeOneSameTable(t: string, mergedTable: TableSchema, incoming: TableSchema)
    ensures MergeOne(map[], map[t := mergedTable], map[t := incoming]) == map[t := MergeTable(map[], mergedTable, incoming)]
  {
  }

  /** The table-level step of the text row: `text` stays, the new column
      comes in. */
  lemma MergeTableTextKept(c: string, c2: string, ty2: string)
    requires c != c2
    ensures MergeTable(map[], map[c := TextType], map[c := StringType, c2 := ty2]) == map[c := TextType, c2 := ty2]
  {
  }
}

=== FILE: schema_naming.dfy ===
/** Column naming per warehouse (safeName) and the fixed schemas of the
    helper tables the loader creates: merge rules, identity mappings and
    discarded values. */
module SchemaNaming {
  import opened Schemas

  const DateTimeType: string := "datetime"
  const Snowflake: string := "SNOWFLAKE"
  const BigQuery: string := "BQ"

  function UpperChar(ch: char): (u: char)
    ensures 'a' <= ch <= 'z' ==> u as int == ch as int - 32
    ensures !('a' <= ch <= 'z') ==> u == ch
  {
    if 'a' <= ch <= 'z' then (ch as int - 32) as char else ch
  }

  /** Upper-casing of ASCII letters. */
  function ToUpper(s: string): (u: string)
    ensures |u| == |s|
    ensures forall k :: 0 <= k < |s| ==> u[k] == UpperChar(s[k])
  {
    seq(|s|, k requires 0 <= k < |s| => UpperChar(s[k]))
  }

  lemma ToUpperIdempotent(s: string)
    ensures ToUpper(ToUpper(s)) == ToUpper(s)
  {
  }

  /** Snowflake folds identifiers to upper case; every other warehouse takes
      them as they are. */
  function SafeName(warehouseType: string, name: string): (safe: string)
    ensures |safe| == |name|
    ensures warehouseType != Snowflake ==> safe == name
    ensures warehouseType == Snowflake ==> forall k :: 0 <= k < |name| ==> safe[k] == UpperChar(name[k])
    ensures warehouseType == Snowflake ==> forall k :: 0 <= k < |name| ==> !('a' <= safe[k] <= 'z')
  {
    if warehouseType == Snowflake then ToUpper(name) else name
  }

  /** A safe name is safe already. */
  lemma SafeNameIdempotent(warehouseType: string, name: string)
    ensures SafeName(warehouseType, SafeName(warehouseType, name)) == SafeName(warehouseType, name)
  {
    if warehouseType == Snowflake {
      ToUpperIdempotent(name);
    }
  }

  /** Every key of a helper schema is already a safe name, so naming it
      again changes nothing. */
  predicate KeysAreSafe(warehouseType: string, schema: TableSchema) {
    forall name :: name in schema ==> SafeName(warehouseType, name) == name
  }

  function MergeRulesSchema(warehouseType: string): (schema: TableSchema)
    ensures forall name :: name in schema ==> schema[name] == StringType
    ensures KeysAreSafe(warehouseType, schema)
  {
    SafeNameIdempotent(warehouseType, "merge_property_1_type");
    SafeNameIdempotent(warehouseType, "merge_property_1_value");
    SafeNameIdempotent(warehouseType, "merge_property_2_type");
    SafeNameIdempotent(warehouseType, "merge_property_2_value");
    map[SafeName(warehouseType, "merge_property_1_type") := StringType,
        SafeName(warehouseType, "merge_property_1_value") := StringType,
        SafeName(warehouseType, "merge_property_2_type") := StringType,
        SafeName(warehouseType, "merge_property_2_value") := StringType]
  }

  function IdentitiesMappingsSchema(warehouseType: string): (schema: TableSchema)
    ensures SafeName(warehouseType, "updated_at") in schema && schema[SafeName(warehouseType, "updated_at")] == DateTimeType
    ensures forall name :: name in schema && name != SafeName(warehouseType, "updated_at") ==> schema[name] == StringType
    ensures KeysAreSafe(warehouseType, schema)
  {
    SafeNameIdempotent(warehouseType, "merge_property_type");
    SafeNameIdempotent(warehouseType, "merge_property_value");
    SafeNameIdempotent(warehouseType, "rudder_id");
    SafeNameIdempotent(warehouseType, "updated_at");
    map[SafeName(warehouseType, "merge_property_type") := StringType,
        SafeName(warehouseType, "merge_property_value") := StringType,
        SafeName(warehouseType, "rudder_id") := StringType,
        SafeName(warehouseType, "updated_at") := DateTimeType]
  }

  /** BigQuery's discards table also records when the row was loaded. */
  function DiscardsSchema(warehouseType: string): (schema: TableSchema)
    ensures KeysAreSafe(warehouseType, schema)
    ensures forall name :: name in schema ==> schema[name] in {StringType, DateTimeType}
    ensures warehouseType == BigQuery ==> "loaded_at" in schema && schema["loaded_at"] == DateTimeType
  {
    SafeNameIdempotent(warehouseType, "table_name");
    SafeNameIdempotent(warehouseType, "row_id");
    SafeNameIdempotent(warehouseType, "column_name");
    SafeNameIdempotent(warehouseType, "column_value");
    SafeNameIdempotent(warehouseType, "received_at");
    SafeNameIdempotent(warehouseType, "uuid_ts");
    var base := map[
      SafeName(warehouseType, "table_name") := StringType,
      SafeName(warehouseType, "row_id") := StringType,
      SafeName(warehouseType, "column_name") := StringType,
      SafeName(warehouseType, "column_value") := StringType,
      SafeName(warehouseType, "received_at") := DateTimeType,
      SafeName(warehouseType, "uuid_ts") := DateTimeType];
    if warehouseType == BigQuery then base[SafeName(warehouseType, "loaded_at") := DateTimeType] else base
  }

  /** `loaded_at` is a discards column on BigQuery and nowhere else. */
  lemma LoadedAtOnlyOnBigQuery(warehouseType: string)
    ensures SafeName(warehouseType, "loaded_at") in DiscardsSchema(warehouseType) <==> warehouseType == BigQuery
  {
  }

  /** The Snowflake helper schemas are the BigQuery ones with upper-cased
      keys: the warehouses differ only in naming, apart from BigQuery's
      extra `loaded_at`. */
  lemma MergeRulesSchemaUpperCased()
    ensures forall name :: name in MergeRulesSchema(BigQuery) ==>
      ToUpper(name) in MergeRulesSchema(Snowflake) && MergeRulesSchema(Snowflake)[ToUpper(name)] == MergeRulesSchema(BigQuery)[name]
  {
    forall name | name in MergeRulesSchema(BigQuery)
      ensures ToUpper(name) in MergeRulesSchema(Snowflake)
    {
      assert SafeName(Snowflake, name) == ToUpper(name);
    }
  }

  lemma IdentitiesMappingsSchemaUpperCased()
    ensures forall name :: name in IdentitiesMappingsSchema(BigQuery) ==>
      ToUpper(name) in IdentitiesMappingsSchema(Snowflake) && IdentitiesMappingsSchema(Snowflake)[ToUpper(name)] == IdentitiesMappingsSchema(BigQuery)[name]
  {
    forall name | name in IdentitiesMappingsSchema(BigQuery)
      ensures ToUpper(name) in IdentitiesMappingsSchema(Snowflake)
      ensures IdentitiesMappingsSchema(Snowflake)[ToUpper(name)] == IdentitiesMappingsSchema(BigQuery)[name]
    {
      assert SafeName(Snowflake, name) == ToUpper(name);
    }
  }

  lemma DiscardsSchemaUpperCased()
    ensures forall name :: name in DiscardsSchema(BigQuery) && name != "loaded_at" ==>
      ToUpper(name) in DiscardsSchema(Snowflake) && DiscardsSchema(Snowflake)[ToUpper(name)] == DiscardsSchema(BigQuery)[name]
  {
    UpperDiscardsColumnKeys();
    UpperDiscardsTimeKeys();
    forall name | name in DiscardsSchema(BigQuery) && name != "loaded_at"
      ensures ToUpper(name) in DiscardsSchema(Snowflake)
      ensures DiscardsSchema(Snowflake)[ToUpper(name)] == DiscardsSchema(BigQuery)[name]
    {
      assert SafeName(Snowflake, name) == ToUpper(name);
    }
  }

  // ---------------------------------------------------------------------
  // The test tables

  lemma SafeNameRows()
    ensures SafeName(BigQuery, "test-column") == "test-column"
    ensures SafeName(Snowflake, "test-column") == "TEST-COLUMN"
  {
  }

  // Upper-cased column names of the helper tables, each long name on its own.

  lemma UpperMergeProperty1Type()
    ensures ToUpper("merge_property_1_type") == "MERGE_PROPERTY_1_TYPE"
  {
  }

  lemma UpperMergeProperty1Value()
    ensures ToUpper("merge_property_1_value") == "MERGE_PROPERTY_1_VALUE"
  {
  }

  lemma UpperMergeProperty2Type()
    ensures ToUpper("merge_property_2_type") == "MERGE_PROPERTY_2_TYPE"
  {
  }

  lemma UpperMergeProperty2Value()
    ensures ToUpper("merge_property_2_value") == "MERGE_PROPERTY_2_VALUE"
  {
  }

  lemma UpperMergePropertyType()
    ensures ToUpper("merge_property_type") == "MERGE_PROPERTY_TYPE"
  {
  }

  lemma UpperMergePropertyValue()
    ensures ToUpper("merge_property_value") == "MERGE_PROPERTY_VALUE"
  {
  }

  lemma UpperIdentityIdKeys()
    ensures ToUpper("rudder_id") == "RUDDER_ID"
    ensures ToUpper("updated_at") == "UPDATED_AT"
  {
  }

  lemma UpperDiscardsRowKeys()
    ensures ToUpper("table_name") == "TABLE_NAME"
    ensures ToUpper("row_id") == "ROW_ID"
  {
  }

  lemma UpperDiscardsColumnKeys()
    ensures ToUpper("column_name") == "COLUMN_NAME"
    ensures ToUpper("column_value") == "COLUMN_VALUE"
  {
  }

  lemma UpperDiscardsTimeKeys()
    ensures ToUpper("received_at") == "RECEIVED_AT"
    ensures ToUpper("uuid_ts") == "UUID_TS"
  {
  }

  /** The BigQuery row of the merge-rules test. */
  lemma MergeRulesSchemaBigQueryRow()
    ensures MergeRulesSchema(BigQuery) == map["merge_property_1_type" := "string", "merge_property_1_value" := "string", "merge_property_2_type" := "string", "merge_property_2_value" := "string"]
  {
  }

  /** The Snowflake row of the merge-rules test. */
  lemma MergeRulesSchemaSnowflakeRow()
    ensures MergeRulesSchema(Snowflake) == map["MERGE_PROPERTY_1_TYPE" := "string", "MERGE_PROPERTY_1_VALUE" := "string", "MERGE_PROPERTY_2_TYPE" := "string", "MERGE_PROPERTY_2_VALUE" := "string"]
  {
    UpperMergeProperty1Type();
    UpperMergeProperty1Value();
    UpperMergeProperty2Type();
    UpperMergeProperty2Value();
  }

  /** The BigQuery row of the identities-mappings test. */
  lemma IdentitiesMappingsSchemaBigQueryRow()
    ensures IdentitiesMappingsSchema(BigQuery) == map["merge_property_type" := "string", "merge_property_value" := "string", "rudder_id" := "string", "updated_at" := "datetime"]
  {
  }

  /** The Snowflake row of the identities-mappings test. */
  lemma IdentitiesMappingsSchemaSnowflakeRow()
    ensures IdentitiesMappingsSchema(Snowflake) == map["MERGE_PROPERTY_TYPE" := "string", "MERGE_PROPERTY_VALUE" := "string", "RUDDER_ID" := "string", "UPDATED_AT" := "datetime"]
  {
    UpperMergePropertyType();
    UpperMergePropertyValue();
    UpperIdentityIdKeys();
  }

  /** The BigQuery row of the discards test. */
  lemma DiscardsSchemaBigQueryRow()
    ensures DiscardsSchema(BigQuery) == map["table_name" := "string", "row_id" := "string", "column_name" := "string", "column_value" := "string", "received_at" := "datetime", "uuid_ts" := "datetime", "loaded_at" := "datetime"]
  {
  }

  /** The Snowflake row of the discards test. */
  lemma DiscardsSchemaSnowflakeRow()
    ensures DiscardsSchema(Snowflake) == map["TABLE_NAME" := "string", "ROW_ID" := "string", "COLUMN_NAME" := "string", "COLUMN_VALUE" := "string", "RECEIVED_AT" := "datetime", "UUID_TS" := "datetime"]
  {
    UpperDiscardsRowKeys();
    UpperDiscardsColumnKeys();
    UpperDiscardsTimeKeys();
  }
}

=== FILE: schema_types.dfy ===
/** Warehouse schemas: table name to column name to column type. */
module Schemas {
  import opened Optional

  type TableSchema = map<string, string>
  type Schema = map<string, TableSchema>

  const StringType: string := "string"
  const TextType: string := "text"

  /** Reading a table that is absent yields Go's nil map, which reads as empty. */
  function TableOf(s: Schema, t: string): (table: TableSchema)
    ensures t in s ==> table == s[t]
    ensures t !in s ==> table == map[]
  {
    if t in s then s[t] else map[]
  }

  /** The type of column `c` of table `t`, if the schema has one. */
  function ColumnOf(s: Schema, t: string, c: string): (ty: Option<string>)
    ensures ty.Some? <==> t in s && c in s[t]
    ensures ty.Some? ==> ty.value == s[t][c]
  {
    if t in s && c in s[t] then Some(s[t][c]) else None
  }
}

=== FILE: status_compaction.dfy ===
/** Status-history compaction run before a dataset is exported: for every job
    only the two newest status rows survive (`cleanStatusTable`, a
    `DELETE ... WHERE rank > 2` over `RANK() OVER (PARTITION BY job_id ORDER
    BY id DESC)`). */
module StatusCompaction {
  import opened JobsDb

  /** `s` sorts strictly before `r` in the window of `r`'s job. */
  predicate Newer(s: JobStatus, r: JobStatus) {
    s.jobId == r.jobId && s.id > r.id
  }

  function CountNewer(table: seq<JobStatus>, r: JobStatus): nat
    decreases |table|
  {
    if |table| == 0 then 0
    else (if Newer(table[0], r) then 1 else 0) + CountNewer(table[1..], r)
  }

  /** `RANK()` of `r`: one more than the rows of its job with a strictly
      greater id, so rows sharing an id share a rank. */
  function Rank(table: seq<JobStatus>, r: JobStatus): nat {
    1 + CountNewer(table, r)
  }

  /** The rows of `rows`, in order, whose rank within `table` is at most `k`. */
  function RankedAtMost(rows: seq<JobStatus>, table: seq<JobStatus>, k: nat): (kept: seq<JobStatus>)
    ensures |kept| <= |rows|
    decreases |rows|
  {
    if |rows| == 0 then []
    else (if Rank(table, rows[0]) <= k then [rows[0]] else []) + RankedAtMost(rows[1..], table, k)
  }

  /** The status table after `cleanStatusTable`. */
  function CleanStatusTable(table: seq<JobStatus>): (kept: seq<JobStatus>)
    ensures |kept| <= |table|
    ensures forall x :: x in kept <==> x in table && Rank(table, x) <= 2
  {
    var kept := RankedAtMost(table, table, 2);
    forall x ensures x in kept <==> x in table && Rank(table, x) <= 2 {
      RankedAtMostMember(table, table, 2, x);
    }
    kept
  }

  lemma {:induction false} RankedAtMostMember(rows: seq<JobStatus>, table: seq<JobStatus>, k: nat, x: JobStatus)
    ensures x in RankedAtMost(rows, table, k) <==> x in rows && Rank(table, x) <= k
    decreases |rows|
  {
    if |rows| > 0 {
      RankedAtMostMember(rows[1..], table, k, x);
      assert x in rows <==> x == rows[0] || x in rows[1..];
    }
  }

  /** The rows of one job, in table order. */
  function JobRows(table: seq<JobStatus>, jobId: int): (rows: seq<JobStatus>)
    ensures |rows| <= |table|
    ensures forall i :: 0 <= i < |rows| ==> rows[i].jobId == jobId
    decreases |table|
  {
    if |table| == 0 then []
    else (if table[0].jobId == jobId then [table[0]] else []) + JobRows(table[1..], jobId)
  }

  lemma {:induction false} JobRowsMember(table: seq<JobStatus>, jobId: int, x: JobStatus)
    ensures x in JobRows(table, jobId) <==> x in table && x.jobId == jobId
    decreases |table|
  {
    if |table| > 0 {
      JobRowsMember(table[1..], jobId, x);
      assert x in table <==> x == table[0] || x in table[1..];
    }
  }

  /** Status ids are the serial key of the table. */
  predicate DistinctIds(table: seq<JobStatus>) {
    forall i, j :: 0 <= i < j < |table| ==> table[i].id != table[j].id
  }

  function Min(a: int, b: int): int {
    if a <= b then a else b
  }

  // ---------------------------------------------------------------------
  // Counting over concatenations

  lemma {:induction false} CountNewerAppend(a: seq<JobStatus>, b: seq<JobStatus>, r: JobStatus)
    ensures CountNewer(a + b, r) == CountNewer(a, r) + CountNewer(b, r)
    decreases |a|
  {
    if |a| > 0 {
      assert (a + b)[0] == a[0];
      assert (a + b)[1..] == a[1..] + b;
      CountNewerAppend(a[1..], b, r);
    } else {
      assert a + b == b;
    }
  }

  lemma {:induction false} RankedAtMostAppend(a: seq<JobStatus>, b: seq<JobStatus>, table: seq<JobStatus>, k: nat)
    ensures RankedAtMost(a + b, table, k) == RankedAtMost(a, table, k) + RankedAtMost(b, table, k)
    decreases |a|
  {
    if |a| > 0 {
      assert (a + b)[0] == a[0];
      assert (a + b)[1..] == a[1..] + b;
      RankedAtMostAppend(a[1..], b, table, k);
      var head := if Rank(table, a[0]) <= k then [a[0]] else [];
      calc {
        RankedAtMost(a + b, table, k);
        head + RankedAtMost(a[1..] + b, table, k);
        head + (RankedAtMost(a[1..], table, k) + RankedAtMost(b, table, k));
        (head + RankedAtMost(a[1..], table, k)) + RankedAtMost(b, table, k);
      }
    } else {
      assert a + b == b;
    }
  }

  lemma {:induction false} RankedAtMostNone(rows: seq<JobStatus>, table: seq<JobStatus>)
    ensures RankedAtMost(rows, table, 0) == []
    decreases |rows|
  {
    if |rows| > 0 {
      RankedAtMostNone(rows[1..], table);
    }
  }

  lemma {:induction false} RankedAtMostAll(rows: seq<JobStatus>, table: seq<JobStatus>, k: nat)
    requires forall x :: x in rows ==> Rank(table, x) <= k
    ensures RankedAtMost(rows, table, k) == rows
    decreases |rows|
  {
    if |rows| > 0 {
      assert forall x :: x in rows[1..] ==> x in rows;
      RankedAtMostAll(rows[1..], table, k);
    }
  }

  /** Rows of other jobs never rank above `r`. */
  lemma {:induction false} CountNewerOwnJob(table: seq<JobStatus>, r: JobStatus)
    ensures CountNewer(table, r) == CountNewer(JobRows(table, r.jobId), r)
    decreases |table|
  {
    if |table| > 0 {
      CountNewerOwnJob(table[1..], r);
      var head := if table[0].jobId == r.jobId then [table[0]] else [];
      assert JobRows(table, r.jobId) == head + JobRows(table[1..], r.jobId);
      CountNewerAppend(head, JobRows(table[1..], r.jobId), r);
    }
  }

  lemma {:induction false} CountNewerSameKey(table: seq<JobStatus>, r: JobStatus, s: JobStatus)
    requires r.jobId == s.jobId && r.id == s.id
    ensures CountNewer(table, r) == CountNewer(table, s)
    decreases |table|
  {
    if |table| > 0 {
      CountNewerSameKey(table[1..], r, s);
    }
  }

  /** A newer row ranks strictly higher than `r` once it is in the table. */
  lemma {:induction false} NewerRanksHigher(table: seq<JobStatus>, r: JobStatus, s: JobStatus)
    requires Newer(s, r)
    ensures CountNewer(table, s) <= CountNewer(table, r)
    ensures s in table ==> CountNewer(table, s) < CountNewer(table, r)
    decreases |table|
  {
    if |table| > 0 {
      NewerRanksHigher(table[1..], r, s);
      assert s in table ==> s == table[0] || s in table[1..];
    }
  }

  // ---------------------------------------------------------------------
  // Compaction is per job

  lemma {:induction false} RankedAtMostPerJob(rows: seq<JobStatus>, table: seq<JobStatus>, k: nat, jobId: int)
    ensures JobRows(RankedAtMost(rows, table, k), jobId)
         == RankedAtMost(JobRows(rows, jobId), JobRows(table, jobId), k)
    decreases |rows|
  {
    var own := JobRows(table, jobId);
    if |rows| == 0 {
      assert JobRows(rows, jobId) == [];
    } else {
      var x := rows[0];
      var keptTail := RankedAtMost(rows[1..], table, k);
      var ownTail := JobRows(rows[1..], jobId);
      RankedAtMostPerJob(rows[1..], table, k, jobId);
      var head := if Rank(table, x) <= k then [x] else [];
      var ownHead := if x.jobId == jobId then [x] else [];
      assert RankedAtMost(rows, table, k) == head + keptTail;
      assert JobRows(rows, jobId) == ownHead + ownTail;
      JobRowsAppend(head, keptTail, jobId);
      RankedAtMostAppend(ownHead, ownTail, own, k);
      if x.jobId == jobId {
        CountNewerOwnJob(table, x);
        assert JobRows(head, jobId) == head;
        assert RankedAtMost(ownHead, own, k) == head;
      } else {
        assert JobRows(head, jobId) == [];
        assert RankedAtMost(ownHead, own, k) == [];
      }
    }
  }

  lemma {:induction false} JobRowsAppend(a: seq<JobStatus>, b: seq<JobStatus>, jobId: int)
    ensures JobRows(a + b, jobId) == JobRows(a, jobId) + JobRows(b, jobId)
    decreases |a|
  {
    if |a| > 0 {
      assert (a + b)[0] == a[0];
      assert (a + b)[1..] == a[1..] + b;
      JobRowsAppend(a[1..], b, jobId);
      var head := if a[0].jobId == jobId then [a[0]] else [];
      calc {
        JobRows(a + b, jobId);
        head + JobRows(a[1..] + b, jobId);
        head + (JobRows(a[1..], jobId) + JobRows(b, jobId));
        (head + JobRows(a[1..], jobId)) + JobRows(b, jobId);
      }
    } else {
      assert a + b == b;
    }
  }

  /** Compacting the whole table and then looking at one job gives the same
      rows as compacting that job's rows alone: other jobs' rows are neither
      consulted nor touched. */
  lemma CleanIsPerJob(table: seq<JobStatus>, jobId: int)
    ensures JobRows(CleanStatusTable(table), jobId) == CleanStatusTable(JobRows(table, jobId))
  {
    RankedAtMostPerJob(table, table, 2, jobId);
  }

  // ---------------------------------------------------------------------
  // Exactly min(2, n) rows per job survive

  /** Compaction never empties a non-empty table: the row with the largest
      id has rank one. */
  lemma CleanKeepsSomeRow(table: seq<JobStatus>)
    ensures |table| > 0 ==> |CleanStatusTable(table)| > 0
  {
    if |table| > 0 {
      var m := table[MaxIdIndex(table)];
      NoneNewerThanMax(table, m);
      assert m in CleanStatusTable(table);
    }
  }

  function MaxIdIndex(u: seq<JobStatus>): (i: nat)
    requires |u| > 0
    ensures i < |u|
    ensures forall x :: x in u ==> x.id <= u[i].id
    decreases |u|
  {
    if |u| == 1 then 0
    else
      var j := MaxIdIndex(u[1..]);
      assert forall x :: x in u ==> x == u[0] || x in u[1..];
      if u[0].id >= u[j + 1].id then 0 else j + 1
  }

  /** `u` without its `i`-th row. */
  function Without(u: seq<JobStatus>, i: nat): (rest: seq<JobStatus>)
    requires i < |u|
    ensures |rest| == |u| - 1
    ensures forall x :: x in rest ==> x in u
  {
    u[..i] + u[i + 1..]
  }

  /** In one job's rows with distinct ids, exactly min(k, n) rows have rank
      at most k: remove the newest row, which has rank one and raises every
      other row's rank by one, and apply the claim for k - 1. */
  lemma {:induction false} RankedCount(u: seq<JobStatus>, jobId: int, k: nat)
    requires forall x :: x in u ==> x.jobId == jobId
    requires DistinctIds(u)
    ensures |RankedAtMost(u, u, k)| == Min(k, |u|)
    decreases |u|
  {
    if |u| == 0 {
    } else if k == 0 {
      RankedAtMostNone(u, u);
    } else {
      var i := MaxIdIndex(u);
      var rest := Without(u, i);
      RemoveNewestShiftsRanks(u, jobId, i);
      NoneNewerThanMax(u, u[i]);
      SplitAtNewest(u, i, k);
      RemoveKeepsDistinct(u, i);
      RankedCount(rest, jobId, k - 1);
    }
  }

  lemma SplitAtNewest(u: seq<JobStatus>, i: nat, k: nat)
    requires i < |u| && k >= 1
    requires CountNewer(u, u[i]) == 0
    requires forall x :: x in Without(u, i) ==>
      CountNewer(u, x) == CountNewer(Without(u, i), x) + 1
    ensures |RankedAtMost(u, u, k)| == 1 + |RankedAtMost(Without(u, i), Without(u, i), k - 1)|
  {
    var m, pre, post := u[i], u[..i], u[i + 1..];
    var rest := Without(u, i);
    assert rest == pre + post;
    assert u == pre + [m] + post;
    SplitRankedAround(pre, m, post, u, k);
    ShiftRankedAround(pre, post, u, k);
  }

  /** When every row of `pre + post` has one newer row more in `table` than
      in `pre + post`, ranking within `table` up to `k` keeps as many rows as
      ranking within `pre + post` up to `k - 1`. */
  lemma ShiftRankedAround(pre: seq<JobStatus>, post: seq<JobStatus>, table: seq<JobStatus>, k: nat)
    requires k >= 1
    requires forall x :: x in pre + post ==> CountNewer(table, x) == CountNewer(pre + post, x) + 1
    ensures |RankedAtMost(pre, table, k)| + |RankedAtMost(post, table, k)|
         == |RankedAtMost(pre + post, pre + post, k - 1)|
  {
    var rest := pre + post;
    assert forall x :: x in pre ==> x in rest;
    assert forall x :: x in post ==> x in rest;
    RankShift(pre, table, rest, k);
    RankShift(post, table, rest, k);
    RankedAtMostAppend(pre, post, rest, k - 1);
  }

  /** A row with no newer row always survives, and splits the ranked rows
      around it. */
  lemma SplitRankedAround(pre: seq<JobStatus>, m: JobStatus, post: seq<JobStatus>, table: seq<JobStatus>, k: nat)
    requires k >= 1 && CountNewer(table, m) == 0
    ensures |RankedAtMost(pre + [m] + post, table, k)|
         == |RankedAtMost(pre, table, k)| + 1 + |RankedAtMost(post, table, k)|
  {
    assert pre + [m] + post == pre + ([m] + post);
    RankedAtMostAppend(pre, [m] + post, table, k);
    RankedAtMostAppend([m], post, table, k);
    assert RankedAtMost([m], table, k) == [m];
  }

  /** Removing the newest row of a job lowers every other row's count of
      newer rows by exactly one. */
  lemma RemoveNewestShiftsRanks(u: seq<JobStatus>, jobId: int, i: nat)
    requires i < |u|
    requires forall x :: x in u ==> x.jobId == jobId
    requires forall x :: x in u ==> x.id <= u[i].id
    requires DistinctIds(u)
    ensures forall x :: x in Without(u, i) ==>
      CountNewer(u, x) == CountNewer(Without(u, i), x) + 1
  {
    var rest := Without(u, i);
    forall x | x in rest
      ensures CountNewer(u, x) == CountNewer(rest, x) + 1
    {
      var q :| 0 <= q < |rest| && rest[q] == x;
      var p := if q < i then q else q + 1;
      assert u[p] == x;
      NewestIsNewer(u, jobId, i, p);
      CountWithout(u, i, x);
    }
  }

  lemma NewestIsNewer(u: seq<JobStatus>, jobId: int, i: nat, p: nat)
    requires i < |u| && p < |u| && p != i
    requires forall x :: x in u ==> x.jobId == jobId
    requires forall x :: x in u ==> x.id <= u[i].id
    requires DistinctIds(u)
    ensures Newer(u[i], u[p])
  {
    assert u[p] in u && u[i] in u;
    if p < i {
      assert u[p].id != u[i].id;
    } else {
      assert u[i].id != u[p].id;
    }
  }

  lemma CountWithout(u: seq<JobStatus>, i: nat, x: JobStatus)
    requires i < |u|
    ensures CountNewer(u, x)
         == CountNewer(Without(u, i), x) + (if Newer(u[i], x) then 1 else 0)
  {
    var pre, post := u[..i], u[i + 1..];
    assert u == pre + ([u[i]] + post);
    CountNewerAppend(pre, [u[i]] + post, x);
    CountNewerAppend([u[i]], post, x);
    CountNewerAppend(pre, post, x);
  }

  lemma RemoveKeepsDistinct(u: seq<JobStatus>, i: nat)
    requires i < |u|
    requires DistinctIds(u)
    ensures DistinctIds(Without(u, i))
  {
    var rest := Without(u, i);
    forall a, b | 0 <= a < b < |rest|
      ensures rest[a].id != rest[b].id
    {
      var a' := if a < i then a else a + 1;
      var b' := if b < i then b else b + 1;
      assert rest[a] == u[a'] && rest[b] == u[b'];
    }
  }

  lemma {:induction false} NoneNewerThanMax(table: seq<JobStatus>, m: JobStatus)
    requires forall x :: x in table ==> x.id <= m.id
    ensures CountNewer(table, m) == 0
    decreases |table|
  {
    if |table| > 0 {
      assert forall x :: x in table[1..] ==> x in table;
      NoneNewerThanMax(table[1..], m);
    }
  }

  lemma {:induction false} RankShift(rows: seq<JobStatus>, t1: seq<JobStatus>, t2: seq<JobStatus>, k: nat)
    requires k >= 1
    requires forall x :: x in rows ==> CountNewer(t1, x) == CountNewer(t2, x) + 1
    ensures RankedAtMost(rows, t1, k) == RankedAtMost(rows, t2, k - 1)
    decreases |rows|
  {
    if |rows| > 0 {
      assert forall x :: x in rows[1..] ==> x in rows;
      RankShift(rows[1..], t1, t2, k);
    }
  }

  lemma {:induction false} JobRowsDistinct(table: seq<JobStatus>, jobId: int)
    requires DistinctIds(table)
    ensures DistinctIds(JobRows(table, jobId))
    decreases |table|
  {
    if |table| > 0 {
      assert DistinctIds(table[1..]);
      JobRowsDistinct(table[1..], jobId);
      var tail := JobRows(table[1..], jobId);
      forall x | x in tail
        ensures x in table[1..]
      {
        JobRowsMember(table[1..], jobId, x);
      }
      forall x | x in tail
        ensures x.id != table[0].id
      {
        var q :| 0 <= q < |table[1..]| && table[1..][q] == x;
        assert table[q + 1] == x;
      }
    }
  }

  /** With distinct status ids, compaction leaves exactly min(2, n) rows of a
      job that had n rows. */
  lemma CleanKeepsTwoPerJob(table: seq<JobStatus>, jobId: int)
    requires DistinctIds(table)
    ensures |JobRows(CleanStatusTable(table), jobId)| == Min(2, |JobRows(table, jobId)|)
  {
    CleanIsPerJob(table, jobId);
    JobRowsDistinct(table, jobId);
    RankedCount(JobRows(table, jobId), jobId, 2);
  }

  /** Every row compaction keeps has a greater id than every row of the same
      job it deletes: the survivors are the newest. */
  lemma CleanKeepsNewest(table: seq<JobStatus>, kept: JobStatus, dropped: JobStatus)
    requires kept in CleanStatusTable(table)
    requires dropped in table && dropped !in CleanStatusTable(table)
    requires dropped.jobId == kept.jobId
    ensures dropped.id < kept.id
  {
    if dropped.id > kept.id {
      NewerRanksHigher(table, kept, dropped);
    } else if dropped.id == kept.id {
      CountNewerSameKey(table, kept, dropped);
    }
  }

  // ---------------------------------------------------------------------
  // Idempotence

  lemma {:induction false} CountNewerSurvives(rows: seq<JobStatus>, table: seq<JobStatus>, r: JobStatus)
    requires forall s :: s in rows && Newer(s, r) ==> Rank(table, s) <= 2
    ensures CountNewer(RankedAtMost(rows, table, 2), r) == CountNewer(rows, r)
    decreases |rows|
  {
    if |rows| > 0 {
      assert forall s :: s in rows[1..] ==> s in rows;
      CountNewerSurvives(rows[1..], table, r);
      var head := if Rank(table, rows[0]) <= 2 then [rows[0]] else [];
      CountNewerAppend(head, RankedAtMost(rows[1..], table, 2), r);
    }
  }

  /** Compacting an already compacted table deletes nothing. */
  lemma CleanIdempotent(table: seq<JobStatus>)
    ensures CleanStatusTable(CleanStatusTable(table)) == CleanStatusTable(table)
  {
    var kept := CleanStatusTable(table);
    forall r | r in kept
      ensures Rank(kept, r) <= 2
    {
      forall s | s in table && Newer(s, r)
        ensures Rank(table, s) <= 2
      {
        NewerRanksHigher(table, r, s);
      }
      CountNewerSurvives(table, table, r);
    }
    RankedAtMostAll(kept, kept, 2);
  }
}

=== FILE: table_dump.dfy ===
/** createTableDump: pages through an export query, appending every returned
    row to the dump and advancing the offset by the number of rows written,
    until the offset reaches the row count taken beforehand. The loop body
    runs at least once. */
module TableDump {
  import opened Optional
  import opened JobsDb
  import BackupQueries

  /** How a dump ends, with the rows written to the file by then; the
      offset is always the number of rows written. `QueryFailed` is a page
      query, or the scan or write of one of its rows, that failed. `Spins` is
      a batch that returned no rows while the offset was still below the
      count: the loop would then re-issue the same query at the same offset
      for ever. */
  datatype DumpOutcome<T> =
    | Dumped(lines: seq<T>)
    | QueryFailed(lines: seq<T>)
    | Spins(lines: seq<T>)

  /** The loop from the state where `written` holds the rows dumped so far;
      the offset is always `|written|`. A query answers `None` when it fails. */
  function DumpFrom<T>(query: nat -> Option<seq<T>>, totalCount: int, written: seq<T>): (r: DumpOutcome<T>)
    ensures |written| <= |r.lines| && r.lines[..|written|] == written
    ensures r.Dumped? ==> |r.lines| >= totalCount
    ensures r.Spins? ==> |r.lines| < totalCount && query(|r.lines|) == Some([])
    ensures r.QueryFailed? ==> query(|r.lines|).None?
    decreases if |written| <= totalCount then totalCount - |written| else 0
  {
    match query(|written|)
    case None => QueryFailed(written)
    case Some(batch) =>
      var next := written + batch;
      if |next| >= totalCount then Dumped(next)
      else if |batch| == 0 then Spins(written)
      else
        var r := DumpFrom(query, totalCount, next);
        assert r.lines[..|written|] == r.lines[..|next|][..|written|];
        r
  }

  /** The loop from an empty file. Its body runs at least once, so even a
      count of zero issues the first query. */
  function CreateTableDump<T>(query: nat -> Option<seq<T>>, totalCount: int): (r: DumpOutcome<T>)
    ensures r.Dumped? ==> |r.lines| >= totalCount
    ensures r.Spins? ==> |r.lines| < totalCount && query(|r.lines|) == Some([])
    ensures r.QueryFailed? ==> query(|r.lines|).None?
    ensures query(0).None? <==> r == QueryFailed([])
  {
    DumpFrom(query, totalCount, [])
  }

  /** `query` pages through `table`: at every offset up to the end it returns
      a slice of the table starting at that offset, non-empty before the end. */
  ghost predicate ServesTable<T>(query: nat -> Option<seq<T>>, table: seq<T>) {
    forall o: nat :: o <= |table| ==>
      && query(o).Some?
      && o + |query(o).value| <= |table|
      && query(o).value == table[o..o + |query(o).value|]
      && (o < |table| ==> |query(o).value| > 0)
  }

  lemma {:induction false} DumpFromServedTable<T>(query: nat -> Option<seq<T>>, table: seq<T>, o: nat)
    requires ServesTable(query, table)
    requires o <= |table|
    ensures DumpFrom(query, |table|, table[..o]) == Dumped(table)
    decreases |table| - o
  {
    var batch := query(o).value;
    assert |table[..o]| == o;
    assert table[..o] + batch == table[..o + |batch|];
    if o + |batch| < |table| {
      DumpFromServedTable(query, table, o + |batch|);
    } else {
      assert table[..o + |batch|] == table;
    }
  }

  /** With the count equal to the table size, the dump is the whole table in
      order, every row written exactly once. */
  lemma DumpWritesWholeTable<T>(query: nat -> Option<seq<T>>, table: seq<T>)
    requires ServesTable(query, table)
    ensures CreateTableDump(query, |table|) == Dumped(table)
  {
    assert table[..0] == [];
    DumpFromServedTable(query, table, 0);
  }

  lemma {:induction false} DumpFromPastTable<T>(query: nat -> Option<seq<T>>, table: seq<T>, totalCount: int, o: nat)
    requires ServesTable(query, table)
    requires o <= |table| < totalCount
    ensures DumpFrom(query, totalCount, table[..o]) == Spins(table)
    decreases |table| - o
  {
    var batch := query(o).value;
    assert |table[..o]| == o;
    assert table[..o] + batch == table[..o + |batch|];
    if o < |table| {
      DumpFromPastTable(query, table, totalCount, o + |batch|);
    } else {
      assert batch == [];
      assert table[..o] == table;
    }
  }

  /** A count larger than the rows the query can return never terminates:
      once the table is exhausted the loop keeps asking for the same empty
      page. */
  lemma DumpSpinsWhenCountExceedsRows<T>(query: nat -> Option<seq<T>>, table: seq<T>, totalCount: int)
    requires ServesTable(query, table)
    requires totalCount > |table|
    ensures CreateTableDump(query, totalCount) == Spins(table)
  {
    assert table[..0] == [];
    DumpFromPastTable(query, table, totalCount, 0);
  }

  // ---------------------------------------------------------------------
  // The export queries page through their tables

  function JobsQuery(jobs: seq<Job>, rowsBatchSize: nat, maxTotalPayloadSize: int): nat -> Option<seq<Job>> {
    (o: nat) => Some(BackupQueries.JobsBatch(jobs, rowsBatchSize, maxTotalPayloadSize, o))
  }

  function StatusQuery(statuses: seq<JobStatus>, rowsBatchSize: nat): nat -> Option<seq<JobStatus>> {
    (o: nat) => Some(BackupQueries.StatusBatch(statuses, rowsBatchSize, o))
  }

  function FailedOnlyQuery(statuses: seq<JobStatus>, jobs: seq<Job>, rowsBatchSize: nat, maxTotalPayloadSize: int)
    : nat -> Option<seq<BackupQueries.FailedJobRow>>
  {
    (o: nat) => Some(BackupQueries.FailedOnlyBatch(statuses, jobs, rowsBatchSize, maxTotalPayloadSize, o))
  }

  /** A non-empty prefix of every non-empty page serves the table. */
  lemma PagePrefixServes<T>(table: seq<T>, rowsBatchSize: nat, o: nat, batch: seq<T>)
    requires rowsBatchSize > 0 && o <= |table|
    requires |batch| <= |BackupQueries.Page(table, o, rowsBatchSize)|
    requires batch == BackupQueries.Page(table, o, rowsBatchSize)[..|batch|]
    requires o < |table| ==> |batch| > 0
    ensures o + |batch| <= |table| && batch == table[o..o + |batch|]
  {
    var page := BackupQueries.Page(table, o, rowsBatchSize);
    forall i | 0 <= i < |batch|
      ensures batch[i] == table[o + i]
    {
      assert batch[i] == page[i];
    }
  }

  /** A query whose every answer is a prefix of the page at its offset,
      non-empty before the end, serves the table. */
  lemma PagePrefixesServe<T>(query: nat -> Option<seq<T>>, table: seq<T>, rowsBatchSize: nat)
    requires rowsBatchSize > 0
    requires forall o: nat :: o <= |table| ==>
      && query(o).Some?
      && |query(o).value| <= |BackupQueries.Page(table, o, rowsBatchSize)|
      && query(o).value == BackupQueries.Page(table, o, rowsBatchSize)[..|query(o).value|]
      && (|BackupQueries.Page(table, o, rowsBatchSize)| > 0 ==> |query(o).value| > 0)
    ensures ServesTable(query, table)
  {
    forall o: nat | o <= |table|
      ensures o + |query(o).value| <= |table| && query(o).value == table[o..o + |query(o).value|]
      ensures o < |table| ==> |query(o).value| > 0
    {
      PagePrefixServes(table, rowsBatchSize, o, query(o).value);
    }
  }

  lemma JobsQueryServes(jobs: seq<Job>, rowsBatchSize: nat, maxTotalPayloadSize: int)
    requires rowsBatchSize > 0
    ensures ServesTable(JobsQuery(jobs, rowsBatchSize, maxTotalPayloadSize), jobs)
  {
    PagePrefixesServe(JobsQuery(jobs, rowsBatchSize, maxTotalPayloadSize), jobs, rowsBatchSize);
  }

  lemma StatusQueryServes(statuses: seq<JobStatus>, rowsBatchSize: nat)
    requires rowsBatchSize > 0
    ensures ServesTable(StatusQuery(statuses, rowsBatchSize), statuses)
  {
    forall o: nat | o <= |statuses|
      ensures var b := BackupQueries.StatusBatch(statuses, rowsBatchSize, o);
        o + |b| <= |statuses| && b == statuses[o..o + |b|] && (o < |statuses| ==> |b| > 0)
    {
      var b := BackupQueries.StatusBatch(statuses, rowsBatchSize, o);
      assert b == BackupQueries.Page(statuses, o, rowsBatchSize)[..|b|];
      PagePrefixServes(statuses, rowsBatchSize, o, b);
    }
  }

  lemma FailedOnlyQueryServes(statuses: seq<JobStatus>, jobs: seq<Job>, rowsBatchSize: nat, maxTotalPayloadSize: int)
    requires rowsBatchSize > 0
    ensures ServesTable(FailedOnlyQuery(statuses, jobs, rowsBatchSize, maxTotalPayloadSize),
                        BackupQueries.FailedJoin(statuses, jobs))
  {
    PagePrefixesServe(FailedOnlyQuery(statuses, jobs, rowsBatchSize, maxTotalPayloadSize),
                      BackupQueries.FailedJoin(statuses, jobs), rowsBatchSize);
  }
}
